=== FILE: README.md ===
# Tomato leaf disease pipeline — a Dafny model

This project models the rule-bearing core of a tomato-leaf disease
detector. The system has three parts:

- a Python data pipeline: the workflow runner, the augmenter, the dataset
  organizer, the preprocessor and the `.npy` loader of the two trainers;
- the training configuration: the class check, the classifier head, the
  phase-2 freezing slice and the calibration images;
- two cloud front ends: a Python HTTP function and Firebase functions
  written in JavaScript.

The deep-learning, image-processing, storage and database calls are oracles
passed in as function values. These include TensorFlow, Keras, OpenCV, PIL,
sharp, sklearn's `train_test_split`, Firestore and Cloud Storage. Most
oracles either produce a value or fail; a few calls that can fail in the
code are taken to succeed, and "## Left out" lists them. Everything decided
around these calls is modelled and proved:

- which files are read;
- which names are written, and in what order;
- which errors the modelled checks and the fallible oracles raise;
- which status codes and document states result.

Modules, one file each:

- `Common` (`common.dfy`): `Option`/`Result`, bytes, and the Python string
  helpers the scripts rely on. These are `str.lower`, `str.endswith`,
  `os.path.splitext`, `str(int)` (with its parse-back round trip) and
  `sorted` on strings.
- `FileTree` (`filetree.dfy`): a directory tree as the scripts see it through
  `os.listdir`. A directory is a sequence of named entries in listing order
  rather than a map, because that order decides labels, splitter input and
  write order. A lookup by name finds the first entry with that name.
- `Workflow` (`workflow.dfy`): `run_workflow.py`. Flags become a command
  list, which runs until the first non-zero exit status.
- `Augment` (`augment.dfy`): `augment_dataset.py`. This covers the retry
  loop with its 3×N budget, the two photometric filters (in exact rational
  arithmetic) and the output names.
- `PrepareDataset` (`prepare.dfy`): `prepare_dataset.py`. This covers
  structure verification, the split policy, copies and counters.
- `Preprocess` (`preprocess.dfy`): `preprocess.py`. This covers the dataset
  check, the `.npy` naming and what gets saved.
- `NpyLoader` (`loader.dfy`): `load_preprocessed_data`. The text is the same
  in `train_model.py` and `train_model_alternative.py`. This module also
  holds the `class_info` record of the alternative trainer.
- `TomatoCnn` (`tomato_cnn.dfy`): `tomato_cnn.py`. This covers the
  train/validation class check, the head width, the phase-2 freezing and
  the calibration images.
- `CloudHandler` (`cloud_handler.dfy`): `cloud/main.py`. This covers the
  load-once guard, the CORS preflight, request validation and result
  construction.
- `CloudFunctions` (`cloud_functions.dfy`): `cloud/functions/index.js`. This
  covers `classifyImage`, the image-document workflow, `testModel`,
  `exportModelToTFLite` and the disease statistics.

The class-name constants are kept apart, as the sources define them:

- `PrepareDataset.ExpectedClasses` ends in `septoria_leaf`.
- `CloudFunctions.ClassNames` ends in `tomato_yellow_leaf_curl_virus`.

A few behaviours of the code, visible in the proofs:

- In `preprocess.py`, `leaf.jpg` and `leaf.png` in one class both become
  `leaf.npy`, so the later one overwrites the earlier
  (`Preprocess.ExtensionsCollide`).
- In `prepare_dataset.py`, `processed_files` exceeds `total_files` by the
  number of single-image classes (`PrepareDataset.ProcessedCount`).
- In `cloud/main.py`, a cold start whose class-info file fails leaves the
  model set without class names. Every later usable request then gets a 500
  (`CloudHandler.ClassInfoFailureIsSticky`).
- In `index.js`, a prediction row longer than the class list can give a
  confidence with an undefined class (`CloudFunctions.ClassMayBeUndefined`).
  Firestore rejects `undefined` field values unless told to ignore them, and
  nothing tells it to. So the result write of such a row raises, and so
  does the write of an empty row. The document then ends in `error`
  (`CloudFunctions.StorableIff`, `CloudFunctions.SuccessfulAnalysis`).
- In `augment_dataset.py`, `leaf.jpg` and `leaf.png` in one class both write
  `leaf_original.jpg` (and the same `leaf_aug_k.jpg` names), so the later
  image's outputs replace the earlier one's (`Augment.ImageOutputNames`).
- In `index.js`, the download destination is `os.tmpdir()` joined with the
  whole `image_path`, a sub-directory named after the bucket that no code
  creates, and a path without `/` passes `undefined` as the object name
  (`CloudFunctions.StorageLocation`). By the libraries' documented
  behaviour both make the download raise; the model leaves the outcome to
  the `Download` step, so the success half of
  `CloudFunctions.SuccessfulAnalysis` assumes a download the code as
  written can hardly complete.
- In `augment_dataset.py`, the `__main__` block reads no command-line
  options. It always uses 3 samples per image and fixed directories, so the
  `--samples`, `--input_dir` and `--output_dir` that `run_workflow.py`
  passes are never read.

## Model

| member | source | states |
|---|---|---|
| Common.SplitExt | augment_dataset.py:53 | `os.path.splitext` on a bare name: stem + extension give the name back; the extension is empty or one dot followed by no further dot; it is non-empty exactly when the last dot has a non-dot character before it |
| Common.SplitExtExamples | preprocess.py:81 | `leaf.tar.jpg` splits at the last dot; a leading-dot name such as `.jpg` and a name without a dot have no extension |
| Common.UpperCaseExtensionSplitsFilters | prepare_dataset.py:76-77 | `leaf.JPG` passes the case-insensitive filter of the augmenter and preprocessor but not the case-sensitive filter of the organizer |
| Common.ExactImplies | augment_dataset.py:33-34 | every name the organizer's case-sensitive filter accepts, the case-insensitive filter accepts too |
| Common.IntDecimalRoundTrip | run_workflow.py:61 | the sample count printed into the augment command reads back as the same integer, negative counts included |
| Common.IntToDecimalInjective | run_workflow.py:61 | distinct sample counts print as distinct strings |
| Common.SortStrings | train_model.py:10 | `sorted(os.listdir(...))` yields a lexicographically sorted permutation of the listing |
| Common.SortIgnoresListingOrder | train_model.py:10 | any two listings holding the same names sort to the same class list |
| FileTree.Find | prepare_dataset.py:23-24 | a name resolves in a directory exactly when some entry carries it, and then to that entry's node |
| Workflow.SelectedSteps | run_workflow.py:52-80 | a step is selected iff its flag or `--all` is set; selected steps come in pipeline order; some step is selected iff some flag is given |
| Workflow.PlanFollowsSelection | run_workflow.py:46-80 | the four conditional appends build exactly the selected steps' commands, in order preprocess, augment, prepare, train |
| Workflow.AllSelectsEveryStep | run_workflow.py:52-80 | `--all` selects all four steps in pipeline order |
| Workflow.PlanHasNoDuplicates | run_workflow.py:52-80 | no command appears twice in a plan |
| Workflow.AugmentCommandShape | run_workflow.py:60-66 | the augment command is `--augment --samples <n>`, followed by `--input_dir` only when a raw directory is given and `--output_dir` only when an augmented directory is given |
| Workflow.AugmentSamplesRecoverable | run_workflow.py:61 | the `--samples` token of the augment command reads back as the requested count |
| Workflow.DirectoryOptionsIgnored | run_workflow.py:53-58 | changing directory options changes neither the selection nor the preprocess, prepare and train commands (lines 69-80), and leaves the whole plan unchanged when the augment options agree |
| Workflow.FirstFailure | run_workflow.py:83-88 | the index found is the first command with a non-zero exit status; none is found iff every command exits 0 |
| Workflow.RunCommands | run_workflow.py:83-91 | the runner starts the commands in order up to and including the first failure and returns its status; when none fails it starts them all and returns 0 |
| Workflow.RunWorkflow | run_workflow.py:41-91 | without a step flag it returns 1 and starts nothing; otherwise it returns 0 iff every planned command succeeds, and a non-zero result is the status of the last command started, all earlier ones having succeeded |
| Augment.VarianceNonNegative | augment_dataset.py:70-74 | the population variance is never negative, so `std < 25` is the same test as `variance < 625` |
| Augment.FlatGreyImageRejected | augment_dataset.py:70-74 | a single-shade grey candidate has variance 0 and is rejected |
| Augment.ChannelMeansNonNegative | augment_dataset.py:77-78 | the three channel means of a candidate are never negative |
| Augment.AcceptedAreAcceptable | augment_dataset.py:62-86 | the reference list of accepted draws holds exactly the draws that pass the filter, each one a passing candidate |
| Augment.RunMatchesReference | augment_dataset.py:59-64 | the loop's attempts stay within the budget; what it keeps is exactly the passing draws among its attempts; it stops with the quota met or the budget spent |
| Augment.RunStopsAtFirst | augment_dataset.py:62 | the loop stops at the first attempt that meets the quota: one attempt fewer had not met it |
| Augment.KeptIsReference | augment_dataset.py:62-86 | per source image: attempts ≤ 3×N; kept = passing draws among the attempts; kept ≤ N; quota met or budget spent; no kept candidate is low-contrast or colour-imbalanced |
| Augment.AugmentWith | augment_dataset.py:58-86 | the loop for any acceptance test writes the original and then the accepted candidates under consecutive numbers, with every iteration using one attempt |
| Augment.AugmentImage | augment_dataset.py:53-88 | per readable image: the original comes first; outputs number accepted+1; accepted ≤ attempts ≤ 3×N; accepted ≤ N; the loop exits only at the quota or the budget; output k is named `<base>_aug_k` and passes both filters |
| Augment.ImageOutputNames | augment_dataset.py:54-84 | every output name is `<base>_original.jpg` or `<base>_aug_k.jpg` with 1 ≤ k ≤ N |
| Augment.AugmentDataset | augment_dataset.py:23 | a missing input directory and an input that is a plain file both raise |
| Augment.DatasetOutputsProvenance | augment_dataset.py:23-43 | every written file comes from a class directory (plain files at the top level are skipped), from an image-named entry (case-insensitive) that decodes |
| Augment.OriginalAlwaysWritten | augment_dataset.py:53-55 | every readable image-named file writes its `_original.jpg`, even when no variant is accepted |
| PrepareDataset.VerifyDatasetStructure | prepare_dataset.py:15-34 | a missing source is reported as such; otherwise the missing class folders are exactly the expected classes without an entry, in `EXPECTED_CLASSES` order |
| PrepareDataset.VerifiedIffAllClassesExist | prepare_dataset.py:15-34 | verification passes iff the source exists and every expected class has an entry |
| PrepareDataset.ImageFiles | prepare_dataset.py:89-90 | the files kept are exactly the names ending case-sensitively in `.jpg`, `.jpeg` or `.png`, in listing order |
| PrepareDataset.SplitKeepsEveryFile | prepare_dataset.py:92-104 | with a splitter that deals each file to one side, as `train_test_split` does, no image of a class is lost: a class of two or more images has each image on exactly one side, as often as it is listed; a smaller class has every image on both sides |
| PrepareDataset.DealingPartitions | prepare_dataset.py:96-104 | a splitter that deals each file to one side returns lists whose lengths add up to the class size, which the `processed_files` count relies on |
| PrepareDataset.CopyFiles | prepare_dataset.py:110-126 | the copies keep their source names and order within the split and class; every copy is the enhanced image; copying stops at the first unreadable file, which is named |
| PrepareDataset.ClassDirs | prepare_dataset.py:68-69 | an entry of the source is a class iff it is a directory; plain files are never classes |
| PrepareDataset.OrganizeDataset | prepare_dataset.py:57-69 | a missing source and a source that is a plain file both raise |
| PrepareDataset.SmallClassCopiedToBoth | prepare_dataset.py:93-97 | a readable class with fewer than two images writes each of them to training, then each again to validation |
| PrepareDataset.CopiesComeFromPlan | prepare_dataset.py:110-124 | every copy goes to `train/<class>/` or `validation/<class>/` under its source name, from that class's planned list |
| PrepareDataset.ProcessedIsPlanned | prepare_dataset.py:110-126 | with every image readable, `processed_files` is the sum of the training and validation list lengths |
| PrepareDataset.PlannedExceedsTotal | prepare_dataset.py:74-104 | with a splitter that partitions its input, the planned copies exceed `total_files` by exactly the number of single-image classes |
| PrepareDataset.ProcessedCount | prepare_dataset.py:74-126 | with every image readable, `processed_files` ends at `total_files` plus the number of single-image classes |
| Preprocess.ImageNamesIn | preprocess.py:21-23 | a class directory's count is positive iff it holds a name with a png/jpg/jpeg extension, case-insensitively |
| Preprocess.CountPositiveIffClassImage | preprocess.py:17-26 | the image count is positive iff some class directory holds an image name |
| Preprocess.TopLevelFilesIgnored | preprocess.py:18-20 | a plain file at the top level never changes the count |
| Preprocess.CheckDataset | preprocess.py:5-35 | a missing directory gives false; a directory gives true iff some class directory holds an image name; listing a plain file raises |
| Preprocess.NpyName | preprocess.py:80-81 | the output name is the stem `os.path.splitext` gives, followed by `.npy`; the input name is that stem followed by an extension that is empty or a dot followed by no other dot |
| Preprocess.NpyNamesCollideIffSameStem | preprocess.py:80-81 | two image names are saved under the same `.npy` name exactly when their stems agree, whatever their extensions |
| Preprocess.ProcessDataset | preprocess.py:63-86 | a missing input and an input that is a plain file raise; at most one array is saved per counted image name |
| Preprocess.SavesProvenance | preprocess.py:65-86 | every save comes from a readable, image-named file in a class directory, under `<class>/<stem>.npy` |
| Preprocess.ReadableImageSaved | preprocess.py:75-86 | every readable image-named file of a class directory is saved |
| Preprocess.ExtensionsCollide | preprocess.py:80-81 | `leaf.jpg` and `leaf.png` are saved under the same `leaf.npy` |
| NpyLoader.NpyFiles | train_model.py:22 | the files loaded are exactly the entries ending in `.npy`, in listing order |
| NpyLoader.LoadPreprocessedData | train_model.py:5-37 | a missing directory raises FileNotFoundError; an empty listing raises ValueError; the load fails exactly when some class directory holds a `.npy` entry that does not load; "No images found" is raised exactly when the listing is non-empty and no class directory holds a `.npy` entry; when some `.npy` entry exists and every one loads, the load succeeds; on success the class names are the sorted listing, images and labels have equal non-zero length, and every label is below the number of class names |
| NpyLoader.LoadFilesFailsIff | train_model.py:28-32 | the loop over one class fails exactly when one of its `.npy` entries does not load |
| NpyLoader.LoadFromFailsIff | train_model.py:17-32 | the loop over the classes from index i fails exactly when one of those classes holds an unloadable `.npy` entry |
| NpyLoader.LabelCounts | train_model.py:17-32 | class j labels exactly as many images as its directory has `.npy` files; a plain file labels none but keeps its index |
| NpyLoader.LabelsAscend | train_model.py:17-32 | labels come in class order |
| NpyLoader.ImagesFromTheirClass | train_model_alternative.py:19-34 | each image is the load of a `.npy` file of the class its label names |
| NpyLoader.LoadedFacts | train_model_alternative.py:7-39 | a successful load has ascending labels, per-class counts equal to the `.npy` counts, and every image from its own class |
| NpyLoader.ClassNamesIgnoreListingOrder | train_model_alternative.py:12 | the same names listed in any order give the same class vocabulary |
| NpyLoader.TrainedClassInfo | train_model_alternative.py:97-179 | the record is written iff loading succeeds and every later step of the script returns (the `trained` argument); it holds the sorted class list covering the whole listing, input shape [96, 96, 3] and version "1.0" |
| TomatoCnn.CheckClasses | tomato_cnn.py:88-95 | the check passes iff the training and validation class names agree as sets, returning the training names; otherwise it raises the mismatch |
| TomatoCnn.OrderDoesNotMatter | tomato_cnn.py:93-95 | the same classes in another order never raise |
| TomatoCnn.MissingClassRaises | tomato_cnn.py:93-95 | a class present on one side only always raises |
| TomatoCnn.HeadWidthIsClassCount | tomato_cnn.py:16-21 | the model's output width is the number of classes, through a softmax |
| TomatoCnn.SliceEnd | tomato_cnn.py:153 | Python's `[:stop]` bound: a negative stop counts from the end and clamps at 0 |
| TomatoCnn.Phase2Trainable | tomato_cnn.py:149-154 | layer i is trainable in phase 2 iff i ≥ len − 20 |
| TomatoCnn.Phase2FrozenCount | tomato_cnn.py:153-154 | phase 2 freezes len − 20 layers, and none when there are 20 or fewer |
| TomatoCnn.ClassCalibration | tomato_cnn.py:49-57 | a class yields its first min(20, n) entries in listing order, each the load of the matching file, or raises at an entry that does not load |
| TomatoCnn.AllCalibration | tomato_cnn.py:45-57 | success means every top-level entry was a directory, and at most 20 images per class were yielded |
| TomatoCnn.RepresentativeDataset | tomato_cnn.py:41-57 | a missing `train/` raises; otherwise at most 20 × #classes images are yielded |
| TomatoCnn.CalibrationCountExact | tomato_cnn.py:45-57 | the yield is exactly the sum over classes of min(20, entries) |
| CloudHandler.Lookup | cloud/main.py:79 | the `image` value is the last member with that key; it is absent iff no member carries the key |
| CloudHandler.EnsureLoaded | cloud/main.py:19-32 | a set model is never reloaded; on an unset model, a full load makes the globals the loaded model and class names with nothing raised, a class-info failure sets the model, keeps the old class names and raises its reason, and a failure before the model is set leaves the globals unchanged |
| CloudHandler.ArgMax | cloud/main.py:101 | `np.argmax`: an index holding a value at least every other, and above every earlier one |
| CloudHandler.Probabilities | cloud/main.py:109-112 | the probability map has exactly the class names as keys |
| CloudHandler.BuildResult | cloud/main.py:101-113 | an empty row, unset class names, an arg-max past the class list or a class list longer than the row each raise; otherwise the result is the first arg-max class, its value and the probability map |
| CloudHandler.LoadedOnce | cloud/main.py:53-54 | once the model is set, no request, preflight included, changes the globals or depends on the loader |
| CloudHandler.PreflightResponse | cloud/main.py:53-66 | OPTIONS loads the model when unset, then answers 204 with an empty body and the four CORS headers |
| CloudHandler.InvalidBodyRejected | cloud/main.py:72-76 | a missing, unparsable or falsy body, or an object without `image`, gets 400 with the invalid-request message |
| CloudHandler.EmptyImageRejected | cloud/main.py:79-83 | a present but falsy `image` gets 400 `Empty image data` |
| CloudHandler.ResponsesAllowAnyOrigin | cloud/main.py:69-120 | every non-preflight reply has status 200, 400 or 500 and carries `Access-Control-Allow-Origin: *`; every 500 starts with `Error processing image: ` |
| CloudHandler.ProcessingOutcome | cloud/main.py:85-120 | for an object body with a truthy `image`, an exception from inference or from building the result gives 500 with its message after `Error processing image: `, and a row that builds gives 200 with the built result |
| CloudHandler.SuccessfulPrediction | cloud/main.py:100-115 | a 200 answers an object body with a truthy `image` that the model accepted; with `p` the row the model returned for it and `i` its first arg-max index, the body names class `i` with confidence `p[i]`, which is at least every probability and above every earlier one, and maps each class name to its probability |
| CloudHandler.DistinctNamesKeepTheirProbability | cloud/main.py:109-112 | with distinct class names, each name maps to the prediction at its own index |
| CloudHandler.StringBodyEscapes | cloud/main.py:73-79 | a JSON string containing `image` passes the key check and then raises outside the error reply |
| CloudHandler.ClassInfoFailureIsSticky | cloud/main.py:19-29 | a class-info failure on a cold start leaves the model set without names, and later usable requests get 500 |
| CloudFunctions.Classify | cloud/functions/index.js:66-76 | the confidence is absent iff the row is empty, and then so is the class; otherwise class and confidence come from one index `i` of the row whose value is at least every probability and above every earlier one: the class is `CLASS_NAMES[i]` (undefined past the list) and the confidence is `p[i]`; a defined class is one of the four names; entry k pairs `CLASS_NAMES[k]` with p[k] |
| CloudFunctions.Max | cloud/functions/index.js:67 | `Math.max`: a value of the row at least every other |
| CloudFunctions.IndexOf | cloud/functions/index.js:67 | `indexOf`: the first index holding the value, or -1 iff none does |
| CloudFunctions.ClassifyImage | cloud/functions/index.js:59-77 | the max-then-indexOf loop picks the same index as the server's `np.argmax`: the class is `CLASS_NAMES` at that index and the confidence the row's value there, nothing for an empty row, with one probability entry per prediction in order |
| CloudFunctions.ClassMayBeUndefined | cloud/functions/index.js:67-71 | a five-entry row peaking at index 4 yields a confidence with no class |
| CloudFunctions.SplitJoin | cloud/functions/index.js:99-100 | splitting a path on `/` loses nothing: joining the parts gives it back |
| CloudFunctions.StorageLocation | cloud/functions/index.js:99-100 | the bucket is `gs://` plus the segment before the first `/`; the file name is the second segment, undefined iff the path has no `/` |
| CloudFunctions.StorageLocationOfPair | cloud/functions/index.js:99-100 | `bucket/file` splits into `gs://bucket` and `file` |
| CloudFunctions.StorableIff | cloud/functions/index.js:66-76 | a classification has no undefined field exactly when its row is non-empty and no longer than the class list |
| CloudFunctions.Classifying | cloud/functions/index.js:93-118 | after `processing`, the statuses end in processing, completed or error; the document's status is the last one written; path and device are unchanged; a completion stores the classification, which is then one of the four names with a defined confidence; a row that is empty or longer than the class list never completes; when the error status can be written, a raising download, preprocess, predict or result write, or an unstorable result, ends the statuses in processing, error |
| CloudFunctions.Reporting | cloud/functions/index.js:120-157 | after completion only status and error message can change; a notification is stored only when the rule holds; when the error status can be written, the document ends in `error` exactly when the device update, the due notification or the file removal raises |
| CloudFunctions.ReportingRaise | cloud/functions/index.js:120-157 | after completion, with the error status writable, the document ends in `error` exactly when a reporting step raises, and its message is the first one raised |
| CloudFunctions.NotPendingUntouched | cloud/functions/index.js:86-89 | a document not `pending_analysis` is left unmodified and nothing else is written |
| CloudFunctions.StatusHistory | cloud/functions/index.js:95-157 | the statuses written to a pending document follow one of the six paths from processing through completed, with `error` only ever last; its final status is the last written |
| CloudFunctions.AnyRaiseEndsInError | cloud/functions/index.js:93-157 | when any step raises or the result cannot be stored, and the error status can be written, a pending document ends in `error`; for a row the class list covers its message is the first one raised along the steps, otherwise the first one raised before the write or else the undefined-value message |
| CloudFunctions.DocumentFields | cloud/functions/index.js:112-157 | path and device never change; an error status carries its message; a completion carries the classification |
| CloudFunctions.SuccessfulAnalysis | cloud/functions/index.js:93-160 | with no step raising, a row the class list covers ends `completed` with the result and updates the device's latest result; any other row fails at the result write, touches neither device nor notifications, and ends `error` with the undefined-value message unless that last write raises |
| CloudFunctions.NotificationRule | cloud/functions/index.js:127-143 | a notification is stored only for a class other than `healthy_leaf` with confidence > 0.7 whose result could be stored; when no step raises, it is stored exactly then |
| CloudFunctions.ThresholdIsStrict | cloud/functions/index.js:127 | 0.7 exactly does not notify, 0.71 does, and a healthy leaf never does |
| CloudFunctions.FirstRaised | cloud/functions/index.js:165-196 | the message reported is that of the first step to raise; there is none iff no step raises |
| CloudFunctions.FirstRaisedAppend | cloud/functions/index.js:93-157 | the first message raised along two runs of steps is the first along the earlier run, or failing that the first along the later one |
| CloudFunctions.TestModel | cloud/functions/index.js:164-197 | non-POST gets 405 and a missing upload gets 400, both before processing; a raising step gets 500 whose text is the prefix followed by the message of the first step to raise; otherwise 200 with the classification |
| CloudFunctions.ExportModel | cloud/functions/index.js:200-220 | non-POST gets 405; a POST gets 500 with the load-error prefix exactly when the instance has no model and loading raises, and 200 exactly when the instance holds the model afterwards; a loaded model stays loaded, and a non-POST request leaves the instance as it was |
| CloudFunctions.ExportLoadsOnce | cloud/functions/index.js:27-35 | after a 200 every later export answers 200 whatever a load would do, since `loadModel` loads only while the global is unset; after a 500 the next POST behaves as on a fresh instance |
| CloudFunctions.Bump | cloud/functions/index.js:244 | incrementing a class adds exactly one to it, leaves every other count alone, and appends the key only when it is new |
| CloudFunctions.InitialCounts | cloud/functions/index.js:236-239 | the initial keys are the four class names, all at 0 |
| CloudFunctions.TallyCounts | cloud/functions/index.js:241-246 | each document with a classification adds exactly one to its own class |
| CloudFunctions.TallyTotal | cloud/functions/index.js:249 | the total is the number of classified documents |
| CloudFunctions.Percentages | cloud/functions/index.js:250-254 | one percentage per class; a total of 0 makes every value "0%" |
| CloudFunctions.DiseaseStatsFacts | cloud/functions/index.js:223-261 | the class names come first, counted from 0; every class counts its documents; the total counts all classified documents; with none, every percentage is "0%" |

## Left out

- Model construction, training, compilation, fitting and export are left out. This covers `create_model` in the trainers, `convert_to_tflite`, `save_for_*`, and the SavedModel and TF.js formats. They are framework internals. The layer stack of `tomato_cnn.py` is kept only as data.
- Image operations are oracles. This covers decoding, colour conversion, resizing, CLAHE, normalisation and the random Keras transforms. An oracle either yields an image or yields nothing.
- Floating-point arithmetic is left out. The filters use exact rationals, so `1e-5` is exactly 1/100000. NaN, infinities and float32 rounding of predictions are not modelled.
- An empty candidate image has NaN statistics in numpy, which makes both filter comparisons false. The model keeps it the same way: both filters require at least one pixel.
- `str.lower` is ASCII-only. Non-ASCII case folding never changes the three extensions, but the stems it changes are not modelled.
- The `__main__` blocks are left out: hard-coded paths, argument parsing, and the training and export calls. Two parts of them are modelled: the phase-2 freezing loop of `tomato_cnn.py`, and the `class_info` record of `train_model_alternative.py` (lines 155-165), whose dependence on the training calls is the `trained` argument of `NpyLoader.TrainedClassInfo`.
- Directory creation is assumed to succeed: `os.makedirs` at `augment_dataset.py:21` and `:29`, `prepare_dataset.py:64-65` and `:85-86`, and `preprocess.py:72` and `:100` has no failing outcome in the model.
- NpyLoader.LoadPreprocessedData: the final `np.array(images)` is assumed to stack the loaded arrays. NumPy raises ValueError when they differ in shape; `preprocess.py` writes every array at one shape (224×224×3), so only a `.npy` file from elsewhere could trigger it.
- PrepareDataset.SplitPolicy: the splitter is a total oracle, although `train_test_split` raises for a validation share outside (0, 1); the scripts only ever pass the default 0.2.
- CloudFunctions.Classifying: Firestore's rejection of an undefined field is one fixed message; the library's own text also names the field.
- Printed messages, console logs and progress output are left out, because they affect no result.
- I/O is reduced to outcomes. Temp files, Firestore, Cloud Storage and subprocesses keep only their status or error. A script that crashes part-way leaves its earlier writes in place, and the model records the writes made before the failure.
- Timestamps are left out: `date_trained`, `processed_at`, `created_at`, `latest_analysis` and the 30-day query window. They come from the clock. The query result is an input.
- `toFixed(2)` and percentage strings other than "0%" are left out. The model keeps the count and total that the formatting divides.
- The JavaScript object key order for integer-like class names is left out. Counts are kept in insertion order.
- CloudFunctions.Bump: a classification that names a property every object inherits from `Object.prototype` (`constructor`, `toString`, `valueOf`, `hasOwnProperty`, `__proto__` and the rest) is counted as a fresh key starting from 0. In the code, `stats[c] || 0` reads the inherited value instead, so such a count becomes a string like `"function Object() { [native code] }1"` (and `__proto__` is not stored as a key at all).
- CloudFunctions.TallyCounts: the per-class counts hold only for classifications that are not inherited property names, as described for `Bump`.
- CloudFunctions.TallyTotal: once an inherited property name is classified, the code's `reduce` turns `total` into a string, `total > 0` is false and every percentage is "0%"; the model's total stays the number of classified documents.
- CloudFunctions.DiseaseStatsFacts: its count and total facts carry the same restriction to classifications that are not inherited property names.
- `image_dataset_from_directory` class lists are taken as input sequences. Only the set comparison and the returned names are modelled.
- The `loadModel` guard of `index.js` is modelled for `exportModelToTFLite` only (`CloudFunctions.ExportModel`). For the document workflow and `testModel` it is folded into the outcome of the `Predict` step.
- Exceptions that escape the Python handler are modelled as `Uncaught` with a fixed reason. Python's exact message is not kept, because the framework replaces it with its own error page.
- The predictions returned as a dict (`cloud/main.py:93-98`) are part of the inference oracle, which yields one prediction row.
- The `esp32/` firmware is not part of this model. It runs on the device, outside this pipeline.

=== FILE: augment.dfy ===
/** The augmenter: for each readable source image it writes the original,
    then draws random transforms of it until `samples` candidates have
    passed both photometric filters or `3 * samples` attempts are spent.
    The random transform is an oracle `draw`, where `draw(i)` is the
    candidate produced by attempt `i + 1`, already converted to 8-bit RGB. */
module Augment {
  import opened Common
  import opened FileTree

  datatype Pixel = Pixel(r: byte, g: byte, b: byte)

  /** A decoded image, its rows laid end to end. */
  type Image = seq<Pixel>

  /** Candidates whose pixel standard deviation is below 25 are rejected;
      the standard deviation is below 25 exactly when the variance is
      below 25 * 25. */
  const ContrastFloorSquared: real := 625.0

  /** Candidates whose dominant channel mean exceeds 1.5 times the mean of
      the channel means (plus a small epsilon) are rejected. */
  const MaxColorRatio: real := 1.5
  const Epsilon: real := 0.00001

  /** Each accepted augmentation costs at most three attempts on average. */
  const AttemptsPerSample: int := 3

  // ---------------------------------------------------------------------
  // Statistics over exact rationals

  /** All channel values of an image, three per pixel. */
  function Values(img: Image): (r: seq<real>)
    ensures |r| == 3 * |img|
  {
    if |img| == 0 then []
    else [img[0].r as real, img[0].g as real, img[0].b as real] + Values(img[1..])
  }

  function Sum(xs: seq<real>): real
  {
    if |xs| == 0 then 0.0 else Sum(xs[..|xs| - 1]) + xs[|xs| - 1]
  }

  function Mean(xs: seq<real>): real
    requires |xs| > 0
  {
    Sum(xs) / (|xs| as real)
  }

  /** Sum of squared deviations from `m`. */
  function SquaredDeviation(xs: seq<real>, m: real): real
  {
    if |xs| == 0 then 0.0
    else SquaredDeviation(xs[..|xs| - 1], m) + (xs[|xs| - 1] - m) * (xs[|xs| - 1] - m)
  }

  /** Population variance, as `np.std` squares it. */
  function Variance(xs: seq<real>): real
    requires |xs| > 0
  {
    SquaredDeviation(xs, Mean(xs)) / (|xs| as real)
  }

  lemma {:induction false} SquaredDeviationNonNegative(xs: seq<real>, m: real)
    ensures SquaredDeviation(xs, m) >= 0.0
  {
    if |xs| > 0 {
      SquaredDeviationNonNegative(xs[..|xs| - 1], m);
      var d := xs[|xs| - 1] - m;
      if d >= 0.0 { assert d * d >= 0.0; } else { assert d * d == (-d) * (-d); }
    }
  }

  /** The variance is never negative, so comparing it with 625 decides the
      same thing as comparing its square root with 25. */
  lemma VarianceNonNegative(xs: seq<real>)
    requires |xs| > 0
    ensures Variance(xs) >= 0.0
  {
    SquaredDeviationNonNegative(xs, Mean(xs));
  }

  /** A list whose values are all equal has variance 0. */
  lemma {:induction false} ConstantHasNoDeviation(xs: seq<real>, c: real)
    requires forall i :: 0 <= i < |xs| ==> xs[i] == c
    ensures SquaredDeviation(xs, c) == 0.0
  {
    if |xs| > 0 {
      ConstantHasNoDeviation(xs[..|xs| - 1], c);
    }
  }

  lemma {:induction false} SumOfConstant(xs: seq<real>, c: real)
    requires forall i :: 0 <= i < |xs| ==> xs[i] == c
    ensures Sum(xs) == (|xs| as real) * c
  {
    if |xs| > 0 {
      SumOfConstant(xs[..|xs| - 1], c);
    }
  }

  function Max3(a: real, b: real, c: real): (m: real)
    ensures m >= a && m >= b && m >= c
    ensures m == a || m == b || m == c
  {
    if a >= b && a >= c then a else if b >= c then b else c
  }

  /** Per-channel means `(R, G, B)`. */
  function ChannelMeans(img: Image): (real, real, real)
    requires |img| > 0
  {
    var n := |img| as real;
    (Sum(Reds(img)) / n, Sum(Greens(img)) / n, Sum(Blues(img)) / n)
  }

  function Reds(img: Image): (r: seq<real>)
    ensures |r| == |img|
  {
    seq(|img|, i requires 0 <= i < |img| => img[i].r as real)
  }

  function Greens(img: Image): (r: seq<real>)
    ensures |r| == |img|
  {
    seq(|img|, i requires 0 <= i < |img| => img[i].g as real)
  }

  function Blues(img: Image): (r: seq<real>)
    ensures |r| == |img|
  {
    seq(|img|, i requires 0 <= i < |img| => img[i].b as real)
  }

  // ---------------------------------------------------------------------
  // The two quality filters

  /** `np.std(img) < 25`. On an empty image numpy yields NaN, and every
      comparison with NaN is false, so an empty image is not rejected. */
  predicate LowContrast(img: Image)
  {
    |img| > 0 && Variance(Values(img)) < ContrastFloorSquared
  }

  /** `max(rgb_means) / (mean(rgb_means) + 1e-5) > 1.5`, again false on the
      NaN statistics of an empty image. */
  predicate ColorImbalanced(img: Image)
  {
    |img| > 0 &&
    var (mr, mg, mb) := ChannelMeans(img);
    ChannelMeansNonNegative(img);
    Max3(mr, mg, mb) / ((mr + mg + mb) / 3.0 + Epsilon) > MaxColorRatio
  }

  lemma {:induction false} SumNonNegative(xs: seq<real>)
    requires forall i :: 0 <= i < |xs| ==> xs[i] >= 0.0
    ensures Sum(xs) >= 0.0
  {
    if |xs| > 0 {
      SumNonNegative(xs[..|xs| - 1]);
    }
  }

  lemma ChannelMeansNonNegative(img: Image)
    requires |img| > 0
    ensures ChannelMeans(img).0 >= 0.0 && ChannelMeans(img).1 >= 0.0 && ChannelMeans(img).2 >= 0.0
  {
    SumNonNegative(Reds(img));
    SumNonNegative(Greens(img));
    SumNonNegative(Blues(img));
  }

  predicate Acceptable(img: Image)
  {
    !LowContrast(img) && !ColorImbalanced(img)
  }

  /** A grey image of a single shade has variance 0 and is rejected by
      the contrast filter. */
  lemma FlatGreyImageRejected(img: Image)
    requires |img| > 0
    requires forall i :: 0 <= i < |img| ==> img[i] == img[0]
    requires img[0].r == img[0].g == img[0].b
    ensures LowContrast(img) && !Acceptable(img)
  {
    var v := Values(img);
    var c := img[0].r as real;
    ValuesAt(img);
    assert forall i :: 0 <= i < |v| ==> v[i] == c by {
      forall i | 0 <= i < |v| ensures v[i] == c {
        var p := i / 3;
        var q := i % 3;
        assert i == 3 * p + q && 0 <= p < |img|;
        assert img[p] == img[0];
        if q == 0 { assert v[3 * p] == img[p].r as real; }
        else if q == 1 { assert v[3 * p + 1] == img[p].g as real; }
        else { assert v[3 * p + 2] == img[p].b as real; }
      }
    }
    SumOfConstant(v, c);
    ConstantHasNoDeviation(v, c);
    assert Mean(v) == c;
  }

  lemma {:induction false} ValuesAt(img: Image)
    ensures forall i :: 0 <= i < |img| ==>
              Values(img)[3 * i] == img[i].r as real
              && Values(img)[3 * i + 1] == img[i].g as real
              && Values(img)[3 * i + 2] == img[i].b as real
  {
    if |img| > 0 {
      ValuesAt(img[1..]);
      forall i | 0 < i < |img|
        ensures Values(img)[3 * i] == img[i].r as real
        ensures Values(img)[3 * i + 1] == img[i].g as real
        ensures Values(img)[3 * i + 2] == img[i].b as real
      {
        assert img[1..][i - 1] == img[i];
      }
    }
  }

  // ---------------------------------------------------------------------
  // The accept/reject loop for one source image

  datatype Output = Output(name: string, image: Image)

  function OriginalName(base: string): string
  {
    base + "_original.jpg"
  }

  function AugName(base: string, k: nat): string
  {
    base + "_aug_" + IntToDecimal(k) + ".jpg"
  }

  function Max0(x: int): nat
  {
    if x > 0 then x else 0
  }

  /** `max_attempts`, clamped at zero: a negative budget runs no attempt. */
  function Budget(samples: int): nat
  {
    Max0(samples * AttemptsPerSample)
  }

  /** The candidates among the first `n` draws that pass the filter `ok`,
      in draw order: the reference description of what the loop keeps.
      The filter is a parameter so that reasoning about the loop never has
      to look inside the statistics; the augmenter uses `Acceptable`. */
  function AcceptedAmong(ok: Image -> bool, draw: nat -> Image, n: nat): (r: seq<Image>)
    ensures |r| <= n
  {
    if n == 0 then []
    else AcceptedAmong(ok, draw, n - 1) + (if ok(draw(n - 1)) then [draw(n - 1)] else [])
  }

  /** The accepted list is exactly the passing draws: every element passed
      the filter, and no passing draw is dropped. */
  lemma {:induction false} AcceptedAreAcceptable(ok: Image -> bool, draw: nat -> Image, n: nat)
    ensures forall k :: 0 <= k < |AcceptedAmong(ok, draw, n)| ==> ok(AcceptedAmong(ok, draw, n)[k])
    ensures forall i :: 0 <= i < n && ok(draw(i)) ==> draw(i) in AcceptedAmong(ok, draw, n)
  {
    if n > 0 {
      AcceptedAreAcceptable(ok, draw, n - 1);
    }
  }

  /** The per-image loop in tail-recursive form: having made `n` attempts
      and kept `acc`, the list finally kept and the number of attempts
      finally made. */
  function Run(ok: Image -> bool, draw: nat -> Image, samples: int, n: nat, acc: seq<Image>): (r: (seq<Image>, nat))
    requires n <= Budget(samples)
    decreases Budget(samples) - n
  {
    if |acc| < samples && n < Budget(samples) then
      Run(ok, draw, samples, n + 1, if ok(draw(n)) then acc + [draw(n)] else acc)
    else (acc, n)
  }

  /** The loop agrees with the reference: it keeps exactly the passing
      draws among the attempts it makes, never more than `samples` of them,
      and stops only once the quota is met or the budget is spent. */
  lemma {:induction false} RunMatchesReference(ok: Image -> bool, draw: nat -> Image, samples: int,
                                               n: nat, acc: seq<Image>)
    requires n <= Budget(samples)
    requires acc == AcceptedAmong(ok, draw, n) && |acc| <= Max0(samples)
    ensures n <= Run(ok, draw, samples, n, acc).1 <= Budget(samples)
    ensures Run(ok, draw, samples, n, acc).0 == AcceptedAmong(ok, draw, Run(ok, draw, samples, n, acc).1)
    ensures |Run(ok, draw, samples, n, acc).0| <= Max0(samples)
    ensures |Run(ok, draw, samples, n, acc).0| >= samples || Run(ok, draw, samples, n, acc).1 == Budget(samples)
    decreases Budget(samples) - n
  {
    if |acc| < samples && n < Budget(samples) {
      var next := if ok(draw(n)) then acc + [draw(n)] else acc;
      assert next == AcceptedAmong(ok, draw, n + 1);
      RunMatchesReference(ok, draw, samples, n + 1, next);
    }
  }

  /** The loop stops at the first attempt where the quota is met: before
      its last attempt, fewer than `samples` draws had passed. */
  lemma {:induction false} RunStopsAtFirst(ok: Image -> bool, draw: nat -> Image, samples: int,
                                           n: nat, acc: seq<Image>)
    requires n <= Budget(samples)
    requires acc == AcceptedAmong(ok, draw, n)
    requires n > 0 ==> |AcceptedAmong(ok, draw, n - 1)| < samples
    ensures Run(ok, draw, samples, n, acc).1 > 0 ==>
              |AcceptedAmong(ok, draw, Run(ok, draw, samples, n, acc).1 - 1)| < samples
    decreases Budget(samples) - n
  {
    if |acc| < samples && n < Budget(samples) {
      var next := if ok(draw(n)) then acc + [draw(n)] else acc;
      assert next == AcceptedAmong(ok, draw, n + 1);
      RunStopsAtFirst(ok, draw, samples, n + 1, next);
    }
  }

  /** The number of attempts the loop makes for one source image. */
  function AttemptsUsed(draw: nat -> Image, samples: int): nat
  {
    Run(Acceptable, draw, samples, 0, []).1
  }

  /** The candidates the loop keeps for one source image. */
  function Kept(draw: nat -> Image, samples: int): seq<Image>
  {
    Run(Acceptable, draw, samples, 0, []).0
  }

  /** What is kept for one source image: the passing draws among the
      attempts made, each passing both filters, at most `samples` of them,
      fewer only when the budget of `3 * samples` attempts is spent, and
      with the quota still unmet before the last attempt. */
  lemma KeptIsReference(draw: nat -> Image, samples: int)
    ensures AttemptsUsed(draw, samples) <= Budget(samples)
    ensures Kept(draw, samples) == AcceptedAmong(Acceptable, draw, AttemptsUsed(draw, samples))
    ensures |Kept(draw, samples)| <= Max0(samples)
    ensures |Kept(draw, samples)| >= samples || AttemptsUsed(draw, samples) == Budget(samples)
    ensures AttemptsUsed(draw, samples) > 0 ==>
              |AcceptedAmong(Acceptable, draw, AttemptsUsed(draw, samples) - 1)| < samples
    ensures forall k :: 0 <= k < |Kept(draw, samples)| ==>
              !LowContrast(Kept(draw, samples)[k]) && !ColorImbalanced(Kept(draw, samples)[k])
  {
    RunMatchesReference(Acceptable, draw, samples, 0, []);
    RunStopsAtFirst(Acceptable, draw, samples, 0, []);
    AcceptedAreAcceptable(Acceptable, draw, AttemptsUsed(draw, samples));
  }

  function Numbered(base: string, imgs: seq<Image>): (r: seq<Output>)
    ensures |r| == |imgs|
    ensures forall k :: 0 <= k < |imgs| ==> r[k] == Output(AugName(base, k + 1), imgs[k])
  {
    seq(|imgs|, k requires 0 <= k < |imgs| => Output(AugName(base, k + 1), imgs[k]))
  }

  /** Everything written for one readable source image: the original, then
      the kept candidates numbered from 1. */
  function ImageOutputs(base: string, original: Image, samples: int, draw: nat -> Image): seq<Output>
  {
    [Output(OriginalName(base), original)] + Numbered(base, Kept(draw, samples))
  }

  lemma NumberedSnoc(base: string, imgs: seq<Image>, x: Image)
    ensures Numbered(base, imgs + [x]) == Numbered(base, imgs) + [Output(AugName(base, |imgs| + 1), x)]
  {
  }

  /** The per-image loop of the augmenter for any acceptance test `ok`: the
      original is written first, then candidates are drawn until `samples`
      have passed or `3 * samples` attempts are spent. */
  method AugmentWith(ok: Image -> bool, base: string, original: Image, samples: int, draw: nat -> Image)
    returns (written: seq<Output>, accepted: nat, attempts: nat)
    ensures written == [Output(OriginalName(base), original)] + Numbered(base, Run(ok, draw, samples, 0, []).0)
    ensures accepted == |Run(ok, draw, samples, 0, []).0|
    ensures attempts == Run(ok, draw, samples, 0, []).1
  {
    written := [Output(OriginalName(base), original)];
    accepted := 0;
    attempts := 0;
    ghost var acc: seq<Image> := [];
    var maxAttempts := samples * AttemptsPerSample;
    while accepted < samples && attempts < maxAttempts
      invariant attempts <= Budget(samples)
      invariant Run(ok, draw, samples, attempts, acc) == Run(ok, draw, samples, 0, [])
      invariant accepted == |acc|
      invariant written == [Output(OriginalName(base), original)] + Numbered(base, acc)
      decreases maxAttempts - attempts
    {
      attempts := attempts + 1;
      var candidate := draw(attempts - 1);
      if !ok(candidate) {
        continue;
      }
      NumberedSnoc(base, acc, candidate);
      written := written + [Output(AugName(base, accepted + 1), candidate)];
      acc := acc + [candidate];
      accepted := accepted + 1;
    }
  }

  /** The augmenter's loop for one source image, with both photometric
      filters as the acceptance test. */
  method AugmentImage(base: string, original: Image, samples: int, draw: nat -> Image)
    returns (written: seq<Output>, accepted: nat, attempts: nat)
    ensures written == ImageOutputs(base, original, samples, draw)
    ensures attempts == AttemptsUsed(draw, samples)
    ensures accepted <= attempts <= Budget(samples)
    ensures accepted <= Max0(samples)
    ensures accepted >= samples || attempts == Budget(samples)
    ensures |written| == accepted + 1
    ensures written[0] == Output(OriginalName(base), original)
    ensures forall k :: 1 <= k <= accepted ==>
              written[k].name == AugName(base, k)
              && !LowContrast(written[k].image) && !ColorImbalanced(written[k].image)
  {
    written, accepted, attempts := AugmentWith(Acceptable, base, original, samples, draw);
    KeptIsReference(draw, samples);
    forall k | 1 <= k <= accepted
      ensures written[k].name == AugName(base, k)
      ensures !LowContrast(written[k].image) && !ColorImbalanced(written[k].image)
    {
      assert written[k] == Numbered(base, Kept(draw, samples))[k - 1];
    }
  }

  // ---------------------------------------------------------------------
  // The whole input tree

  /** A file written to `<output>/<class>/<file.name>`. */
  datatype Written = Written(className: string, file: Output)

  /** `cv2.imread`: a decode oracle on files; a directory never decodes. */
  function ReadImage(n: Node, decode: Blob -> Option<Image>): Option<Image>
  {
    if n.File? then decode(n.blob) else None
  }

  /** What one entry of a class directory yields: nothing unless its name
      has an image extension and it decodes, else its outputs. */
  function FileOutputs(cls: string, e: Entry, samples: int,
                       decode: Blob -> Option<Image>,
                       draws: (string, string) -> (nat -> Image)): seq<Written>
  {
    if !IsImageNameAnyCase(e.name) then []
    else match ReadImage(e.node, decode)
      case None => []
      case Some(img) =>
        var outs := ImageOutputs(StemOf(e.name), img, samples, draws(cls, e.name));
        seq(|outs|, k requires 0 <= k < |outs| => Written(cls, outs[k]))
  }

  function ClassOutputs(cls: string, files: seq<Entry>, samples: int,
                        decode: Blob -> Option<Image>,
                        draws: (string, string) -> (nat -> Image)): seq<Written>
  {
    if |files| == 0 then []
    else FileOutputs(cls, files[0], samples, decode, draws)
         + ClassOutputs(cls, files[1..], samples, decode, draws)
  }

  function DatasetOutputs(classes: seq<Entry>, samples: int,
                          decode: Blob -> Option<Image>,
                          draws: (string, string) -> (nat -> Image)): seq<Written>
  {
    if |classes| == 0 then []
    else
      var e := classes[0];
      (if e.node.Dir? then ClassOutputs(e.name, e.node.entries, samples, decode, draws) else [])
      + DatasetOutputs(classes[1..], samples, decode, draws)
  }

  datatype Error = InputNotFound | InputNotADirectory

  /** `augment_dataset(input_dir, output_dir, samples_per_image)`:
      `os.listdir` on the input fails when it is missing or a file. */
  function AugmentDataset(input: Option<Node>, samples: int,
                          decode: Blob -> Option<Image>,
                          draws: (string, string) -> (nat -> Image)): (r: Result<seq<Written>, Error>)
    ensures input.None? <==> r == Err(InputNotFound)
    ensures input.Some? && input.value.File? <==> r == Err(InputNotADirectory)
  {
    match input
    case None => Err(InputNotFound)
    case Some(File(_)) => Err(InputNotADirectory)
    case Some(Dir(entries)) => Ok(DatasetOutputs(entries, samples, decode, draws))
  }

  /** The provenance of a written file: a readable, image-named file in a
      class directory, and a name that is its original or one of its
      numbered augmentations. */
  predicate ProducedBy(w: Written, cls: string, f: Entry, samples: int, decode: Blob -> Option<Image>)
  {
    && w.className == cls
    && IsImageNameAnyCase(f.name)
    && ReadImage(f.node, decode).Some?
    && (w.file.name == OriginalName(StemOf(f.name))
        || exists k :: 1 <= k <= samples && w.file.name == AugName(StemOf(f.name), k))
  }

  lemma ImageOutputNames(base: string, original: Image, samples: int, draw: nat -> Image, o: Output)
    requires o in ImageOutputs(base, original, samples, draw)
    ensures o.name == OriginalName(base) || exists k :: 1 <= k <= samples && o.name == AugName(base, k)
  {
    var outs := ImageOutputs(base, original, samples, draw);
    var i :| 0 <= i < |outs| && outs[i] == o;
    if i > 0 {
      KeptIsReference(draw, samples);
      assert o.name == AugName(base, i);
    }
  }

  lemma FileOutputsProvenance(cls: string, e: Entry, samples: int,
                              decode: Blob -> Option<Image>,
                              draws: (string, string) -> (nat -> Image), w: Written)
    requires w in FileOutputs(cls, e, samples, decode, draws)
    ensures ProducedBy(w, cls, e, samples, decode)
  {
    var img := ReadImage(e.node, decode).value;
    var outs := ImageOutputs(StemOf(e.name), img, samples, draws(cls, e.name));
    var here := FileOutputs(cls, e, samples, decode, draws);
    var k :| 0 <= k < |here| && here[k] == w;
    assert w.file == outs[k];
    ImageOutputNames(StemOf(e.name), img, samples, draws(cls, e.name), outs[k]);
  }

  /** Nothing is written for a file without an image extension or a file
      that does not decode; everything written is the original or a
      numbered augmentation of such a file. */
  lemma {:induction false} ClassOutputsProvenance(cls: string, files: seq<Entry>, samples: int,
                                                  decode: Blob -> Option<Image>,
                                                  draws: (string, string) -> (nat -> Image), w: Written)
    requires w in ClassOutputs(cls, files, samples, decode, draws)
    ensures exists j :: 0 <= j < |files| && ProducedBy(w, cls, files[j], samples, decode)
  {
    if w in FileOutputs(cls, files[0], samples, decode, draws) {
      FileOutputsProvenance(cls, files[0], samples, decode, draws, w);
    } else {
      ClassOutputsProvenance(cls, files[1..], samples, decode, draws, w);
      var j :| 0 <= j < |files[1..]| && ProducedBy(w, cls, files[1..][j], samples, decode);
      assert files[j + 1] == files[1..][j];
    }
  }

  lemma {:induction false} DatasetOutputsProvenance(classes: seq<Entry>, samples: int,
                                                    decode: Blob -> Option<Image>,
                                                    draws: (string, string) -> (nat -> Image), w: Written)
    requires w in DatasetOutputs(classes, samples, decode, draws)
    ensures exists i, j :: 0 <= i < |classes| && classes[i].node.Dir?
              && 0 <= j < |classes[i].node.entries|
              && ProducedBy(w, classes[i].name, classes[i].node.entries[j], samples, decode)
  {
    var e := classes[0];
    var rest := DatasetOutputs(classes[1..], samples, decode, draws);
    if w in rest {
      DatasetOutputsProvenance(classes[1..], samples, decode, draws, w);
      var i, j :| 0 <= i < |classes[1..]| && classes[1..][i].node.Dir?
                  && 0 <= j < |classes[1..][i].node.entries|
                  && ProducedBy(w, classes[1..][i].name, classes[1..][i].node.entries[j], samples, decode);
      assert classes[i + 1] == classes[1..][i];
    } else {
      ClassOutputsProvenance(e.name, e.node.entries, samples, decode, draws, w);
    }
  }

  /** A readable image-named entry's outputs start with its original. */
  lemma FileOutputsStartWithOriginal(cls: string, e: Entry, samples: int,
                                     decode: Blob -> Option<Image>,
                                     draws: (string, string) -> (nat -> Image))
    requires IsImageNameAnyCase(e.name) && ReadImage(e.node, decode).Some?
    ensures Written(cls, Output(OriginalName(StemOf(e.name)), ReadImage(e.node, decode).value))
              in FileOutputs(cls, e, samples, decode, draws)
  {
    var img := ReadImage(e.node, decode).value;
    var outs := ImageOutputs(StemOf(e.name), img, samples, draws(cls, e.name));
    assert outs[0] == Output(OriginalName(StemOf(e.name)), img);
    assert FileOutputs(cls, e, samples, decode, draws)[0] == Written(cls, outs[0]);
  }

  /** Every readable image-named file yields its `_original.jpg`, even when
      no augmentation is accepted. */
  lemma {:induction false} OriginalAlwaysWritten(cls: string, files: seq<Entry>, samples: int,
                                                 decode: Blob -> Option<Image>,
                                                 draws: (string, string) -> (nat -> Image), j: nat)
    requires j < |files| && IsImageNameAnyCase(files[j].name)
    requires ReadImage(files[j].node, decode).Some?
    ensures Written(cls, Output(OriginalName(StemOf(files[j].name)), ReadImage(files[j].node, decode).value))
              in ClassOutputs(cls, files, samples, decode, draws)
  {
    if j > 0 {
      assert files[1..][j - 1] == files[j];
      OriginalAlwaysWritten(cls, files[1..], samples, decode, draws, j - 1);
    } else {
      FileOutputsStartWithOriginal(cls, files[0], samples, decode, draws);
    }
  }

}

=== FILE: cloud_functions.dfy ===
/** The Firebase functions: classification of a prediction row against the
    four-name class list, the image-document workflow triggered by a new
    upload, the test endpoint, the export endpoint and the disease
    statistics. Storage, Firestore, image decoding and inference are
    oracles: each fallible step either completes or raises a message. */
module CloudFunctions {
  import opened Common
  import opened FileTree
  import CloudHandler

  /** The class list of the functions, in model-output order. */
  const ClassNames: seq<string> :=
    ["healthy_leaf", "early_blight_leaf", "late_blight_leaf", "tomato_yellow_leaf_curl_virus"]

  /** JavaScript indexing: `undefined` outside the array. */
  function At<T>(s: seq<T>, i: int): (r: Option<T>)
    ensures r.Some? <==> 0 <= i < |s|
    ensures r.Some? ==> r.value == s[i]
  {
    if 0 <= i < |s| then Some(s[i]) else None
  }

  // ---------------------------------------------------------------------
  // classifyImage

  datatype ClassProbability = ClassProbability(cls: Option<string>, probability: real)

  datatype Classification = Classification(
    cls: Option<string>,
    confidence: Option<real>,
    allProbabilities: seq<ClassProbability>)

  /** `p[i]` paired with the class name at the same index. */
  predicate PairsByIndex(p: seq<real>, probs: seq<ClassProbability>)
  {
    |probs| == |p| && forall i :: 0 <= i < |p| ==> probs[i] == ClassProbability(At(ClassNames, i), p[i])
  }

  /** The result `classifyImage` builds from a prediction row: the class and
      confidence at the first maximal index, nothing for an empty row. */
  function Classify(p: seq<real>): (r: Classification)
    ensures r.confidence.None? <==> |p| == 0
    ensures r.confidence.Some? ==> (forall k :: 0 <= k < |p| ==> p[k] <= r.confidence.value) && r.confidence.value in p
    ensures r.cls.Some? ==> r.cls.value in ClassNames && r.confidence.Some?
    ensures PairsByIndex(p, r.allProbabilities)
    ensures |p| == 0 ==> r.cls.None?
    ensures |p| > 0 ==>
              exists i :: && 0 <= i < |p|
                          && (forall k :: 0 <= k < |p| ==> p[k] <= p[i])
                          && (forall k :: 0 <= k < i ==> p[k] < p[i])
                          && r.cls == At(ClassNames, i) && r.confidence == Some(p[i])
  {
    var probs := seq(|p|, i requires 0 <= i < |p| => ClassProbability(At(ClassNames, i), p[i]));
    if |p| == 0 then Classification(None, None, probs)
    else
      var i := CloudHandler.ArgMax(p);
      Classification(At(ClassNames, i), Some(p[i]), probs)
  }

  /** `Math.max(...p)` on a non-empty row. */
  method Max(p: seq<real>) returns (m: real)
    requires |p| > 0
    ensures m in p
    ensures forall k :: 0 <= k < |p| ==> p[k] <= m
  {
    m := p[0];
    var i := 1;
    while i < |p|
      invariant 1 <= i <= |p|
      invariant m in p[..i]
      invariant forall k :: 0 <= k < i ==> p[k] <= m
    {
      if p[i] > m {
        m := p[i];
      }
      i := i + 1;
    }
    assert p[..|p|] == p;
  }

  /** `p.indexOf(v)`: the first index holding `v`, or -1. */
  method IndexOf(p: seq<real>, v: real) returns (idx: int)
    ensures -1 <= idx < |p|
    ensures idx == -1 <==> v !in p
    ensures idx >= 0 ==> p[idx] == v && forall k :: 0 <= k < idx ==> p[k] != v
  {
    idx := 0;
    while idx < |p|
      invariant 0 <= idx <= |p|
      invariant forall k :: 0 <= k < idx ==> p[k] != v
    {
      if p[idx] == v {
        return;
      }
      idx := idx + 1;
    }
    idx := -1;
  }

  /** The two maxima that satisfy "at least every value, above every
      earlier one" coincide. */
  lemma FirstMaxUnique(p: seq<real>, a: nat, b: nat)
    requires a < |p| && b < |p|
    requires forall k :: 0 <= k < |p| ==> p[k] <= p[a] && p[k] <= p[b]
    requires forall k :: 0 <= k < a ==> p[k] < p[a]
    requires forall k :: 0 <= k < b ==> p[k] < p[b]
    ensures a == b
  {
    var pa, pb := p[a], p[b];
    assert pa <= pb && pb <= pa;
  }

  /** `classifyImage`: the maximum, then the first index holding it, then
      the lookups. It picks the same index as the server's `np.argmax`. */
  method ClassifyImage(p: seq<real>) returns (r: Classification)
    ensures r == Classify(p)
    ensures |p| == 0 ==> r.cls.None? && r.confidence.None?
    ensures |p| > 0 ==>
              r.cls == At(ClassNames, CloudHandler.ArgMax(p)) && r.confidence == Some(p[CloudHandler.ArgMax(p)])
    ensures PairsByIndex(p, r.allProbabilities)
  {
    var idx := -1;
    if |p| > 0 {
      var m := Max(p);
      idx := IndexOf(p, m);
      FirstMaxUnique(p, idx, CloudHandler.ArgMax(p));
    }
    var probs: seq<ClassProbability> := [];
    var i := 0;
    while i < |p|
      invariant 0 <= i <= |p|
      invariant |probs| == i
      invariant forall j :: 0 <= j < i ==> probs[j] == ClassProbability(At(ClassNames, j), p[j])
    {
      probs := probs + [ClassProbability(At(ClassNames, i), p[i])];
      i := i + 1;
    }
    r := Classification(At(ClassNames, idx), At(p, idx), probs);
  }

  /** A row longer than the class list whose maximum lies past the list
      yields a confidence with no class. */
  lemma ClassMayBeUndefined()
    ensures Classify([0.0, 0.0, 0.0, 0.0, 1.0]).cls.None?
    ensures Classify([0.0, 0.0, 0.0, 0.0, 1.0]).confidence == Some(1.0)
  {
    var p := [0.0, 0.0, 0.0, 0.0, 1.0];
    var i := CloudHandler.ArgMax(p);
    assert p[i] >= p[4];
  }

  // ---------------------------------------------------------------------
  // Storage paths

  /** JavaScript `s.split(c)`. */
  function SplitOn(s: string, c: char): (r: seq<string>)
    ensures |r| >= 1
    ensures forall i :: 0 <= i < |r| ==> c !in r[i]
    decreases |s|
  {
    if |s| == 0 then [""]
    else
      var rest := SplitOn(s[1..], c);
      if s[0] == c then [""] + rest
      else
        assert c !in [s[0]] + rest[0];
        [[s[0]] + rest[0]] + rest[1..]
  }

  /** `parts.join(c)`. */
  function JoinWith(parts: seq<string>, c: char): string
    requires |parts| >= 1
  {
    if |parts| == 1 then parts[0] else parts[0] + [c] + JoinWith(parts[1..], c)
  }

  /** Splitting loses nothing: joining the parts gives the path back. */
  lemma {:induction false} SplitJoin(s: string, c: char)
    ensures JoinWith(SplitOn(s, c), c) == s
    decreases |s|
  {
    if |s| > 0 {
      var rest := SplitOn(s[1..], c);
      SplitJoin(s[1..], c);
      if s[0] == c {
        assert SplitOn(s, c)[1..] == rest;
      } else if |rest| == 1 {
        assert s == [s[0]] + s[1..];
      } else {
        var r := SplitOn(s, c);
        assert r[1..] == rest[1..];
        assert JoinWith(r, c) == [s[0]] + rest[0] + [c] + JoinWith(rest[1..], c);
        assert s == [s[0]] + s[1..];
      }
    }
  }

  /** The bucket (`gs://` and the segment before the first `/`) and the
      object name (the second segment, undefined when there is no `/`). */
  function StorageLocation(imagePath: string): (r: (string, Option<string>))
    ensures |r.0| >= 5 && r.0[..5] == "gs://" && '/' !in r.0[5..]
    ensures r.1.Some? ==> '/' !in r.1.value
    ensures r.1.None? <==> '/' !in imagePath
  {
    var parts := SplitOn(imagePath, '/');
    SplitJoin(imagePath, '/');
    assert |parts| == 1 <==> '/' !in imagePath by {
      if |parts| == 1 {
        assert JoinWith(parts, '/') == parts[0];
      } else {
        assert imagePath == parts[0] + ['/'] + JoinWith(parts[1..], '/');
        assert imagePath[|parts[0]|] == '/';
      }
    }
    ("gs://" + parts[0], At(parts, 1))
  }

  /** `bucket/object` splits into its two halves. */
  lemma StorageLocationOfPair(bucket: string, file: string)
    requires '/' !in bucket && '/' !in file
    ensures StorageLocation(bucket + "/" + file) == ("gs://" + bucket, Some(file))
  {
    var s := bucket + "/" + file;
    assert s == bucket + ("/" + file);
    SplitFirst(bucket, "/" + file);
    assert ("/" + file)[1..] == file;
    SplitNoSeparator(file, '/');
    assert SplitOn("/" + file, '/') == [""] + [file];
    assert SplitOn(s, '/') == [bucket + ""] + [file];
    assert bucket + "" == bucket;
  }

  lemma {:induction false} SplitNoSeparator(s: string, c: char)
    requires c !in s
    ensures SplitOn(s, c) == [s]
    decreases |s|
  {
    if |s| > 0 {
      SplitNoSeparator(s[1..], c);
      assert s == [s[0]] + s[1..];
    }
  }

  /** A prefix free of the separator becomes the head of the first part. */
  lemma {:induction false} SplitFirst(a: string, b: string)
    requires '/' !in a && |b| > 0 && b[0] == '/'
    ensures SplitOn(a + b, '/') == [a + SplitOn(b, '/')[0]] + SplitOn(b, '/')[1..]
    decreases |a|
  {
    var x := SplitOn(b, '/');
    if |a| > 0 {
      assert (a + b)[1..] == a[1..] + b;
      SplitFirst(a[1..], b);
      var rest := SplitOn(a[1..] + b, '/');
      assert rest == [a[1..] + x[0]] + x[1..];
      assert SplitOn(a + b, '/') == [[a[0]] + rest[0]] + rest[1..];
      assert [a[0]] + (a[1..] + x[0]) == a + x[0];
    } else {
      assert a + b == b;
      assert a + x[0] == x[0];
    }
  }

  // ---------------------------------------------------------------------
  // analyzeTomatoImage

  const Pending: string := "pending_analysis"
  const Processing: string := "processing"
  const Completed: string := "completed"
  const Failed: string := "error"

  /** The fields of an `images/{imageId}` document the function reads or
      writes; server timestamps are not modelled. */
  datatype ImageDoc = ImageDoc(
    status: string,
    imagePath: string,
    deviceId: string,
    classification: Option<string>,
    confidence: Option<real>,
    allProbabilities: Option<seq<ClassProbability>>,
    errorMessage: Option<string>)

  /** The external calls that can raise. */
  datatype Step =
    | MarkProcessing
    | Download(bucket: string, objectName: Option<string>)
    | Preprocess
    | Predict
    | WriteResult(result: Classification)
    | UpdateDevice(deviceId: string)
    | StoreNotification(deviceId: string)
    | RemoveTemp
    | MarkError(message: string)
    | WriteUpload
    | LoadModel

  /** The message a step raises, or `None` when it completes. */
  type Io = Step -> Option<string>

  datatype DeviceUpdate = DeviceUpdate(deviceId: string, cls: Option<string>, confidence: Option<real>)

  datatype Notification = Notification(deviceId: string, title: string, cls: Option<string>, confidence: real, imageRef: string, read: bool)

  const NotificationTitle: string := "Tomato Disease Detected!"
  const HealthyClass: string := "healthy_leaf"

  /** Confidences strictly above this raise a notification. */
  const NotifyThreshold: real := 0.7

  /** `result.class !== "healthy_leaf" && result.confidence > 0.7`; an
      undefined class is not the healthy one, an undefined confidence never
      compares above. */
  predicate ShouldNotify(result: Classification)
  {
    result.cls != Some(HealthyClass) && result.confidence.Some? && result.confidence.value > NotifyThreshold
  }

  /** What one trigger leaves behind: the document, the statuses written to
      it in order, the device update and the stored notification. */
  datatype Effects = Effects(
    doc: ImageDoc,
    statuses: seq<string>,
    device: Option<DeviceUpdate>,
    notification: Option<Notification>)

  /** The `catch` block: the error status and message are written unless
      that write raises too. */
  function Fail(doc: ImageDoc, statuses: seq<string>, device: Option<DeviceUpdate>, n: Option<Notification>, io: Io, e: string): (r: Effects)
    ensures r.device == device && r.notification == n
    ensures io(MarkError(e)).None? ==> r.doc.status == Failed && r.doc.errorMessage == Some(e) && r.statuses == statuses + [Failed]
    ensures io(MarkError(e)).Some? ==> r.doc == doc && r.statuses == statuses
  {
    if io(MarkError(e)).Some? then Effects(doc, statuses, device, n)
    else Effects(doc.(status := Failed, errorMessage := Some(e)), statuses + [Failed], device, n)
  }

  /** `analyzeTomatoImage` on a created document; `p` is the prediction row
      the model gives for the downloaded image. */
  function Analyze(doc: ImageDoc, io: Io, p: seq<real>): Effects
  {
    if doc.status != Pending then Effects(doc, [], None, None)
    else if io(MarkProcessing).Some? then Fail(doc, [], None, None, io, io(MarkProcessing).value)
    else Classifying(doc, io, p)
  }

  /** Firestore's rejection of a field value that is `undefined`; the
      library's own text also names the offending field. */
  const UndefinedValueMessage: string := "Cannot use \"undefined\" as a Firestore value"

  /** Whether Firestore accepts the result as written by the update: the
      class, the confidence and every class name in `allProbabilities` are
      defined. */
  predicate Storable(result: Classification)
  {
    && result.cls.Some? && result.confidence.Some?
    && forall k :: 0 <= k < |result.allProbabilities| ==> result.allProbabilities[k].cls.Some?
  }

  /** The classification of a row can be stored exactly when the row is
      non-empty and no longer than the class list. */
  lemma StorableIff(p: seq<real>)
    ensures Storable(Classify(p)) <==> 0 < |p| <= |ClassNames|
  {
    var c := Classify(p);
    if |p| > |ClassNames| {
      assert c.allProbabilities[|ClassNames|].cls.None?;
    }
    if 0 < |p| <= |ClassNames| {
      var i :| && 0 <= i < |p|
               && (forall k :: 0 <= k < |p| ==> p[k] <= p[i])
               && (forall k :: 0 <= k < i ==> p[k] < p[i])
               && c.cls == At(ClassNames, i) && c.confidence == Some(p[i]);
      assert c.cls.Some?;
    }
  }

  /** From the processing status to the stored result: download, preprocess,
      predict and write the classification. A result with an undefined
      field makes the write raise whatever the database would otherwise
      do, as no option to ignore undefined properties is set. */
  function Classifying(doc: ImageDoc, io: Io, p: seq<real>): (r: Effects)
    ensures r.statuses == [Processing] || r.statuses == [Processing, Failed]
            || r.statuses == [Processing, Completed] || r.statuses == [Processing, Completed, Failed]
    ensures r.doc.status == r.statuses[|r.statuses| - 1]
    ensures r.doc.imagePath == doc.imagePath && r.doc.deviceId == doc.deviceId
    ensures r.doc.status == Failed ==> r.doc.errorMessage.Some?
    ensures Completed in r.statuses ==>
              r.doc.classification == Classify(p).cls && r.doc.confidence == Classify(p).confidence
              && r.doc.allProbabilities == Some(Classify(p).allProbabilities)
    ensures Completed in r.statuses ==>
              r.doc.classification.Some? && r.doc.classification.value in ClassNames
              && r.doc.confidence.Some? && 0 < |p| <= |ClassNames|
    ensures !(0 < |p| <= |ClassNames|) ==> Completed !in r.statuses
    ensures (forall e :: io(MarkError(e)).None?)
            && (|| io(Download(StorageLocation(doc.imagePath).0, StorageLocation(doc.imagePath).1)).Some?
                || io(Preprocess).Some? || io(Predict).Some?
                || io(WriteResult(Classify(p))).Some? || !(0 < |p| <= |ClassNames|)) ==>
              r.statuses == [Processing, Failed] && r.doc.status == Failed
  {
    var d1 := doc.(status := Processing);
    var loc := StorageLocation(doc.imagePath);
    var download := Download(loc.0, loc.1);
    if io(download).Some? then Fail(d1, [Processing], None, None, io, io(download).value)
    else if io(Preprocess).Some? then Fail(d1, [Processing], None, None, io, io(Preprocess).value)
    else if io(Predict).Some? then Fail(d1, [Processing], None, None, io, io(Predict).value)
    else
      var result := Classify(p);
      StorableIff(p);
      if !Storable(result) then Fail(d1, [Processing], None, None, io, UndefinedValueMessage)
      else if io(WriteResult(result)).Some? then Fail(d1, [Processing], None, None, io, io(WriteResult(result)).value)
      else
        Reporting(d1.(status := Completed, classification := result.cls, confidence := result.confidence,
                      allProbabilities := Some(result.allProbabilities)), io, result)
  }

  /** After the result is stored: the device's latest result, the
      notification when due, and the removal of the temporary file. A
      failure here still turns the completed document into an error. */
  function Reporting(doc: ImageDoc, io: Io, result: Classification): (r: Effects)
    requires doc.status == Completed
    ensures r.statuses == [Processing, Completed] || r.statuses == [Processing, Completed, Failed]
    ensures r.doc == doc || r.doc == doc.(status := Failed, errorMessage := r.doc.errorMessage)
    ensures r.doc.status == r.statuses[|r.statuses| - 1]
    ensures r.doc.status == Failed ==> r.doc.errorMessage.Some?
    ensures r.notification.Some? ==>
              ShouldNotify(result)
              && r.notification.value == Notification(doc.deviceId, NotificationTitle, result.cls, result.confidence.value, doc.imagePath, false)
    ensures (forall e :: io(MarkError(e)).None?) ==>
              (r.doc.status == Failed
               <==> || io(UpdateDevice(doc.deviceId)).Some?
                    || (ShouldNotify(result) && io(StoreNotification(doc.deviceId)).Some?)
                    || io(RemoveTemp).Some?)
  {
    var done := [Processing, Completed];
    if io(UpdateDevice(doc.deviceId)).Some? then Fail(doc, done, None, None, io, io(UpdateDevice(doc.deviceId)).value)
    else
      var device := Some(DeviceUpdate(doc.deviceId, result.cls, result.confidence));
      if ShouldNotify(result) && io(StoreNotification(doc.deviceId)).Some? then
        Fail(doc, done, device, None, io, io(StoreNotification(doc.deviceId)).value)
      else
        var n := if ShouldNotify(result)
                 then Some(Notification(doc.deviceId, NotificationTitle, result.cls, result.confidence.value, doc.imagePath, false))
                 else None;
        if io(RemoveTemp).Some? then Fail(doc, done, device, n, io, io(RemoveTemp).value)
        else Effects(doc, done, device, n)
  }

  /** The steps a pending document goes through before its temporary file
      is removed, for prediction row `p`. */
  function AnalysisSteps(doc: ImageDoc, p: seq<real>): seq<Step>
  {
    FrontSteps(doc) + [WriteResult(Classify(p))] + ReportSteps(doc.deviceId, Classify(p))
  }

  /** The steps before the result is written. */
  function FrontSteps(doc: ImageDoc): seq<Step>
  {
    var loc := StorageLocation(doc.imagePath);
    [MarkProcessing, Download(loc.0, loc.1), Preprocess, Predict]
  }

  /** The steps after the result is written: the device update, the
      notification when due, and the removal of the temporary file. */
  function ReportSteps(deviceId: string, result: Classification): seq<Step>
  {
    [UpdateDevice(deviceId)] + (if ShouldNotify(result) then [StoreNotification(deviceId)] else []) + [RemoveTemp]
  }

  predicate NoneRaise(io: Io, steps: seq<Step>)
  {
    forall i :: 0 <= i < |steps| ==> io(steps[i]).None?
  }

  /** A document that is not pending is left as it is, with nothing else
      written. */
  lemma NotPendingUntouched(doc: ImageDoc, io: Io, p: seq<real>)
    requires doc.status != Pending
    ensures Analyze(doc, io, p) == Effects(doc, [], None, None)
  {
  }

  /** The statuses a pending document can be given, in order: processing,
      then completed, with an error status after whichever step raises. */
  predicate StatusPath(statuses: seq<string>)
  {
    || statuses == []
    || statuses == [Processing]
    || statuses == [Failed]
    || statuses == [Processing, Failed]
    || statuses == [Processing, Completed]
    || statuses == [Processing, Completed, Failed]
  }

  /** The status moves pending → processing → completed, or to error after
      whichever step raises; the document's final status is the last one
      written. */
  lemma StatusHistory(doc: ImageDoc, io: Io, p: seq<real>)
    requires doc.status == Pending
    ensures StatusPath(Analyze(doc, io, p).statuses)
    ensures Analyze(doc, io, p).statuses == [] ==> Analyze(doc, io, p).doc.status == Pending
    ensures Analyze(doc, io, p).statuses != [] ==>
              Analyze(doc, io, p).doc.status == Analyze(doc, io, p).statuses[|Analyze(doc, io, p).statuses| - 1]
  {
  }

  /** Only status, result and error fields change; an error status always
      carries its message, and a completion carries the classification. */
  lemma DocumentFields(doc: ImageDoc, io: Io, p: seq<real>)
    requires doc.status == Pending
    ensures var r := Analyze(doc, io, p);
            && r.doc.imagePath == doc.imagePath && r.doc.deviceId == doc.deviceId
            && (r.doc.status == Failed ==> r.doc.errorMessage.Some?)
            && (Completed in r.statuses ==>
                  (r.doc.classification == Classify(p).cls && r.doc.allProbabilities == Some(Classify(p).allProbabilities)))
  {
  }

  /** With no step raising, a row the class list covers ends completed with
      the classification, the device is updated, and nothing is marked as
      an error; any other row fails at the write, before the device is
      touched, and is marked with the undefined-value message unless that
      last write raises too. */
  lemma SuccessfulAnalysis(doc: ImageDoc, io: Io, p: seq<real>)
    requires doc.status == Pending
    requires NoneRaise(io, AnalysisSteps(doc, p))
    ensures var r := Analyze(doc, io, p);
            0 < |p| <= |ClassNames| ==>
              && r.statuses == [Processing, Completed]
              && r.doc == doc.(status := Completed, classification := Classify(p).cls, confidence := Classify(p).confidence,
                               allProbabilities := Some(Classify(p).allProbabilities))
              && r.device == Some(DeviceUpdate(doc.deviceId, Classify(p).cls, Classify(p).confidence))
    ensures var r := Analyze(doc, io, p);
            !(0 < |p| <= |ClassNames|) ==>
              && Completed !in r.statuses && r.device.None? && r.notification.None?
              && (io(MarkError(UndefinedValueMessage)).None? ==>
                    r.statuses == [Processing, Failed]
                    && r.doc == doc.(status := Failed, errorMessage := Some(UndefinedValueMessage)))
  {
    var steps := AnalysisSteps(doc, p);
    assert io(steps[0]).None? && io(steps[1]).None? && io(steps[2]).None?;
    assert io(steps[3]).None? && io(steps[4]).None? && io(steps[5]).None?;
    assert io(steps[|steps| - 1]).None?;
    if ShouldNotify(Classify(p)) {
      assert io(steps[6]).None?;
    }
    assert steps[|steps| - 1] == RemoveTemp;
  }

  /** After the result is stored, the document ends in `error` exactly
      when a reporting step raises, with the first message raised, as long
      as the error status itself can be written. */
  lemma ReportingRaise(doc: ImageDoc, io: Io, result: Classification)
    requires doc.status == Completed
    requires forall e :: io(MarkError(e)).None?
    ensures var first := FirstRaised(io, ReportSteps(doc.deviceId, result));
            && (Reporting(doc, io, result).doc.status == Failed <==> first.Some?)
            && (first.Some? ==> Reporting(doc, io, result).doc.errorMessage == first)
  {
    var steps := ReportSteps(doc.deviceId, result);
    FirstRaisedUnfold(io, steps);
    FirstRaisedUnfold(io, steps[1..]);
    FirstRaisedUnfold(io, steps[2..]);
    if ShouldNotify(result) {
      FirstRaisedUnfold(io, steps[3..]);
    }
  }

  /** When some step raises, or the result cannot be stored, and the
      error status itself can be written, the document ends in `error`. For
      a row the class list covers, the message is the first one raised
      along the steps; otherwise it is the first one raised before the
      write, or the undefined-value message when none is. */
  lemma AnyRaiseEndsInError(doc: ImageDoc, io: Io, p: seq<real>)
    requires doc.status == Pending
    requires forall e :: io(MarkError(e)).None?
    requires !NoneRaise(io, AnalysisSteps(doc, p)) || !(0 < |p| <= |ClassNames|)
    ensures Analyze(doc, io, p).doc.status == Failed
    ensures 0 < |p| <= |ClassNames| ==>
              Analyze(doc, io, p).doc.errorMessage == FirstRaised(io, AnalysisSteps(doc, p))
    ensures !(0 < |p| <= |ClassNames|) ==>
              Analyze(doc, io, p).doc.errorMessage
              == if FirstRaised(io, FrontSteps(doc)).Some? then FirstRaised(io, FrontSteps(doc))
                 else Some(UndefinedValueMessage)
  {
    StorableIff(p);
    var front, write := FrontSteps(doc), [WriteResult(Classify(p))];
    var report := ReportSteps(doc.deviceId, Classify(p));
    FirstRaisedAppend(io, front + write, report);
    FirstRaisedAppend(io, front, write);
    FirstRaisedUnfold(io, front);
    FirstRaisedUnfold(io, front[1..]);
    FirstRaisedUnfold(io, front[2..]);
    FirstRaisedUnfold(io, front[3..]);
    FirstRaisedUnfold(io, write);
    FirstRaisedUnfold(io, write[1..]);
    if FirstRaised(io, front + write).None? && 0 < |p| <= |ClassNames| {
      var result := Classify(p);
      var d := doc.(status := Processing).(status := Completed, classification := result.cls,
                     confidence := result.confidence, allProbabilities := Some(result.allProbabilities));
      ReportingRaise(d, io, result);
    }
  }

  /** A notification is stored only for a non-healthy class above the
      threshold, and, when every step completes, exactly when the result
      calls for one and could be stored. */
  lemma NotificationRule(doc: ImageDoc, io: Io, p: seq<real>)
    ensures Analyze(doc, io, p).notification.Some? ==>
              ShouldNotify(Classify(p)) && doc.status == Pending && 0 < |p| <= |ClassNames|
              && Analyze(doc, io, p).notification.value
                 == Notification(doc.deviceId, NotificationTitle, Classify(p).cls, Classify(p).confidence.value, doc.imagePath, false)
    ensures doc.status == Pending && NoneRaise(io, AnalysisSteps(doc, p)) ==>
              (Analyze(doc, io, p).notification.Some? <==> ShouldNotify(Classify(p)) && 0 < |p| <= |ClassNames|)
  {
    StorableIff(p);
    if doc.status == Pending && NoneRaise(io, AnalysisSteps(doc, p)) {
      SuccessfulAnalysis(doc, io, p);
      var steps := AnalysisSteps(doc, p);
      if ShouldNotify(Classify(p)) {
        assert io(steps[6]).None?;
      }
    }
  }

  /** A diseased leaf at 0.7 exactly does not notify; just above, it does. */
  lemma ThresholdIsStrict()
    ensures !ShouldNotify(Classification(Some("late_blight_leaf"), Some(0.7), []))
    ensures ShouldNotify(Classification(Some("late_blight_leaf"), Some(0.71), []))
    ensures !ShouldNotify(Classification(Some("healthy_leaf"), Some(0.99), []))
  {
  }

  // ---------------------------------------------------------------------
  // testModel and exportModelToTFLite

  /** A request: its method and, when a multipart parser ran, the uploaded
      files by field name. */
  datatype UploadRequest = UploadRequest(httpMethod: string, files: Option<map<string, Blob>>)

  datatype Reply =
    | Text(status: nat, text: string)
    | TestResult(status: nat, result: Option<string>, confidence: Option<real>, allProbabilities: seq<ClassProbability>)
    | ExportInfo(status: nat, message: string, modelLoaded: bool)

  const MethodNotAllowed: string := "Method not allowed"
  const NoImageUploaded: string := "No image uploaded"
  const ProcessingErrorPrefix: string := "Error processing image: "
  const LoadErrorPrefix: string := "Error loading model: "
  const ExportMessage: string := "For TFLite conversion, use the Python script provided in the repository"

  /** The first message raised along `steps`, in order. */
  function FirstRaised(io: Io, steps: seq<Step>): (r: Option<string>)
    ensures r.None? <==> NoneRaise(io, steps)
    ensures r.Some? ==> exists i :: 0 <= i < |steps| && io(steps[i]) == r
                                   && forall j :: 0 <= j < i ==> io(steps[j]).None?
  {
    if |steps| == 0 then None
    else if io(steps[0]).Some? then
      io(steps[0])
    else
      var r := FirstRaised(io, steps[1..]);
      assert NoneRaise(io, steps) <==> NoneRaise(io, steps[1..]) by {
        if NoneRaise(io, steps[1..]) {
          forall i | 0 <= i < |steps| ensures io(steps[i]).None? {
            if i > 0 { assert steps[i] == steps[1..][i - 1]; }
          }
        }
        if NoneRaise(io, steps) {
          forall i | 0 <= i < |steps[1..]| ensures io(steps[1..][i]).None? {
            assert steps[1..][i] == steps[i + 1];
          }
        }
      }
      if r.Some? then
        var i :| 0 <= i < |steps[1..]| && io(steps[1..][i]) == r
                 && forall j :: 0 <= j < i ==> io(steps[1..][j]).None?;
        assert io(steps[i + 1]) == r;
        assert forall j :: 0 <= j < i + 1 ==> io(steps[j]).None? by {
          forall j | 0 <= j < i + 1 ensures io(steps[j]).None? {
            if j > 0 { assert steps[j] == steps[1..][j - 1]; }
          }
        }
        r
      else r
  }

  /** One step of `FirstRaised`: the head's message, or the first along
      the rest. */
  lemma FirstRaisedUnfold(io: Io, steps: seq<Step>)
    ensures |steps| == 0 ==> FirstRaised(io, steps).None?
    ensures |steps| > 0 ==>
              FirstRaised(io, steps) == if io(steps[0]).Some? then io(steps[0]) else FirstRaised(io, steps[1..])
  {
  }

  /** The first message along `a + b` is the first along `a`, or failing
      that the first along `b`. */
  lemma {:induction false} FirstRaisedAppend(io: Io, a: seq<Step>, b: seq<Step>)
    ensures FirstRaised(io, a + b) == if FirstRaised(io, a).Some? then FirstRaised(io, a) else FirstRaised(io, b)
  {
    FirstRaisedUnfold(io, a);
    if |a| > 0 {
      assert (a + b)[0] == a[0] && (a + b)[1..] == a[1..] + b;
      FirstRaisedUnfold(io, a + b);
      FirstRaisedAppend(io, a[1..], b);
    } else {
      assert a + b == b;
    }
  }

  const TestSteps: seq<Step> := [WriteUpload, Preprocess, Predict, RemoveTemp]

  /** `testModel`: 405 for anything but POST and 400 without an uploaded
      `image`, both before any processing; then 500 with the raised message,
      or 200 with the classification. */
  function TestModel(req: UploadRequest, io: Io, p: seq<real>): (r: Reply)
    ensures req.httpMethod != "POST" <==> r == Text(405, MethodNotAllowed)
    ensures req.httpMethod == "POST" && (req.files.None? || "image" !in req.files.value) <==> r == Text(400, NoImageUploaded)
    ensures r.status == 500 <==> req.httpMethod == "POST" && req.files.Some? && "image" in req.files.value
                                 && !NoneRaise(io, TestSteps)
    ensures r.status == 500 ==> r.Text? && exists e :: r.text == ProcessingErrorPrefix + e
    ensures r.status == 500 ==> r == Text(500, ProcessingErrorPrefix + FirstRaised(io, TestSteps).value)
    ensures r.status == 200 ==> r == TestResult(200, Classify(p).cls, Classify(p).confidence, Classify(p).allProbabilities)
  {
    if req.httpMethod != "POST" then Text(405, MethodNotAllowed)
    else if req.files.None? || "image" !in req.files.value then Text(400, NoImageUploaded)
    else match FirstRaised(io, TestSteps)
      case Some(e) => Text(500, ProcessingErrorPrefix + e)
      case None =>
        var c := Classify(p);
        TestResult(200, c.cls, c.confidence, c.allProbabilities)
  }

  /** `exportModelToTFLite` on an instance whose global model is `loaded`
      or not: 405 for anything but POST, otherwise whether the model is
      there or loads. The second component is whether the instance holds
      the model afterwards: `loadModel` loads only while the global is
      unset, and a load that raises leaves it unset. */
  function ExportModel(httpMethod: string, loaded: bool, io: Io): (r: (Reply, bool))
    ensures httpMethod != "POST" <==> r.0 == Text(405, MethodNotAllowed)
    ensures r.0.status == 500 <==> httpMethod == "POST" && !loaded && io(LoadModel).Some?
    ensures r.0.status == 500 ==> r.0 == Text(500, LoadErrorPrefix + io(LoadModel).value)
    ensures r.0 == ExportInfo(200, ExportMessage, true) <==> httpMethod == "POST" && r.1
    ensures loaded ==> r.1
    ensures httpMethod != "POST" ==> r.1 == loaded
  {
    if httpMethod != "POST" then (Text(405, MethodNotAllowed), loaded)
    else if loaded then (ExportInfo(200, ExportMessage, true), true)
    else if io(LoadModel).Some? then (Text(500, LoadErrorPrefix + io(LoadModel).value), false)
    else (ExportInfo(200, ExportMessage, true), true)
  }

  /** Once an export has answered 200 the model stays loaded, so every later
      export answers 200 whatever a load would do; a 500 leaves the instance
      without a model, so the next POST tries the load again. */
  lemma ExportLoadsOnce(httpMethod: string, loaded: bool, io: Io, later: string, io2: Io)
    ensures var first := ExportModel(httpMethod, loaded, io);
            first.0.status == 200 ==>
              && ExportModel("POST", first.1, io2).0 == ExportInfo(200, ExportMessage, true)
              && ExportModel(later, first.1, io2).1
    ensures var first := ExportModel(httpMethod, loaded, io);
            first.0.status == 500 ==>
              ExportModel("POST", first.1, io2) == ExportModel("POST", false, io2)
  {
  }

  // ---------------------------------------------------------------------
  // getDiseaseStats

  /** The `stats` object: class names with their counts, in key order. */
  type Counts = seq<(string, nat)>

  function KeysOf(stats: Counts): (r: seq<string>)
    ensures |r| == |stats|
    ensures forall i :: 0 <= i < |stats| ==> r[i] == stats[i].0
  {
    if |stats| == 0 then [] else [stats[0].0] + KeysOf(stats[1..])
  }

  /** `stats[c] || 0`. */
  function CountFor(stats: Counts, c: string): nat
  {
    if |stats| == 0 then 0 else if stats[0].0 == c then stats[0].1 else CountFor(stats[1..], c)
  }

  /** `stats[c] = (stats[c] || 0) + 1`: a known key is incremented, a new
      one is appended with count 1. */
  function Bump(stats: Counts, c: string): (r: Counts)
    ensures KeysOf(r) == if c in KeysOf(stats) then KeysOf(stats) else KeysOf(stats) + [c]
    ensures forall k :: CountFor(r, k) == CountFor(stats, k) + (if k == c then 1 else 0)
  {
    if |stats| == 0 then [(c, 1)]
    else if stats[0].0 == c then [(c, stats[0].1 + 1)] + stats[1..]
    else
      var rest := Bump(stats[1..], c);
      assert KeysOf([stats[0]] + rest) == [stats[0].0] + KeysOf(rest);
      assert KeysOf(stats) == [stats[0].0] + KeysOf(stats[1..]);
      [stats[0]] + rest
  }

  /** The initial object: every class name at 0. */
  function InitialCounts(): (r: Counts)
    ensures KeysOf(r) == ClassNames
    ensures forall k :: CountFor(r, k) == 0
  {
    var r := [(ClassNames[0], 0), (ClassNames[1], 0), (ClassNames[2], 0), (ClassNames[3], 0)];
    forall k ensures CountFor(r, k) == 0 {
      ZeroCounts(r, k);
    }
    r
  }

  lemma {:induction false} ZeroCounts(stats: Counts, k: string)
    requires forall i :: 0 <= i < |stats| ==> stats[i].1 == 0
    ensures CountFor(stats, k) == 0
  {
    if |stats| > 0 {
      ZeroCounts(stats[1..], k);
    }
  }

  /** Truthiness of `data.classification`. */
  predicate Classified(c: Option<string>)
  {
    c.Some? && |c.value| > 0
  }

  /** The loop over the query's documents, by their `classification`. */
  function Tally(stats: Counts, docs: seq<Option<string>>): Counts
    decreases |docs|
  {
    if |docs| == 0 then stats
    else Tally(if Classified(docs[0]) then Bump(stats, docs[0].value) else stats, docs[1..])
  }

  /** The documents classified as `c`. */
  function Occurrences(docs: seq<Option<string>>, c: string): nat
  {
    if |docs| == 0 then 0
    else (if Classified(docs[0]) && docs[0].value == c then 1 else 0) + Occurrences(docs[1..], c)
  }

  /** The documents with any classification. */
  function ClassifiedCount(docs: seq<Option<string>>): nat
  {
    if |docs| == 0 then 0 else (if Classified(docs[0]) then 1 else 0) + ClassifiedCount(docs[1..])
  }

  /** `Object.values(stats).reduce((sum, count) => sum + count, 0)`. */
  function Total(stats: Counts): nat
  {
    if |stats| == 0 then 0 else stats[0].1 + Total(stats[1..])
  }

  lemma {:induction false} BumpTotal(stats: Counts, c: string)
    ensures Total(Bump(stats, c)) == Total(stats) + 1
  {
    if |stats| > 0 && stats[0].0 != c {
      BumpTotal(stats[1..], c);
    }
  }

  /** Each classified document adds exactly one to its own class. */
  lemma {:induction false} TallyCounts(stats: Counts, docs: seq<Option<string>>, c: string)
    ensures CountFor(Tally(stats, docs), c) == CountFor(stats, c) + Occurrences(docs, c)
    decreases |docs|
  {
    if |docs| > 0 {
      TallyCounts(if Classified(docs[0]) then Bump(stats, docs[0].value) else stats, docs[1..], c);
    }
  }

  /** The total is the number of classified documents. */
  lemma {:induction false} TallyTotal(stats: Counts, docs: seq<Option<string>>)
    ensures Total(Tally(stats, docs)) == Total(stats) + ClassifiedCount(docs)
    decreases |docs|
  {
    if |docs| > 0 {
      if Classified(docs[0]) {
        BumpTotal(stats, docs[0].value);
      }
      TallyTotal(if Classified(docs[0]) then Bump(stats, docs[0].value) else stats, docs[1..]);
    }
  }

  /** Keys are only ever appended: the class names stay first. */
  lemma {:induction false} TallyKeepsKeys(stats: Counts, docs: seq<Option<string>>)
    ensures |KeysOf(Tally(stats, docs))| >= |KeysOf(stats)|
    ensures KeysOf(Tally(stats, docs))[..|KeysOf(stats)|] == KeysOf(stats)
    decreases |docs|
  {
    if |docs| > 0 {
      var next := if Classified(docs[0]) then Bump(stats, docs[0].value) else stats;
      TallyKeepsKeys(next, docs[1..]);
      assert KeysOf(next)[..|KeysOf(stats)|] == KeysOf(stats);
    }
  }

  /** A percentage before formatting: `"0%"` when nothing was counted,
      otherwise the share of the total. */
  datatype Percent = ZeroPercent | Share(count: nat, total: nat)

  function Percentages(stats: Counts, total: nat): (r: seq<(string, Percent)>)
    ensures |r| == |stats|
    ensures forall i :: 0 <= i < |stats| ==> r[i].0 == stats[i].0
    ensures forall i :: 0 <= i < |stats| ==> r[i].1 == if total > 0 then Share(stats[i].1, total) else ZeroPercent
  {
    if |stats| == 0 then []
    else [(stats[0].0, if total > 0 then Share(stats[0].1, total) else ZeroPercent)] + Percentages(stats[1..], total)
  }

  const StatsPeriod: string := "Last 30 days"
  const StatsErrorPrefix: string := "Error getting statistics: "

  datatype StatsReply =
    | Stats(counts: Counts, percentages: seq<(string, Percent)>, total: nat, period: string)
    | StatsError(message: string)

  /** `getDiseaseStats` over the classifications of the documents the
      query returns (completed in the last 30 days), or the query's error. */
  function DiseaseStats(query: Result<seq<Option<string>>, string>): StatsReply
  {
    match query
    case Err(e) => StatsError(StatsErrorPrefix + e)
    case Ok(docs) =>
      var stats := Tally(InitialCounts(), docs);
      var total := Total(stats);
      Stats(stats, Percentages(stats, total), total, StatsPeriod)
  }

  /** The statistics count every class name (from 0) and each classified
      document once, under its own class; the total is the number of
      classified documents, and with none every percentage is "0%". */
  lemma DiseaseStatsFacts(docs: seq<Option<string>>, c: string)
    ensures var r := DiseaseStats(Ok(docs));
            && r.Stats?
            && |r.counts| >= 4 && KeysOf(r.counts)[..4] == ClassNames
            && CountFor(r.counts, c) == Occurrences(docs, c)
            && r.total == ClassifiedCount(docs)
            && (r.total == 0 ==> forall i :: 0 <= i < |r.percentages| ==> r.percentages[i].1 == ZeroPercent)
  {
    TallyCounts(InitialCounts(), docs, c);
    TallyTotal(InitialCounts(), docs);
    TallyKeepsKeys(InitialCounts(), docs);
  }
}

=== FILE: cloud_handler.dfy ===
/** The HTTP inference function: the model is loaded once per instance,
    a CORS preflight is answered directly, a request body is validated,
    and a prediction vector is turned into a class, a confidence and the
    per-class probabilities. Decoding, resizing and inference form one
    oracle. */
module CloudHandler {
  import opened Common

  // ---------------------------------------------------------------------
  // Request bodies

  /** A parsed JSON value. Object members keep their textual order. */
  datatype Json =
    | JNull
    | JBool(b: bool)
    | JNum(n: real)
    | JStr(s: string)
    | JArr(items: seq<Json>)
    | JObj(members: seq<(string, Json)>)

  /** Python truthiness of a parsed value. */
  predicate Truthy(j: Json)
  {
    match j
    case JNull => false
    case JBool(b) => b
    case JNum(n) => n != 0.0
    case JStr(s) => |s| > 0
    case JArr(items) => |items| > 0
    case JObj(members) => |members| > 0
  }

  /** Python's `p in s` on strings. */
  predicate IsSubstring(p: string, s: string)
    decreases |s|
  {
    |p| <= |s| && (s[..|p|] == p || IsSubstring(p, s[1..]))
  }

  predicate HasKey(members: seq<(string, Json)>, key: string)
  {
    exists i :: 0 <= i < |members| && members[i].0 == key
  }

  /** The value of `key` in a parsed object: the last member with that key,
      as Python's `json` module keeps it. */
  function Lookup(members: seq<(string, Json)>, key: string): (r: Option<Json>)
    ensures r.None? <==> !HasKey(members, key)
    ensures r.Some? ==> exists i :: 0 <= i < |members| && members[i] == (key, r.value)
                                    && forall j :: i < j < |members| ==> members[j].0 != key
  {
    if |members| == 0 then None
    else
      var last := members[|members| - 1];
      var front := members[..|members| - 1];
      if last.0 == key then Some(last.1)
      else
        var r := Lookup(front, key);
        assert HasKey(members, key) ==> HasKey(front, key) by {
          if HasKey(members, key) {
            var i :| 0 <= i < |members| && members[i].0 == key;
            assert front[i] == members[i];
          }
        }
        assert r.Some? ==> exists i :: 0 <= i < |members| && members[i] == (key, r.value)
                                       && forall j :: i < j < |members| ==> members[j].0 != key by {
          if r.Some? {
            var i :| 0 <= i < |front| && front[i] == (key, r.value)
                     && forall j :: i < j < |front| ==> front[j].0 != key;
            assert members[i] == front[i];
            forall j | i < j < |members| ensures members[j].0 != key {
              if j < |front| { assert members[j] == front[j]; }
            }
          }
        }
        r
  }

  /** What `'image' in request_json` gives, or `None` where Python raises
      (a number or a boolean does not support `in`). */
  function ContainsImageKey(j: Json): Option<bool>
  {
    match j
    case JNull => Some(false)
    case JBool(_) => None
    case JNum(_) => None
    case JStr(s) => Some(IsSubstring("image", s))
    case JArr(items) => Some(JStr("image") in items)
    case JObj(members) => Some(HasKey(members, "image"))
  }

  // ---------------------------------------------------------------------
  // Responses

  type Headers = seq<(string, string)>

  const AllowOrigin: (string, string) := ("Access-Control-Allow-Origin", "*")

  const PreflightHeaders: Headers :=
    [AllowOrigin,
     ("Access-Control-Allow-Methods", "POST"),
     ("Access-Control-Allow-Headers", "Content-Type"),
     ("Access-Control-Max-Age", "3600")]

  const InvalidRequestMessage: string := "Invalid request. Please provide an image in base64 format."
  const EmptyImageMessage: string := "Empty image data"
  const ProcessingErrorPrefix: string := "Error processing image: "

  /** The text of the exceptions the result construction itself can raise. */
  const EmptyArgMaxMessage: string := "attempt to get argmax of an empty sequence"
  const IndexErrorMessage: string := "list index out of range"
  const NoClassNamesMessage: string := "'NoneType' object is not subscriptable"

  /** numpy's message for index `i` into a row of length `n`. */
  function RowIndexMessage(i: nat, n: nat): string
  {
    "index " + NatToDecimal(i) + " is out of bounds for axis 0 with size " + NatToDecimal(n)
  }

  datatype Body =
    | Empty
    | ErrorBody(error: string)
    | Prediction(cls: string, confidence: real, allProbabilities: map<string, real>)

  /** A response, or an exception that escapes the handler (the framework
      then answers on its own, without these headers). */
  datatype Outcome =
    | Reply(status: nat, body: Body, headers: Headers)
    | Uncaught(reason: string)

  // ---------------------------------------------------------------------
  // The loaded model

  /** Decoding, resizing and inference on an `image` value: the prediction
      row, or the text of the exception raised. */
  type Predictor = Json -> Result<seq<real>, string>

  /** The module globals `model` and `class_names`. */
  datatype Globals = Globals(model: Option<Predictor>, classNames: Option<seq<string>>)

  /** What `load_model` does when called: the saved model fails to load;
      the global model is set but a later step raises (the `serve`
      signature, or reading the class-info file); or both load. */
  datatype LoadAttempt =
    | ModelFails(reason: string)
    | ClassInfoFails(model: Predictor, reason: string)
    | BothLoad(model: Predictor, classNames: seq<string>)

  /** The load-once guard: `load_model` runs only while the global model is
      unset. The outcome is `Some` when that call raises. */
  function EnsureLoaded(g: Globals, attempt: LoadAttempt): (r: (Globals, Option<string>))
    ensures g.model.Some? ==> r == (g, None)
    ensures r.1.None? ==> r.0.model.Some?
    ensures r.0.model.None? ==> attempt.ModelFails? && r.0 == g
    ensures g.model.None? && attempt.BothLoad? ==>
              r == (Globals(Some(attempt.model), Some(attempt.classNames)), None)
    ensures g.model.None? && attempt.ClassInfoFails? ==>
              r == (Globals(Some(attempt.model), g.classNames), Some(attempt.reason))
  {
    if g.model.Some? then (g, None)
    else match attempt
      case ModelFails(reason) => (g, Some(reason))
      case ClassInfoFails(m, reason) => (Globals(Some(m), g.classNames), Some(reason))
      case BothLoad(m, names) => (Globals(Some(m), Some(names)), None)
  }

  // ---------------------------------------------------------------------
  // Results

  /** `np.argmax`: the first index holding the maximum. */
  function ArgMax(p: seq<real>): (r: nat)
    requires |p| > 0
    ensures r < |p|
    ensures forall k :: 0 <= k < |p| ==> p[k] <= p[r]
    ensures forall k :: 0 <= k < r ==> p[k] < p[r]
  {
    if |p| == 1 then 0
    else
      var m := ArgMax(p[..|p| - 1]);
      assert forall k :: 0 <= k < |p| - 1 ==> p[..|p| - 1][k] == p[k];
      if p[|p| - 1] > p[m] then |p| - 1 else m
  }

  /** `{name: p[i] for i, name in enumerate(names)}`: a later duplicate
      name overwrites an earlier one. */
  function Probabilities(names: seq<string>, p: seq<real>): (r: map<string, real>)
    requires |names| <= |p|
    ensures r.Keys == set n | n in names
  {
    if |names| == 0 then map[]
    else Probabilities(names[..|names| - 1], p)[names[|names| - 1] := p[|names| - 1]]
  }

  /** The prediction response for one prediction row, or the message of the
      exception that building it raises. */
  function BuildResult(names: Option<seq<string>>, p: seq<real>): (r: Result<Body, string>)
    ensures |p| == 0 ==> r == Err(EmptyArgMaxMessage)
    ensures |p| > 0 && names.None? ==> r == Err(NoClassNamesMessage)
    ensures r.Ok? <==> |p| > 0 && names.Some? && ArgMax(p) < |names.value| <= |p|
    ensures r.Ok? ==> names.Some? && |names.value| <= |p| && ArgMax(p) < |names.value|
                      && r.value == Prediction(names.value[ArgMax(p)], p[ArgMax(p)], Probabilities(names.value, p))
  {
    if |p| == 0 then Err(EmptyArgMaxMessage)
    else if names.None? then Err(NoClassNamesMessage)
    else
      var i := ArgMax(p);
      if i >= |names.value| then Err(IndexErrorMessage)
      else if |names.value| > |p| then Err(RowIndexMessage(|p|, |p|))
      else Ok(Prediction(names.value[i], p[i], Probabilities(names.value, p)))
  }

  // ---------------------------------------------------------------------
  // The handler

  /** `detect_tomato_disease`: the globals after the request and the
      outcome. `body` is `request.get_json(silent=True)`: `None` when the
      body is missing or does not parse. */
  function Handle(g: Globals, attempt: LoadAttempt, isOptions: bool, body: Option<Json>): (r: (Globals, Outcome))
  {
    var (g', failure) := EnsureLoaded(g, attempt);
    if failure.Some? then (g', Uncaught(failure.value))
    else if isOptions then (g', Reply(204, Empty, PreflightHeaders))
    else (g', Respond(g', body))
  }

  /** Everything after the preflight branch. */
  function Respond(g: Globals, body: Option<Json>): Outcome
    requires g.model.Some?
  {
    var headers := [AllowOrigin];
    if body.None? || !Truthy(body.value) then Reply(400, ErrorBody(InvalidRequestMessage), headers)
    else match ContainsImageKey(body.value)
      case None => Uncaught("argument of type is not iterable")
      case Some(false) => Reply(400, ErrorBody(InvalidRequestMessage), headers)
      case Some(true) =>
        if !body.value.JObj? then Uncaught("indices must be integers")
        else
          var image := Lookup(body.value.members, "image").value;
          if !Truthy(image) then Reply(400, ErrorBody(EmptyImageMessage), headers)
          else match g.model.value(image)
            case Err(msg) => Reply(500, ErrorBody(ProcessingErrorPrefix + msg), headers)
            case Ok(p) =>
              match BuildResult(g.classNames, p)
              case Err(msg) => Reply(500, ErrorBody(ProcessingErrorPrefix + msg), headers)
              case Ok(result) => Reply(200, result, headers)
  }

  // ---------------------------------------------------------------------
  // Properties of the handler

  /** The model is loaded only while the global model is unset: once set,
      no request changes the globals, preflight requests included, and what
      a load would have done makes no difference. */
  lemma LoadedOnce(g: Globals, a: LoadAttempt, b: LoadAttempt, isOptions: bool, body: Option<Json>)
    requires g.model.Some?
    ensures Handle(g, a, isOptions, body).0 == g
    ensures Handle(g, a, isOptions, body) == Handle(g, b, isOptions, body)
  {
  }

  /** A preflight request on a loaded instance gets an empty 204 with the
      four CORS headers; on a cold instance it loads the model first. */
  lemma PreflightResponse(g: Globals, attempt: LoadAttempt, body: Option<Json>)
    requires g.model.Some? || attempt.BothLoad?
    ensures Handle(g, attempt, true, body).1 == Reply(204, Empty, PreflightHeaders)
    ensures Handle(g, attempt, true, body).0.model.Some?
  {
  }

  /** A missing, unparsable or falsy body, or one without an `image` key,
      gets 400. */
  lemma InvalidBodyRejected(g: Globals, body: Option<Json>)
    requires g.model.Some?
    requires body.None? || !Truthy(body.value)
             || (body.value.JObj? && !HasKey(body.value.members, "image"))
    ensures Respond(g, body) == Reply(400, ErrorBody(InvalidRequestMessage), [AllowOrigin])
  {
  }

  /** An `image` value that is present but falsy gets 400. */
  lemma EmptyImageRejected(g: Globals, members: seq<(string, Json)>)
    requires g.model.Some?
    requires HasKey(members, "image") && !Truthy(Lookup(members, "image").value)
    ensures Respond(g, Some(JObj(members))) == Reply(400, ErrorBody(EmptyImageMessage), [AllowOrigin])
  {
  }

  /** Every response after the preflight branch carries
      `Access-Control-Allow-Origin: *`, and a 500 always carries the
      processing-error prefix. */
  lemma ResponsesAllowAnyOrigin(g: Globals, body: Option<Json>)
    requires g.model.Some?
    ensures Respond(g, body).Reply? ==> Respond(g, body).headers == [AllowOrigin]
    ensures Respond(g, body).Reply? ==> Respond(g, body).status in {200, 400, 500}
    ensures Respond(g, body).Reply? && Respond(g, body).status == 500 ==>
              Respond(g, body).body.ErrorBody?
              && |Respond(g, body).body.error| >= |ProcessingErrorPrefix|
              && Respond(g, body).body.error[..|ProcessingErrorPrefix|] == ProcessingErrorPrefix
  {
  }

  /** Once an object body carries a truthy `image`, the status follows
      the processing: an exception from inference, or from building the
      result, gives 500 with its message after the processing-error prefix,
      and a row that builds gives 200 with the built result. */
  lemma ProcessingOutcome(g: Globals, members: seq<(string, Json)>)
    requires g.model.Some?
    requires HasKey(members, "image") && Truthy(Lookup(members, "image").value)
    ensures var res := g.model.value(Lookup(members, "image").value);
            && (res.Err? ==>
                  Respond(g, Some(JObj(members))) == Reply(500, ErrorBody(ProcessingErrorPrefix + res.error), [AllowOrigin]))
            && (res.Ok? && BuildResult(g.classNames, res.value).Err? ==>
                  Respond(g, Some(JObj(members)))
                  == Reply(500, ErrorBody(ProcessingErrorPrefix + BuildResult(g.classNames, res.value).error), [AllowOrigin]))
            && (res.Ok? && BuildResult(g.classNames, res.value).Ok? ==>
                  Respond(g, Some(JObj(members))) == Reply(200, BuildResult(g.classNames, res.value).value, [AllowOrigin]))
  {
  }

  /** A 200 answers an object body whose `image` the model accepted: the
      row `p` it returned is non-empty, the class is the name at the first
      arg-max index `i` of `p` (every probability at most `p[i]`, every
      earlier one below it), the confidence is `p[i]`, and every class name
      maps to the probability at its last position in the class list. */
  lemma SuccessfulPrediction(g: Globals, body: Option<Json>)
    requires g.model.Some?
    requires Respond(g, body).Reply? && Respond(g, body).status == 200
    ensures && body.Some? && body.value.JObj? && HasKey(body.value.members, "image")
            && var image := Lookup(body.value.members, "image").value;
               && Truthy(image) && g.model.value(image).Ok? && g.classNames.Some?
               && var p := g.model.value(image).value;
                  var names := g.classNames.value;
                  && |p| > 0
                  && var i := ArgMax(p);
                     && i < |names| <= |p|
                     && (forall k :: 0 <= k < |p| ==> p[k] <= p[i])
                     && (forall k :: 0 <= k < i ==> p[k] < p[i])
                     && Respond(g, body).body == Prediction(names[i], p[i], Probabilities(names, p))
  {
  }

  /** With distinct class names, each name maps to its own probability. */
  lemma {:induction false} DistinctNamesKeepTheirProbability(names: seq<string>, p: seq<real>, i: nat)
    requires |names| <= |p| && i < |names|
    requires forall a, b :: 0 <= a < b < |names| ==> names[a] != names[b]
    ensures Probabilities(names, p)[names[i]] == p[i]
  {
    if i < |names| - 1 {
      var front := names[..|names| - 1];
      assert front[i] == names[i];
      DistinctNamesKeepTheirProbability(front, p, i);
    }
  }

  /** A JSON string that contains `image` passes the key check and then
      raises when indexed, outside the handler's error reply. */
  lemma StringBodyEscapes(g: Globals)
    requires g.model.Some?
    ensures Respond(g, Some(JStr("an image"))).Uncaught?
  {
    assert IsSubstring("image", "an image"[3..]);
  }

  /** A cold start whose class-info file fails leaves the model set without
      class names: that request escapes, and every later request with a
      usable image gets a 500. */
  lemma ClassInfoFailureIsSticky(m: Predictor, reason: string, image: Json, isOptions: bool, attempt: LoadAttempt)
    requires Truthy(image) && m(image).Ok? && |m(image).value| > 0
    ensures var (g1, o1) := Handle(Globals(None, None), ClassInfoFails(m, reason), isOptions, None);
            o1 == Uncaught(reason) && g1 == Globals(Some(m), None)
            && Handle(g1, attempt, false, Some(JObj([("image", image)]))).1
               == Reply(500, ErrorBody(ProcessingErrorPrefix + NoClassNamesMessage), [AllowOrigin])
  {
    var members := [("image", image)];
    assert members[0].0 == "image";
    assert HasKey(members, "image");
  }
}

=== FILE: common.dfy ===
/** Shared vocabulary of the pipeline model: optional values, results,
    bytes, and the few string operations the scripts borrow from Python
    (`str.lower`, `str.endswith`, `os.path.splitext`, `str(int)`, `sorted`). */
module Common {

  datatype Option<T> = None | Some(value: T)

  /** A computation that either yields a value or fails with an error. */
  datatype Result<T, E> = Ok(value: T) | Err(error: E)

  /** An unsigned 8-bit value, as stored in a decoded image or a file. */
  newtype byte = x: int | 0 <= x < 256

  /** `a` can be obtained from `b` by deleting elements. */
  predicate SubsequenceOf<T(==)>(a: seq<T>, b: seq<T>)
    decreases |b|
  {
    |a| == 0 || (|b| > 0 && (if a[0] == b[0] then SubsequenceOf(a[1..], b[1..]) else SubsequenceOf(a, b[1..])))
  }

  // ---------------------------------------------------------------------
  // Suffixes and case folding

  predicate EndsWith(s: string, suffix: string)
  {
    |suffix| <= |s| && s[|s| - |suffix|..] == suffix
  }

  /** ASCII lower-casing of one character. */
  function LowerChar(c: char): char
  {
    if 'A' <= c <= 'Z' then (c as int + 32) as char else c
  }

  function Lower(s: string): (r: string)
    ensures |r| == |s|
    ensures forall i :: 0 <= i < |s| ==> r[i] == LowerChar(s[i])
  {
    if |s| == 0 then "" else [LowerChar(s[0])] + Lower(s[1..])
  }

  /** `name.lower().endswith(('.png', '.jpg', '.jpeg'))`, the filter used
      by the augmenter and the preprocessor. */
  predicate IsImageNameAnyCase(name: string)
  {
    var l := Lower(name);
    EndsWith(l, ".png") || EndsWith(l, ".jpg") || EndsWith(l, ".jpeg")
  }

  /** `name.endswith(('.jpg', '.jpeg', '.png'))`, the case-sensitive filter
      used by the dataset organizer. */
  predicate IsImageNameExact(name: string)
  {
    EndsWith(name, ".jpg") || EndsWith(name, ".jpeg") || EndsWith(name, ".png")
  }

  /** Lower-casing keeps a suffix that lower-casing does not change. */
  lemma LowerKeepsSuffix(name: string, ext: string)
    requires EndsWith(name, ext)
    requires forall i :: 0 <= i < |ext| ==> LowerChar(ext[i]) == ext[i]
    ensures EndsWith(Lower(name), ext)
  {
    var l := Lower(name);
    var k := |name| - |ext|;
    forall i | 0 <= i < |ext|
      ensures l[k + i] == ext[i]
    {
      assert name[k..][i] == name[k + i];
    }
  }

  /** Every name the case-sensitive filter accepts, the any-case filter
      accepts too. */
  lemma ExactImplies(name: string)
    requires IsImageNameExact(name)
    ensures IsImageNameAnyCase(name)
  {
    if EndsWith(name, ".jpg") {
      LowerKeepsSuffix(name, ".jpg");
    } else if EndsWith(name, ".jpeg") {
      LowerKeepsSuffix(name, ".jpeg");
    } else {
      LowerKeepsSuffix(name, ".png");
    }
  }

  /** An upper-case extension passes the any-case filter but not the exact one. */
  lemma UpperCaseExtensionSplitsFilters()
    ensures IsImageNameAnyCase("leaf.JPG") && !IsImageNameExact("leaf.JPG")
  {
    assert Lower("leaf.JPG") == "leaf.jpg";
    assert "leaf.JPG"[4..] == ".JPG";
  }

  // ---------------------------------------------------------------------
  // os.path.splitext on a bare file name

  /** Index of the last occurrence of `c` in `s`, or -1. */
  function LastIndexOf(s: string, c: char): (r: int)
    ensures -1 <= r < |s|
    ensures r >= 0 ==> s[r] == c
    ensures forall j :: r < j < |s| ==> s[j] != c
  {
    if |s| == 0 then -1
    else if s[|s| - 1] == c then |s| - 1
    else LastIndexOf(s[..|s| - 1], c)
  }

  /** True when some character before index `k` is not a dot. */
  predicate HasNonDotBefore(s: string, k: int)
    requires k <= |s|
  {
    exists i :: 0 <= i < k && s[i] != '.'
  }

  /** Python's `os.path.splitext` for a name without directory separators:
      the extension starts at the last dot, unless every character before
      that dot is itself a dot (`.jpg` and `..png` have no extension). */
  function SplitExt(name: string): (r: (string, string))
    ensures r.0 + r.1 == name
    ensures r.1 == "" || (r.1[0] == '.' && forall j :: 0 < j < |r.1| ==> r.1[j] != '.')
    ensures r.1 != "" <==> (LastIndexOf(name, '.') >= 0 && HasNonDotBefore(name, LastIndexOf(name, '.')))
  {
    var dot := LastIndexOf(name, '.');
    if dot >= 0 && HasNonDotBefore(name, dot) then (name[..dot], name[dot..])
    else (name, "")
  }

  /** The `base_name` the scripts derive from a file name. */
  function StemOf(name: string): string
  {
    SplitExt(name).0
  }

  lemma SplitExtExamples()
    ensures SplitExt("leaf.tar.jpg") == ("leaf.tar", ".jpg")
    ensures SplitExt(".jpg") == (".jpg", "")
    ensures SplitExt("noext") == ("noext", "")
  {
    var n := "leaf.tar.jpg";
    assert n[8] == '.' && n[9] != '.' && n[10] != '.' && n[11] != '.';
    assert LastIndexOf(n, '.') == 8;
    assert n[0] != '.';
    assert n[..8] == "leaf.tar" && n[8..] == ".jpg";
    assert ".jpg"[0] == '.';
    assert !HasNonDotBefore(".jpg", 0);
    assert forall j :: 0 <= j < 5 ==> "noext"[j] != '.';
  }

  // ---------------------------------------------------------------------
  // Decimal rendering of integers (Python's `str(int)` / f-string)

  function DigitChar(d: int): char
    requires 0 <= d < 10
  {
    "0123456789"[d]
  }

  predicate IsDigit(c: char)
  {
    '0' <= c <= '9'
  }

  function DigitValue(c: char): int
    requires IsDigit(c)
  {
    c as int - '0' as int
  }

  predicate AllDigits(s: string)
  {
    forall i :: 0 <= i < |s| ==> IsDigit(s[i])
  }

  function NatToDecimal(n: nat): (s: string)
    ensures |s| > 0
    ensures AllDigits(s)
    ensures |s| > 1 ==> s[0] != '0'
  {
    if n < 10 then [DigitChar(n)] else NatToDecimal(n / 10) + [DigitChar(n % 10)]
  }

  /** The text Python prints for an integer. */
  function IntToDecimal(n: int): string
  {
    if n < 0 then "-" + NatToDecimal(-n) else NatToDecimal(n)
  }

  /** The value of a string of decimal digits. */
  function DecimalValue(s: string): nat
    requires AllDigits(s)
  {
    if |s| == 0 then 0 else 10 * DecimalValue(s[..|s| - 1]) + DigitValue(s[|s| - 1])
  }

  /** Reads a non-empty string of decimal digits; `None` for anything else. */
  function ParseDigits(s: string): Option<nat>
  {
    if |s| > 0 && AllDigits(s) then Some(DecimalValue(s)) else None
  }

  /** Reads back what `IntToDecimal` prints; `None` for anything else. */
  function ParseInt(s: string): Option<int>
  {
    if |s| > 0 && s[0] == '-' then
      match ParseDigits(s[1..])
      case Some(v) => Some(-(v as int))
      case None => None
    else
      match ParseDigits(s)
      case Some(v) => Some(v as int)
      case None => None
  }

  lemma {:induction false} NatDecimalRoundTrip(n: nat)
    ensures DecimalValue(NatToDecimal(n)) == n
  {
    var s := NatToDecimal(n);
    if n < 10 {
      assert s == [DigitChar(n)];
    } else {
      NatDecimalRoundTrip(n / 10);
      assert s[..|s| - 1] == NatToDecimal(n / 10);
      assert s[|s| - 1] == DigitChar(n % 10);
    }
  }

  /** Printing an integer and reading it back gives the same integer, so
      distinct integers print differently. */
  lemma IntDecimalRoundTrip(n: int)
    ensures ParseInt(IntToDecimal(n)) == Some(n)
  {
    if n < 0 {
      NegativeRoundTrip(-n);
    } else {
      UnsignedRoundTrip(n);
    }
  }

  lemma NegativeRoundTrip(m: nat)
    requires m > 0
    ensures ParseInt(IntToDecimal(-(m as int))) == Some(-(m as int))
  {
    var d := NatToDecimal(m);
    NatDecimalRoundTrip(m);
    assert ParseDigits(d) == Some(m);
    var s := IntToDecimal(-(m as int));
    assert s == "-" + d;
    assert s[0] == '-' && s[1..] == d;
  }

  lemma UnsignedRoundTrip(m: nat)
    ensures ParseInt(IntToDecimal(m)) == Some(m as int)
  {
    var d := NatToDecimal(m);
    NatDecimalRoundTrip(m);
    assert ParseDigits(d) == Some(m);
    assert IntToDecimal(m) == d;
    assert d[0] != '-' by { assert IsDigit(d[0]); }
  }

  lemma IntToDecimalInjective(a: int, b: int)
    requires IntToDecimal(a) == IntToDecimal(b)
    ensures a == b
  {
    IntDecimalRoundTrip(a);
    IntDecimalRoundTrip(b);
  }

  // ---------------------------------------------------------------------
  // Python's `sorted` on a list of strings (code-point lexicographic order)

  predicate LexLe(a: string, b: string)
    decreases |a|
  {
    |a| == 0 || (|b| > 0 && (a[0] < b[0] || (a[0] == b[0] && LexLe(a[1..], b[1..]))))
  }

  lemma {:induction false} LexLeReflexive(a: string)
    ensures LexLe(a, a)
    decreases |a|
  {
    if |a| > 0 {
      LexLeReflexive(a[1..]);
    }
  }

  lemma {:induction false} LexLeTotal(a: string, b: string)
    ensures LexLe(a, b) || LexLe(b, a)
    decreases |a|
  {
    if |a| > 0 && |b| > 0 && a[0] == b[0] {
      LexLeTotal(a[1..], b[1..]);
    }
  }

  lemma {:induction false} LexLeTransitive(a: string, b: string, c: string)
    requires LexLe(a, b) && LexLe(b, c)
    ensures LexLe(a, c)
    decreases |a|
  {
    if |a| > 0 && a[0] == b[0] && b[0] == c[0] {
      LexLeTransitive(a[1..], b[1..], c[1..]);
    }
  }

  lemma {:induction false} LexLeAntisymmetric(a: string, b: string)
    requires LexLe(a, b) && LexLe(b, a)
    ensures a == b
    decreases |a|
  {
    if |a| > 0 {
      LexLeAntisymmetric(a[1..], b[1..]);
      assert a == [a[0]] + a[1..];
      assert b == [b[0]] + b[1..];
    }
  }

  predicate SortedStrings(s: seq<string>)
  {
    forall i, j :: 0 <= i < j < |s| ==> LexLe(s[i], s[j])
  }

  /** `b` is at or below every element of `s`. */
  predicate LowerBound(b: string, s: seq<string>)
  {
    forall j :: 0 <= j < |s| ==> LexLe(b, s[j])
  }

  lemma SortedCons(a: string, t: seq<string>)
    ensures SortedStrings([a] + t) <==> LowerBound(a, t) && SortedStrings(t)
  {
    var s := [a] + t;
    if LowerBound(a, t) && SortedStrings(t) {
      forall i, j | 0 <= i < j < |s| ensures LexLe(s[i], s[j]) {
        if i > 0 { assert s[i] == t[i - 1] && s[j] == t[j - 1]; }
        else { assert s[j] == t[j - 1]; }
      }
    }
    if SortedStrings(s) {
      forall j | 0 <= j < |t| ensures LexLe(a, t[j]) {
        assert s[0] == a && s[j + 1] == t[j];
        assert LexLe(s[0], s[j + 1]);
      }
      forall i, j | 0 <= i < j < |t| ensures LexLe(t[i], t[j]) {
        assert s[i + 1] == t[i] && s[j + 1] == t[j];
        assert LexLe(s[i + 1], s[j + 1]);
      }
    }
  }

  /** One step of insertion sort: `x` goes before the first element it does
      not exceed. */
  function InsertSorted(x: string, s: seq<string>): (r: seq<string>)
    ensures multiset(r) == multiset(s) + multiset{x}
  {
    if |s| == 0 then [x]
    else if LexLe(x, s[0]) then [x] + s
    else
      assert s == [s[0]] + s[1..];
      [s[0]] + InsertSorted(x, s[1..])
  }

  lemma {:induction false} InsertKeepsLowerBound(b: string, x: string, s: seq<string>)
    requires LowerBound(b, s) && LexLe(b, x)
    ensures LowerBound(b, InsertSorted(x, s))
  {
    if |s| > 0 && !LexLe(x, s[0]) {
      InsertKeepsLowerBound(b, x, s[1..]);
      var r := InsertSorted(x, s[1..]);
      assert InsertSorted(x, s) == [s[0]] + r;
    }
  }

  lemma {:induction false} InsertSortedSorted(x: string, s: seq<string>)
    requires SortedStrings(s)
    ensures SortedStrings(InsertSorted(x, s))
  {
    if |s| == 0 {
    } else if LexLe(x, s[0]) {
      forall j | 0 <= j < |s| ensures LexLe(x, s[j]) {
        if j > 0 { LexLeTransitive(x, s[0], s[j]); }
      }
      SortedCons(x, s);
    } else {
      assert s == [s[0]] + s[1..];
      SortedCons(s[0], s[1..]);
      InsertSortedSorted(x, s[1..]);
      LexLeTotal(x, s[0]);
      InsertKeepsLowerBound(s[0], x, s[1..]);
      SortedCons(s[0], InsertSorted(x, s[1..]));
    }
  }

  /** `sorted(names)`. */
  function SortStrings(s: seq<string>): (r: seq<string>)
    ensures SortedStrings(r)
    ensures multiset(r) == multiset(s)
  {
    if |s| == 0 then []
    else
      assert s == [s[0]] + s[1..];
      InsertSortedSorted(s[0], SortStrings(s[1..]));
      InsertSorted(s[0], SortStrings(s[1..]))
  }

  /** The head of a sorted list is at or below each of its elements. */
  lemma SortedHeadIsLeast(a: seq<string>, y: string)
    requires SortedStrings(a) && y in a
    ensures LexLe(a[0], y)
  {
    var i :| 0 <= i < |a| && a[i] == y;
    if i == 0 { LexLeReflexive(y); }
  }

  /** Sorting depends only on the collection of names, never on the order
      in which the directory listing produced them. */
  lemma {:induction false} SortedUnique(a: seq<string>, b: seq<string>)
    requires SortedStrings(a) && SortedStrings(b)
    requires multiset(a) == multiset(b)
    ensures a == b
    decreases |a|
  {
    assert |a| == |multiset(a)| == |multiset(b)| == |b|;
    if |a| > 0 {
      assert a[0] in multiset(b) && b[0] in multiset(a);
      SortedHeadIsLeast(a, b[0]);
      SortedHeadIsLeast(b, a[0]);
      LexLeAntisymmetric(a[0], b[0]);
      assert a == [a[0]] + a[1..];
      assert b == [b[0]] + b[1..];
      assert multiset(a[1..]) == multiset(b[1..]) by {
        assert multiset(a) == multiset{a[0]} + multiset(a[1..]);
        assert multiset(b) == multiset{b[0]} + multiset(b[1..]);
        assert multiset(a[1..]) == multiset(a) - multiset{a[0]};
        assert multiset(b[1..]) == multiset(b) - multiset{b[0]};
      }
      SortedCons(a[0], a[1..]);
      SortedCons(b[0], b[1..]);
      SortedUnique(a[1..], b[1..]);
    }
  }

  lemma SortIgnoresListingOrder(a: seq<string>, b: seq<string>)
    requires multiset(a) == multiset(b)
    ensures SortStrings(a) == SortStrings(b)
  {
    SortedUnique(SortStrings(a), SortStrings(b));
  }
}

=== FILE: filetree.dfy ===
/** A directory tree as the scripts see it through `os.listdir`,
    `os.path.exists` and `os.path.isdir`. A directory's entries are kept in
    the order the listing returns them, since that order decides labels,
    splitter input and the order of writes. */
module FileTree {
  import opened Common

  /** The bytes of a file. Whether they decode as an image or load as an
      array is decided by oracles, never by the model itself. */
  type Blob = seq<byte>

  datatype Node = File(blob: Blob) | Dir(entries: seq<Entry>)

  datatype Entry = Entry(name: string, node: Node)

  function Names(entries: seq<Entry>): (r: seq<string>)
    ensures |r| == |entries|
    ensures forall i :: 0 <= i < |entries| ==> r[i] == entries[i].name
  {
    if |entries| == 0 then [] else [entries[0].name] + Names(entries[1..])
  }

  /** What `os.path.join(dir, name)` names: the first entry with that name. */
  function Find(entries: seq<Entry>, name: string): (r: Option<Node>)
    ensures r.None? <==> name !in Names(entries)
    ensures r.Some? ==> exists i :: 0 <= i < |entries| && entries[i] == Entry(name, r.value)
  {
    if |entries| == 0 then None
    else if entries[0].name == name then Some(entries[0].node)
    else
      var r := Find(entries[1..], name);
      assert r.Some? ==> exists i :: 1 <= i < |entries| && entries[i] == Entry(name, r.value) by {
        if r.Some? {
          var i :| 0 <= i < |entries[1..]| && entries[1..][i] == Entry(name, r.value);
          assert entries[i + 1] == Entry(name, r.value);
        }
      }
      r
  }

  /** `os.path.exists(os.path.join(dir, name))` where `dir` may itself be
      missing or a plain file. */
  predicate ExistsIn(dir: Option<Node>, name: string)
  {
    dir.Some? && dir.value.Dir? && Find(dir.value.entries, name).Some?
  }

  predicate IsDirNode(n: Node)
  {
    n.Dir?
  }
}

=== FILE: loader.dfy ===
/** The loader of preprocessed arrays shared by both training scripts:
    class names are the sorted top-level listing, a class's label is its
    index in that list, and every `.npy` file of a class directory becomes
    one image with that label. `A` stands for the loaded array. */
module NpyLoader {
  import opened Common
  import opened FileTree

  datatype LoadError =
    | DirectoryNotFound
    | NotADirectory
    | NoClassFolders
    | NoImages
    | LoadFailed(cls: string, file: string)

  /** The images, their labels and the class vocabulary. */
  datatype Loaded<A> = Loaded(images: seq<A>, labels: seq<nat>, classNames: seq<string>)

  /** The entries of a class directory whose names end in `.npy`, in
      listing order. */
  function NpyFiles(files: seq<Entry>): (r: seq<Entry>)
    ensures forall e :: e in r <==> e in files && EndsWith(e.name, ".npy")
    ensures SubsequenceOf(r, files)
  {
    if |files| == 0 then []
    else
      var rest := NpyFiles(files[1..]);
      if EndsWith(files[0].name, ".npy") then [files[0]] + rest
      else
        assert rest == [] || rest[0] != files[0];
        rest
  }

  /** `np.load`: the oracle on a file's bytes; loading a directory raises. */
  function LoadNode<A>(n: Node, load: Blob -> Option<A>): Option<A>
  {
    if n.File? then load(n.blob) else None
  }

  /** Loads `files` in order, failing at the first that does not load. */
  function LoadFiles<A>(cls: string, files: seq<Entry>, load: Blob -> Option<A>): (r: Result<seq<A>, LoadError>)
    ensures r.Ok? ==> |r.value| == |files|
                      && forall k :: 0 <= k < |files| ==> LoadNode(files[k].node, load) == Some(r.value[k])
    ensures r.Err? ==> exists k :: 0 <= k < |files| && r.error == LoadFailed(cls, files[k].name)
                                   && LoadNode(files[k].node, load).None?
  {
    if |files| == 0 then Ok([])
    else match LoadNode(files[0].node, load)
      case None => Err(LoadFailed(cls, files[0].name))
      case Some(img) =>
        var rest := LoadFiles(cls, files[1..], load);
        if rest.Err? then
          assert exists k :: 1 <= k < |files| && rest.error == LoadFailed(cls, files[k].name)
                             && LoadNode(files[k].node, load).None? by {
            var k :| 0 <= k < |files[1..]| && rest.error == LoadFailed(cls, files[1..][k].name)
                     && LoadNode(files[1..][k].node, load).None?;
            assert files[k + 1] == files[1..][k];
          }
          Err(rest.error)
        else Ok([img] + rest.value)
  }

  /** The `.npy` entries of class `name`, or nothing when `name` is not a
      directory (such a class is skipped but keeps its index). */
  function ClassFiles(entries: seq<Entry>, name: string): seq<Entry>
  {
    match Find(entries, name)
    case Some(Dir(files)) => NpyFiles(files)
    case _ => []
  }

  /** Loading a class fails exactly when one of its files does not load. */
  lemma LoadFilesFailsIff<A>(cls: string, files: seq<Entry>, load: Blob -> Option<A>)
    ensures LoadFiles(cls, files, load).Err? <==> exists e :: e in files && LoadNode(e.node, load).None?
  {
    var r := LoadFiles(cls, files, load);
    if r.Ok? {
      forall e | e in files ensures LoadNode(e.node, load).Some? {
        var k :| 0 <= k < |files| && files[k] == e;
      }
    }
  }

  /** Class `c` has a `.npy` file that `np.load` cannot read. */
  predicate Unloadable<A>(entries: seq<Entry>, c: string, load: Blob -> Option<A>)
  {
    exists e :: e in ClassFiles(entries, c) && LoadNode(e.node, load).None?
  }

  /** `n` copies of label `i`. */
  function Repeat(i: nat, n: nat): (r: seq<nat>)
    ensures |r| == n && forall k :: 0 <= k < n ==> r[k] == i
  {
    if n == 0 then [] else [i] + Repeat(i, n - 1)
  }

  /** The loop over the class names from index `i` on. */
  function LoadFrom<A>(entries: seq<Entry>, classNames: seq<string>, i: nat, load: Blob -> Option<A>)
    : (r: Result<(seq<A>, seq<nat>), LoadError>)
    requires i <= |classNames|
    ensures r.Ok? ==> |r.value.0| == |r.value.1|
                      && forall k :: 0 <= k < |r.value.1| ==> i <= r.value.1[k] < |classNames|
    ensures r.Err? ==> r.error.LoadFailed?
    decreases |classNames| - i
  {
    if i == |classNames| then Ok(([], []))
    else
      var files := ClassFiles(entries, classNames[i]);
      match LoadFiles(classNames[i], files, load)
      case Err(e) => Err(e)
      case Ok(imgs) =>
        match LoadFrom(entries, classNames, i + 1, load)
        case Err(e) => Err(e)
        case Ok(rest) => Ok((imgs + rest.0, Repeat(i, |imgs|) + rest.1))
  }

  /** Some class from index `i` on has a `.npy` file that does not load. */
  predicate UnloadableFrom<A>(entries: seq<Entry>, classNames: seq<string>, i: nat, load: Blob -> Option<A>)
    decreases |classNames| - i
  {
    i < |classNames| && (Unloadable(entries, classNames[i], load) || UnloadableFrom(entries, classNames, i + 1, load))
  }

  /** No class from index `i` on has a `.npy` file. */
  predicate NoFilesFrom(entries: seq<Entry>, classNames: seq<string>, i: nat)
    decreases |classNames| - i
  {
    i >= |classNames| || (ClassFiles(entries, classNames[i]) == [] && NoFilesFrom(entries, classNames, i + 1))
  }

  /** The class loop fails exactly when some class from `i` on has a
      `.npy` file that does not load. */
  lemma {:induction false} LoadFromFailsIff<A>(entries: seq<Entry>, classNames: seq<string>, i: nat,
                                               load: Blob -> Option<A>)
    requires i <= |classNames|
    ensures LoadFrom(entries, classNames, i, load).Err? <==> UnloadableFrom(entries, classNames, i, load)
    decreases |classNames| - i
  {
    if i < |classNames| {
      LoadFromFailsIff(entries, classNames, i + 1, load);
      var files := ClassFiles(entries, classNames[i]);
      var here := LoadFiles(classNames[i], files, load);
      LoadFilesFailsIff(classNames[i], files, load);
      assert here.Err? <==> Unloadable(entries, classNames[i], load);
      assert UnloadableFrom(entries, classNames, i, load)
             <==> Unloadable(entries, classNames[i], load) || UnloadableFrom(entries, classNames, i + 1, load);
      if here.Ok? {
        assert LoadFrom(entries, classNames, i, load).Err? <==> LoadFrom(entries, classNames, i + 1, load).Err?;
      }
    }
  }

  /** A successful class loop loads nothing exactly when no class from
      `i` on has a `.npy` file. */
  lemma {:induction false} LoadFromEmptyIff<A>(entries: seq<Entry>, classNames: seq<string>, i: nat,
                                               load: Blob -> Option<A>)
    requires i <= |classNames|
    requires LoadFrom(entries, classNames, i, load).Ok?
    ensures |LoadFrom(entries, classNames, i, load).value.0| == 0 <==> NoFilesFrom(entries, classNames, i)
    decreases |classNames| - i
  {
    if i < |classNames| {
      LoadFromStep(entries, classNames, i, load);
      LoadFromEmptyIff(entries, classNames, i + 1, load);
      var files := ClassFiles(entries, classNames[i]);
      var imgs := LoadFiles(classNames[i], files, load).value;
      var rest := LoadFrom(entries, classNames, i + 1, load).value.0;
      assert LoadFrom(entries, classNames, i, load).value.0 == imgs + rest;
      assert |imgs| == |files|;
      assert NoFilesFrom(entries, classNames, i) <==> files == [] && NoFilesFrom(entries, classNames, i + 1);
    }
  }

  /** `UnloadableFrom` is "some class name from index `i` on has an
      unloadable `.npy` file". */
  lemma {:induction false} UnloadableFromAny<A>(entries: seq<Entry>, classNames: seq<string>, i: nat,
                                                load: Blob -> Option<A>)
    requires i <= |classNames|
    ensures UnloadableFrom(entries, classNames, i, load)
            <==> exists c :: c in classNames[i..] && Unloadable(entries, c, load)
    decreases |classNames| - i
  {
    if i < |classNames| {
      UnloadableFromAny(entries, classNames, i + 1, load);
      assert classNames[i..] == [classNames[i]] + classNames[i + 1..];
      assert UnloadableFrom(entries, classNames, i, load)
             <==> Unloadable(entries, classNames[i], load) || UnloadableFrom(entries, classNames, i + 1, load);
    }
  }

  lemma {:induction false} NoFilesFromAll(entries: seq<Entry>, classNames: seq<string>, i: nat)
    requires i <= |classNames|
    ensures NoFilesFrom(entries, classNames, i)
            <==> forall c :: c in classNames[i..] ==> ClassFiles(entries, c) == []
    decreases |classNames| - i
  {
    if i < |classNames| {
      NoFilesFromAll(entries, classNames, i + 1);
      assert classNames[i..] == [classNames[i]] + classNames[i + 1..];
    }
  }

  /** The sorted class names hold the same names as the listing. */
  lemma SortedNamesCover(entries: seq<Entry>, classNames: seq<string>)
    requires multiset(classNames) == multiset(Names(entries))
    ensures classNames[0..] == classNames
    ensures forall c :: c in Names(entries) <==> c in classNames
  {
    forall c ensures c in Names(entries) <==> c in classNames {
      assert c in Names(entries) <==> c in multiset(Names(entries));
    }
  }

  /** `load_preprocessed_data(data_dir)`. */
  function LoadPreprocessedData<A>(input: Option<Node>, load: Blob -> Option<A>): (r: Result<Loaded<A>, LoadError>)
    ensures input.None? <==> r == Err(DirectoryNotFound)
    ensures input.Some? && input.value.File? <==> r == Err(NotADirectory)
    ensures r == Err(NoClassFolders) <==> input == Some(Dir([]))
    ensures r.Ok? ==> input.Some? && input.value.Dir?
                      && SortedStrings(r.value.classNames)
                      && multiset(r.value.classNames) == multiset(Names(input.value.entries))
                      && |r.value.images| == |r.value.labels| > 0
                      && forall k :: 0 <= k < |r.value.labels| ==> r.value.labels[k] < |r.value.classNames|
    ensures r.Err? && r.error.LoadFailed? <==>
              input.Some? && input.value.Dir?
              && exists c :: c in Names(input.value.entries) && Unloadable(input.value.entries, c, load)
    ensures r == Err(NoImages) <==>
              input.Some? && input.value.Dir? && |input.value.entries| > 0
              && forall c :: c in Names(input.value.entries) ==> ClassFiles(input.value.entries, c) == []
    ensures input.Some? && input.value.Dir?
            && (exists c :: c in Names(input.value.entries) && ClassFiles(input.value.entries, c) != [])
            && (forall c :: c in Names(input.value.entries) ==> !Unloadable(input.value.entries, c, load))
            ==> r.Ok?
  {
    match input
    case None => Err(DirectoryNotFound)
    case Some(File(_)) => Err(NotADirectory)
    case Some(Dir(entries)) =>
      var classNames := SortStrings(Names(entries));
      if |classNames| == 0 then
        assert |Names(entries)| == |multiset(Names(entries))| == 0;
        Err(NoClassFolders)
      else
        assert |entries| == |Names(entries)| == |multiset(classNames)| > 0;
        SortedNamesCover(entries, classNames);
        LoadFromFailsIff(entries, classNames, 0, load);
        UnloadableFromAny(entries, classNames, 0, load);
        match LoadFrom(entries, classNames, 0, load)
        case Err(e) => Err(e)
        case Ok(loaded) =>
          LoadFromEmptyIff(entries, classNames, 0, load);
          NoFilesFromAll(entries, classNames, 0);
          if |loaded.0| == 0 then Err(NoImages)
          else Ok(Loaded(loaded.0, loaded.1, classNames))
  }

  // ---------------------------------------------------------------------
  // Properties of the loader

  /** The number of times `v` occurs in `s`. */
  function CountOf(s: seq<nat>, v: nat): nat
  {
    if |s| == 0 then 0 else (if s[0] == v then 1 else 0) + CountOf(s[1..], v)
  }

  lemma {:induction false} CountOfAppend(a: seq<nat>, b: seq<nat>, v: nat)
    ensures CountOf(a + b, v) == CountOf(a, v) + CountOf(b, v)
  {
    if |a| > 0 {
      assert (a + b)[0] == a[0];
      assert (a + b)[1..] == a[1..] + b;
      CountOfAppend(a[1..], b, v);
    } else {
      assert a + b == b;
    }
  }

  lemma {:induction false} CountOfConstant(n: nat, i: nat, v: nat)
    ensures CountOf(Repeat(i, n), v) == if i == v then n else 0
  {
    if n > 0 {
      assert Repeat(i, n)[1..] == Repeat(i, n - 1);
      CountOfConstant(n - 1, i, v);
    }
  }

  lemma {:induction false} CountOfAbsent(s: seq<nat>, v: nat)
    requires forall k :: 0 <= k < |s| ==> s[k] != v
    ensures CountOf(s, v) == 0
  {
    if |s| > 0 {
      CountOfAbsent(s[1..], v);
    }
  }

  /** Class `j` gets exactly one label per `.npy` file of its directory,
      and none when it is a plain file: the per-class counts the training
      script reports. */
  lemma {:induction false} LabelCounts<A>(entries: seq<Entry>, classNames: seq<string>, i: nat,
                                          load: Blob -> Option<A>, j: nat)
    requires i <= j < |classNames|
    requires LoadFrom(entries, classNames, i, load).Ok?
    ensures CountOf(LoadFrom(entries, classNames, i, load).value.1, j) == |ClassFiles(entries, classNames[j])|
    decreases |classNames| - i
  {
    LoadFromStep(entries, classNames, i, load);
    var files := ClassFiles(entries, classNames[i]);
    var imgs := LoadFiles(classNames[i], files, load).value;
    var rest := LoadFrom(entries, classNames, i + 1, load).value;
    CountOfAppend(Repeat(i, |imgs|), rest.1, j);
    CountOfConstant(|imgs|, i, j);
    if i < j {
      LabelCounts(entries, classNames, i + 1, load, j);
    } else {
      CountOfAbsent(rest.1, j);
    }
  }

  /** One step of the class loop: class `i`'s images, labelled `i`, then
      the rest. */
  lemma LoadFromStep<A>(entries: seq<Entry>, classNames: seq<string>, i: nat, load: Blob -> Option<A>)
    requires i < |classNames|
    requires LoadFrom(entries, classNames, i, load).Ok?
    ensures LoadFiles(classNames[i], ClassFiles(entries, classNames[i]), load).Ok?
    ensures LoadFrom(entries, classNames, i + 1, load).Ok?
    ensures LoadFrom(entries, classNames, i, load).value.0
            == LoadFiles(classNames[i], ClassFiles(entries, classNames[i]), load).value
               + LoadFrom(entries, classNames, i + 1, load).value.0
    ensures LoadFrom(entries, classNames, i, load).value.1
            == Repeat(i, |LoadFiles(classNames[i], ClassFiles(entries, classNames[i]), load).value|)
               + LoadFrom(entries, classNames, i + 1, load).value.1
  {
  }

  /** A run of `i`s followed by a sorted list of larger labels is sorted. */
  lemma AscendingAfterRun(n: nat, i: nat, t: seq<nat>)
    requires forall k :: 0 <= k < |t| ==> i < t[k]
    requires forall a, b :: 0 <= a < b < |t| ==> t[a] <= t[b]
    ensures var s := Repeat(i, n) + t;
            forall a, b :: 0 <= a < b < |s| ==> s[a] <= s[b]
  {
  }

  /** Labels come in class order: all images of a class are loaded before
      any of a later class. */
  lemma {:induction false} LabelsAscend<A>(entries: seq<Entry>, classNames: seq<string>, i: nat,
                                           load: Blob -> Option<A>)
    requires i <= |classNames|
    requires LoadFrom(entries, classNames, i, load).Ok?
    ensures var ls := LoadFrom(entries, classNames, i, load).value.1;
            forall a, b :: 0 <= a < b < |ls| ==> ls[a] <= ls[b]
    decreases |classNames| - i
  {
    if i < |classNames| {
      LoadFromStep(entries, classNames, i, load);
      LabelsAscend(entries, classNames, i + 1, load);
      var n := |LoadFiles(classNames[i], ClassFiles(entries, classNames[i]), load).value|;
      AscendingAfterRun(n, i, LoadFrom(entries, classNames, i + 1, load).value.1);
    }
  }

  /** `img` is the load of a `.npy` file in the directory of class `y`. */
  ghost predicate LoadedFromClass<A>(entries: seq<Entry>, classNames: seq<string>, y: nat, img: A,
                                     load: Blob -> Option<A>)
  {
    y < |classNames| && exists f :: f in ClassFiles(entries, classNames[y]) && LoadNode(f.node, load) == Some(img)
  }

  /** Every image is the load of a `.npy` file of the class its label names. */
  ghost predicate AllFromTheirClass<A>(entries: seq<Entry>, classNames: seq<string>,
                                       images: seq<A>, labels: seq<nat>, load: Blob -> Option<A>)
  {
    |images| == |labels|
    && forall k :: 0 <= k < |images| ==> LoadedFromClass(entries, classNames, labels[k], images[k], load)
  }

  lemma AllFromTheirClassConcat<A>(entries: seq<Entry>, classNames: seq<string>,
                                   a: seq<A>, la: seq<nat>, b: seq<A>, lb: seq<nat>, load: Blob -> Option<A>)
    requires AllFromTheirClass(entries, classNames, a, la, load)
    requires AllFromTheirClass(entries, classNames, b, lb, load)
    ensures AllFromTheirClass(entries, classNames, a + b, la + lb, load)
  {
    forall k | 0 <= k < |a + b|
      ensures LoadedFromClass(entries, classNames, (la + lb)[k], (a + b)[k], load)
    {
      if k >= |a| {
        assert (la + lb)[k] == lb[k - |a|] && (a + b)[k] == b[k - |a|];
      }
    }
  }

  /** The images one class contributes come from its own directory. */
  lemma ClassImagesFromClass<A>(entries: seq<Entry>, classNames: seq<string>, i: nat, load: Blob -> Option<A>)
    requires i < |classNames|
    requires LoadFiles(classNames[i], ClassFiles(entries, classNames[i]), load).Ok?
    ensures var imgs := LoadFiles(classNames[i], ClassFiles(entries, classNames[i]), load).value;
            AllFromTheirClass(entries, classNames, imgs, Repeat(i, |imgs|), load)
  {
    var files := ClassFiles(entries, classNames[i]);
    var imgs := LoadFiles(classNames[i], files, load).value;
    forall k | 0 <= k < |imgs|
      ensures LoadedFromClass(entries, classNames, Repeat(i, |imgs|)[k], imgs[k], load)
    {
      assert files[k] in files && LoadNode(files[k].node, load) == Some(imgs[k]);
    }
  }

  /** Each image is the load of a `.npy` file of the directory its label
      names. */
  lemma {:induction false} ImagesFromTheirClass<A>(entries: seq<Entry>, classNames: seq<string>, i: nat,
                                                   load: Blob -> Option<A>)
    requires i <= |classNames|
    requires LoadFrom(entries, classNames, i, load).Ok?
    ensures AllFromTheirClass(entries, classNames, LoadFrom(entries, classNames, i, load).value.0,
                              LoadFrom(entries, classNames, i, load).value.1, load)
    decreases |classNames| - i
  {
    if i < |classNames| {
      LoadFromStep(entries, classNames, i, load);
      var imgs := LoadFiles(classNames[i], ClassFiles(entries, classNames[i]), load).value;
      var rest := LoadFrom(entries, classNames, i + 1, load).value;
      ClassImagesFromClass(entries, classNames, i, load);
      ImagesFromTheirClass(entries, classNames, i + 1, load);
      AllFromTheirClassConcat(entries, classNames, imgs, Repeat(i, |imgs|), rest.0, rest.1, load);
    }
  }

  /** What a successful load returns: labels in class order, class `j`
      labelling exactly as many images as its directory has `.npy` files
      (none for a plain file, which still takes up index `j`), and each
      image loaded from a file of its own class. */
  lemma LoadedFacts<A>(input: Option<Node>, load: Blob -> Option<A>)
    requires LoadPreprocessedData(input, load).Ok?
    ensures var r := LoadPreprocessedData(input, load).value;
            var entries := input.value.entries;
            && (forall a, b :: 0 <= a < b < |r.labels| ==> r.labels[a] <= r.labels[b])
            && (forall j :: 0 <= j < |r.classNames| ==>
                  CountOf(r.labels, j) == |ClassFiles(entries, r.classNames[j])|)
            && AllFromTheirClass(entries, r.classNames, r.images, r.labels, load)
  {
    var entries := input.value.entries;
    var classNames := SortStrings(Names(entries));
    LabelsAscend(entries, classNames, 0, load);
    ImagesFromTheirClass(entries, classNames, 0, load);
    forall j | 0 <= j < |classNames|
      ensures CountOf(LoadFrom(entries, classNames, 0, load).value.1, j) == |ClassFiles(entries, classNames[j])|
    {
      LabelCounts(entries, classNames, 0, load, j);
    }
  }

  /** Whatever the order of the listing, the same set of entry names gives
      the same class vocabulary and hence the same labels. */
  lemma ClassNamesIgnoreListingOrder<A>(a: seq<Entry>, b: seq<Entry>, load: Blob -> Option<A>)
    requires multiset(Names(a)) == multiset(Names(b))
    requires LoadPreprocessedData(Some(Dir(a)), load).Ok? && LoadPreprocessedData(Some(Dir(b)), load).Ok?
    ensures LoadPreprocessedData(Some(Dir(a)), load).value.classNames
            == LoadPreprocessedData(Some(Dir(b)), load).value.classNames
  {
    SortIgnoresListingOrder(Names(a), Names(b));
  }

  // ---------------------------------------------------------------------
  // The class-info record written next to the cloud model

  /** `class_info.json`: the class list, the input shape and a version
      string (the training date is left out). */
  datatype ClassInfo = ClassInfo(classes: seq<string>, inputShape: seq<nat>, version: string)

  const InputShape: seq<nat> := [96, 96, 3]

  /** The record the training script writes: only when loading succeeded
      and every later step of the script returned (`trained`: the label
      encoding, the split, the fit and the three model exports), with the
      loader's class names, sorted and covering the whole listing, the
      input shape 96x96x3 and version "1.0". */
  function TrainedClassInfo<A>(input: Option<Node>, load: Blob -> Option<A>, trained: bool): (r: Option<ClassInfo>)
    ensures r.Some? <==> LoadPreprocessedData(input, load).Ok? && trained
    ensures r.Some? ==> r.value.classes == LoadPreprocessedData(input, load).value.classNames
                        && SortedStrings(r.value.classes)
                        && multiset(r.value.classes) == multiset(Names(input.value.entries))
                        && r.value.inputShape == [96, 96, 3] && r.value.version == "1.0"
  {
    match LoadPreprocessedData(input, load)
    case Err(_) => None
    case Ok(loaded) => if trained then Some(ClassInfo(loaded.classNames, InputShape, "1.0")) else None
  }
}

=== FILE: prepare.dfy ===
/** The dataset organizer: checks that the raw dataset has a folder for
    every expected disease class, then copies the enhanced images of each
    class into `train/<class>/` and `validation/<class>/`. */
module PrepareDataset {
  import opened Common
  import opened FileTree

  /** The class folders the raw dataset must contain, in reporting order. */
  const ExpectedClasses: seq<string> :=
    ["healthy_leaf", "early_blight_leaf", "late_blight_leaf", "septoria_leaf"]

  /** The seed handed to the splitter. */
  const SplitSeed: int := 42

  /** The default share of a class sent to validation. */
  const DefaultValidationSplit: real := 0.2

  // ---------------------------------------------------------------------
  // Structure verification

  /** The names of `names` with no entry of that name in `source`, in the
      order of `names`. */
  function MissingClasses(source: Option<Node>, names: seq<string>): (r: seq<string>)
    ensures forall c :: c in r <==> c in names && !ExistsIn(source, c)
    ensures SubsequenceOf(r, names)
  {
    if |names| == 0 then []
    else
      var rest := MissingClasses(source, names[1..]);
      if ExistsIn(source, names[0]) then
        assert rest == [] || rest[0] != names[0];
        rest
      else [names[0]] + rest
  }

  /** The outcome of `verify_dataset_structure`: the source folder is
      missing, some class folders are missing (listed in the order of
      `ExpectedClasses`), or everything is in place. */
  datatype Structure = SourceMissing | MissingClassFolders(missing: seq<string>) | Complete

  function VerifyDatasetStructure(source: Option<Node>): (r: Structure)
    ensures r.SourceMissing? <==> source.None?
    ensures r.MissingClassFolders? ==>
              |r.missing| > 0 && SubsequenceOf(r.missing, ExpectedClasses)
              && forall c :: c in r.missing <==> c in ExpectedClasses && !ExistsIn(source, c)
  {
    if source.None? then SourceMissing
    else
      var missing := MissingClasses(source, ExpectedClasses);
      if |missing| > 0 then MissingClassFolders(missing) else Complete
  }

  /** The boolean `verify_dataset_structure` returns. */
  predicate Verified(source: Option<Node>)
  {
    VerifyDatasetStructure(source).Complete?
  }

  /** Verification passes exactly when the source exists and has an entry
      for every expected class. */
  lemma VerifiedIffAllClassesExist(source: Option<Node>)
    ensures Verified(source) <==> source.Some? && forall c :: c in ExpectedClasses ==> ExistsIn(source, c)
  {
    if source.Some? {
      var missing := MissingClasses(source, ExpectedClasses);
      if |missing| > 0 {
        assert missing[0] in missing;
      }
    }
  }

  // ---------------------------------------------------------------------
  // Splitting and copying

  /** The names of a class directory's entries that end, case-sensitively,
      in `.jpg`, `.jpeg` or `.png`, in listing order. */
  function ImageFiles(entries: seq<Entry>): (r: seq<string>)
    ensures forall n :: n in r <==> n in Names(entries) && IsImageNameExact(n)
    ensures SubsequenceOf(r, Names(entries))
  {
    if |entries| == 0 then []
    else
      var rest := ImageFiles(entries[1..]);
      assert Names(entries) == [entries[0].name] + Names(entries[1..]);
      if IsImageNameExact(entries[0].name) then [entries[0].name] + rest
      else
        assert rest == [] || rest[0] != entries[0].name;
        rest
  }

  /** `train_test_split(files, test_size, random_state)`: an oracle that
      returns the training and the validation list. */
  type Splitter = (seq<string>, real, int) -> (seq<string>, seq<string>)

  /** The training and validation lists of one class: a class with fewer
      than two images goes whole into both, any other is split. */
  function SplitPolicy(files: seq<string>, validationSplit: real, splitter: Splitter): (r: (seq<string>, seq<string>))
    ensures |files| < 2 ==> r.0 == files && r.1 == files
    ensures |files| >= 2 ==> r == splitter(files, validationSplit, 42)
  {
    if |files| < 2 then (files, files) else splitter(files, validationSplit, SplitSeed)
  }

  /** A splitter that deals every file of a list of two or more to
      exactly one side, as `train_test_split` does. */
  ghost predicate DealsEveryFile(splitter: Splitter)
  {
    forall files, vs, seed :: |files| >= 2 ==>
      multiset(splitter(files, vs, seed).0) + multiset(splitter(files, vs, seed).1) == multiset(files)
  }

  /** No image of a class is lost by the split: with a splitter that deals
      every file, a class of two or more images has each image on exactly
      one side (as often as it is listed), and a smaller class has each on
      both sides. */
  lemma SplitKeepsEveryFile(files: seq<string>, validationSplit: real, splitter: Splitter)
    requires DealsEveryFile(splitter)
    ensures var r := SplitPolicy(files, validationSplit, splitter);
            && (forall f :: f in files <==> f in r.0 || f in r.1)
            && (|files| >= 2 ==> multiset(r.0) + multiset(r.1) == multiset(files))
            && (|files| < 2 ==> multiset(r.0) == multiset(r.1) == multiset(files))
  {
    var r := SplitPolicy(files, validationSplit, splitter);
    if |files| >= 2 {
      var m := multiset(r.0) + multiset(r.1);
      assert m == multiset(files);
      forall f ensures f in files <==> f in r.0 || f in r.1 {
        assert f in files <==> f in multiset(files);
        assert f in r.0 <==> f in multiset(r.0);
        assert f in r.1 <==> f in multiset(r.1);
      }
    }
  }

  /** Dealing every file implies the length count the progress counter
      relies on. */
  lemma DealingPartitions(splitter: Splitter)
    requires DealsEveryFile(splitter)
    ensures Partitions(splitter)
  {
    forall files, vs, seed | |files| >= 2
      ensures |splitter(files, vs, seed).0| + |splitter(files, vs, seed).1| == |files|
    {
      var s := splitter(files, vs, seed);
      assert |multiset(s.0) + multiset(s.1)| == |multiset(files)|;
    }
  }

  datatype Split = Train | Validation

  function SplitDir(s: Split): string
  {
    match s
    case Train => "train"
    case Validation => "validation"
  }

  /** An image written to `<output>/<split>/<class>/<name>`. */
  datatype Copy = Copy(split: Split, cls: string, name: string, content: Blob)

  /** The path of a copy below the output directory, one segment per level. */
  function OutputPath(c: Copy): seq<string>
  {
    [SplitDir(c.split), c.cls, c.name]
  }

  /** `cv2.imread` followed by the enhancement and `cv2.imwrite` of one
      image: `enhance` is `None` when the file does not decode, and a name
      that is missing or names a directory never decodes. */
  function Enhanced(entries: seq<Entry>, name: string, enhance: Blob -> Option<Blob>): Option<Blob>
  {
    match Find(entries, name)
    case Some(File(b)) => enhance(b)
    case _ => None
  }

  /** The script stops at the first image it cannot read (the colour
      conversion of a missing image raises). */
  datatype Failure = Unreadable(cls: string, name: string)

  /** The copies made so far and the failure that stopped the run, if any. */
  datatype Progress = Progress(writes: seq<Copy>, failure: Option<Failure>)

  /** Copies `names` of class `cls` into `split`, in order, stopping at the
      first unreadable one. */
  function CopyFiles(split: Split, cls: string, entries: seq<Entry>, names: seq<string>,
                     enhance: Blob -> Option<Blob>): (r: Progress)
    ensures |r.writes| <= |names|
    ensures r.failure.None? ==> |r.writes| == |names|
    ensures r.failure.Some? ==>
              |r.writes| < |names| && r.failure.value == Unreadable(cls, names[|r.writes|])
              && Enhanced(entries, names[|r.writes|], enhance).None?
    ensures forall k :: 0 <= k < |r.writes| ==>
              r.writes[k].split == split && r.writes[k].cls == cls && r.writes[k].name == names[k]
              && Enhanced(entries, names[k], enhance) == Some(r.writes[k].content)
  {
    if |names| == 0 then Progress([], None)
    else match Enhanced(entries, names[0], enhance)
      case None => Progress([], Some(Unreadable(cls, names[0])))
      case Some(content) =>
        var rest := CopyFiles(split, cls, entries, names[1..], enhance);
        Progress([Copy(split, cls, names[0], content)] + rest.writes, rest.failure)
  }

  /** One class: its training list is copied first, then its validation
      list. */
  function ClassRun(cls: Entry, validationSplit: real, splitter: Splitter,
                    enhance: Blob -> Option<Blob>): Progress
    requires cls.node.Dir?
  {
    var lists := SplitPolicy(ImageFiles(cls.node.entries), validationSplit, splitter);
    var t := CopyFiles(Train, cls.name, cls.node.entries, lists.0, enhance);
    if t.failure.Some? then t
    else
      var v := CopyFiles(Validation, cls.name, cls.node.entries, lists.1, enhance);
      Progress(t.writes + v.writes, v.failure)
  }

  /** The class directories, in listing order. */
  function ClassDirs(entries: seq<Entry>): (r: seq<Entry>)
    ensures forall k :: 0 <= k < |r| ==> r[k].node.Dir?
    ensures forall e :: e in r <==> e in entries && e.node.Dir?
  {
    if |entries| == 0 then []
    else if entries[0].node.Dir? then [entries[0]] + ClassDirs(entries[1..])
    else ClassDirs(entries[1..])
  }

  function AllClasses(classes: seq<Entry>, validationSplit: real, splitter: Splitter,
                      enhance: Blob -> Option<Blob>): Progress
    requires forall k :: 0 <= k < |classes| ==> classes[k].node.Dir?
  {
    if |classes| == 0 then Progress([], None)
    else
      var p := ClassRun(classes[0], validationSplit, splitter, enhance);
      if p.failure.Some? then p
      else
        var rest := AllClasses(classes[1..], validationSplit, splitter, enhance);
        Progress(p.writes + rest.writes, rest.failure)
  }

  /** `total_files`: the images counted before anything is copied. */
  function TotalImages(classes: seq<Entry>): nat
    requires forall k :: 0 <= k < |classes| ==> classes[k].node.Dir?
  {
    if |classes| == 0 then 0
    else |ImageFiles(classes[0].node.entries)| + TotalImages(classes[1..])
  }

  /** The copies the split policy plans: both lists of every class. */
  function PlannedCopies(classes: seq<Entry>, validationSplit: real, splitter: Splitter): nat
    requires forall k :: 0 <= k < |classes| ==> classes[k].node.Dir?
  {
    if |classes| == 0 then 0
    else
      var lists := SplitPolicy(ImageFiles(classes[0].node.entries), validationSplit, splitter);
      |lists.0| + |lists.1| + PlannedCopies(classes[1..], validationSplit, splitter)
  }

  /** The classes holding exactly one image. */
  function SingleImageClasses(classes: seq<Entry>): nat
    requires forall k :: 0 <= k < |classes| ==> classes[k].node.Dir?
  {
    if |classes| == 0 then 0
    else (if |ImageFiles(classes[0].node.entries)| == 1 then 1 else 0) + SingleImageClasses(classes[1..])
  }

  datatype OrganizeError = SourceNotFound | SourceNotADirectory

  /** What `organize_dataset` leaves behind: the class directories it saw,
      `total_files`, the copies written (`processed_files` is their number),
      and the failure that stopped it, if any. */
  datatype Organized = Organized(classes: seq<string>, total: nat, writes: seq<Copy>, failure: Option<Failure>)

  function OrganizeDataset(source: Option<Node>, validationSplit: real, splitter: Splitter,
                           enhance: Blob -> Option<Blob>): (r: Result<Organized, OrganizeError>)
    ensures source.None? <==> r == Err(SourceNotFound)
    ensures source.Some? && source.value.File? <==> r == Err(SourceNotADirectory)
  {
    match source
    case None => Err(SourceNotFound)
    case Some(File(_)) => Err(SourceNotADirectory)
    case Some(Dir(entries)) =>
      var classes := ClassDirs(entries);
      var p := AllClasses(classes, validationSplit, splitter, enhance);
      Ok(Organized(Names(classes), TotalImages(classes), p.writes, p.failure))
  }

  // ---------------------------------------------------------------------
  // Properties of the organizer

  /** A readable class with fewer than two images writes each of them to
      training and then to validation. */
  lemma SmallClassCopiedToBoth(cls: Entry, validationSplit: real, splitter: Splitter,
                               enhance: Blob -> Option<Blob>)
    requires cls.node.Dir? && |ImageFiles(cls.node.entries)| < 2
    requires ClassRun(cls, validationSplit, splitter, enhance).failure.None?
    ensures |ClassRun(cls, validationSplit, splitter, enhance).writes| == 2 * |ImageFiles(cls.node.entries)|
    ensures forall k :: 0 <= k < |ImageFiles(cls.node.entries)| ==>
              ClassRun(cls, validationSplit, splitter, enhance).writes[k].split == Train
              && ClassRun(cls, validationSplit, splitter, enhance).writes[k].name == ImageFiles(cls.node.entries)[k]
    ensures forall k :: |ImageFiles(cls.node.entries)| <= k < 2 * |ImageFiles(cls.node.entries)| ==>
              ClassRun(cls, validationSplit, splitter, enhance).writes[k].split == Validation
              && ClassRun(cls, validationSplit, splitter, enhance).writes[k].name
                 == ImageFiles(cls.node.entries)[k - |ImageFiles(cls.node.entries)|]
  {
  }

  /** Every copy keeps its source file name under `train/<class>/` or
      `validation/<class>/`, was planned by the split policy for its class,
      and holds the enhanced bytes of that source file. */
  lemma {:induction false} CopiesComeFromPlan(classes: seq<Entry>, validationSplit: real, splitter: Splitter,
                                              enhance: Blob -> Option<Blob>, c: Copy)
    requires forall k :: 0 <= k < |classes| ==> classes[k].node.Dir?
    requires c in AllClasses(classes, validationSplit, splitter, enhance).writes
    ensures exists i :: 0 <= i < |classes| && CopyFromClass(classes[i], validationSplit, splitter, enhance, c)
  {
    var p := ClassRun(classes[0], validationSplit, splitter, enhance);
    if c in p.writes {
      ClassCopiesFromPlan(classes[0], validationSplit, splitter, enhance, c);
    } else {
      CopiesComeFromPlan(classes[1..], validationSplit, splitter, enhance, c);
      var i :| 0 <= i < |classes[1..]| && CopyFromClass(classes[1..][i], validationSplit, splitter, enhance, c);
      assert classes[i + 1] == classes[1..][i];
    }
  }

  predicate CopyFromClass(cls: Entry, validationSplit: real, splitter: Splitter,
                          enhance: Blob -> Option<Blob>, c: Copy)
    requires cls.node.Dir?
  {
    var lists := SplitPolicy(ImageFiles(cls.node.entries), validationSplit, splitter);
    && OutputPath(c) == [SplitDir(c.split), cls.name, c.name]
    && c.cls == cls.name
    && c.name in (if c.split == Train then lists.0 else lists.1)
    && Enhanced(cls.node.entries, c.name, enhance) == Some(c.content)
  }

  lemma ClassCopiesFromPlan(cls: Entry, validationSplit: real, splitter: Splitter,
                            enhance: Blob -> Option<Blob>, c: Copy)
    requires cls.node.Dir?
    requires c in ClassRun(cls, validationSplit, splitter, enhance).writes
    ensures CopyFromClass(cls, validationSplit, splitter, enhance, c)
  {
    var lists := SplitPolicy(ImageFiles(cls.node.entries), validationSplit, splitter);
    var t := CopyFiles(Train, cls.name, cls.node.entries, lists.0, enhance);
    if c in t.writes {
      var k :| 0 <= k < |t.writes| && t.writes[k] == c;
    } else {
      var v := CopyFiles(Validation, cls.name, cls.node.entries, lists.1, enhance);
      var k :| 0 <= k < |v.writes| && v.writes[k] == c;
    }
  }

  /** When no image fails to read, `processed_files` ends at the sum over
      classes of the training and validation list lengths. */
  lemma {:induction false} ProcessedIsPlanned(classes: seq<Entry>, validationSplit: real, splitter: Splitter,
                                              enhance: Blob -> Option<Blob>)
    requires forall k :: 0 <= k < |classes| ==> classes[k].node.Dir?
    requires AllClasses(classes, validationSplit, splitter, enhance).failure.None?
    ensures |AllClasses(classes, validationSplit, splitter, enhance).writes|
            == PlannedCopies(classes, validationSplit, splitter)
  {
    if |classes| > 0 {
      ProcessedIsPlanned(classes[1..], validationSplit, splitter, enhance);
    }
  }

  /** The splitter divides a list of two or more names between its outputs. */
  ghost predicate Partitions(splitter: Splitter)
  {
    forall files, vs, seed :: |files| >= 2 ==>
      |splitter(files, vs, seed).0| + |splitter(files, vs, seed).1| == |files|
  }

  /** With a splitter that partitions, the copies planned exceed the images
      counted by exactly the number of single-image classes: such a class
      is copied twice but counted once. */
  lemma {:induction false} PlannedExceedsTotal(classes: seq<Entry>, validationSplit: real, splitter: Splitter)
    requires forall k :: 0 <= k < |classes| ==> classes[k].node.Dir?
    requires Partitions(splitter)
    ensures PlannedCopies(classes, validationSplit, splitter)
            == TotalImages(classes) + SingleImageClasses(classes)
  {
    if |classes| > 0 {
      PlannedExceedsTotal(classes[1..], validationSplit, splitter);
    }
  }

  /** When every image reads, `processed_files` ends at `total_files` plus
      the number of single-image classes. */
  lemma ProcessedCount(source: Option<Node>, validationSplit: real, splitter: Splitter,
                       enhance: Blob -> Option<Blob>)
    requires Partitions(splitter)
    requires OrganizeDataset(source, validationSplit, splitter, enhance).Ok?
    requires OrganizeDataset(source, validationSplit, splitter, enhance).value.failure.None?
    ensures var o := OrganizeDataset(source, validationSplit, splitter, enhance).value;
            |o.writes| == o.total + SingleImageClasses(ClassDirs(source.value.entries))
  {
    var classes := ClassDirs(source.value.entries);
    ProcessedIsPlanned(classes, validationSplit, splitter, enhance);
    PlannedExceedsTotal(classes, validationSplit, splitter);
  }
}

=== FILE: preprocess.dfy ===
/** The preprocessor: checks that the raw dataset holds images, then saves
    one preprocessed array per readable image as `<class>/<stem>.npy`. */
module Preprocess {
  import opened Common
  import opened FileTree

  /** The default `target_size` of `preprocess_image`, in pixels per side. */
  const TargetSize: nat := 224

  // ---------------------------------------------------------------------
  // Dataset check

  /** The names in a class directory that end in `.png`, `.jpg` or `.jpeg`
      in any letter case, whatever kind of entry they name. */
  function ImageNamesIn(files: seq<Entry>): (r: nat)
    ensures r <= |files|
    ensures r > 0 <==> exists j :: 0 <= j < |files| && IsImageNameAnyCase(files[j].name)
  {
    if |files| == 0 then 0
    else
      var rest := ImageNamesIn(files[1..]);
      assert rest > 0 <==> exists j :: 1 <= j < |files| && IsImageNameAnyCase(files[j].name) by {
        if rest > 0 {
          var j :| 0 <= j < |files[1..]| && IsImageNameAnyCase(files[1..][j].name);
          assert files[j + 1] == files[1..][j];
        }
        if exists j :: 1 <= j < |files| && IsImageNameAnyCase(files[j].name) {
          var j :| 1 <= j < |files| && IsImageNameAnyCase(files[j].name);
          assert files[1..][j - 1] == files[j];
        }
      }
      (if IsImageNameAnyCase(files[0].name) then 1 else 0) + rest
  }

  /** `image_count`: image names summed over the class directories; plain
      files at the top level add nothing. */
  function ImageCount(entries: seq<Entry>): nat
  {
    if |entries| == 0 then 0
    else
      (if entries[0].node.Dir? then ImageNamesIn(entries[0].node.entries) else 0)
      + ImageCount(entries[1..])
  }

  /** Some class directory holds an image name. */
  predicate HasClassImage(entries: seq<Entry>)
  {
    exists i, j :: 0 <= i < |entries| && entries[i].node.Dir?
      && 0 <= j < |entries[i].node.entries| && IsImageNameAnyCase(entries[i].node.entries[j].name)
  }

  /** The count is positive exactly when some class directory holds an
      image name. */
  lemma {:induction false} CountPositiveIffClassImage(entries: seq<Entry>)
    ensures ImageCount(entries) > 0 <==> HasClassImage(entries)
  {
    if |entries| > 0 {
      var rest := entries[1..];
      CountPositiveIffClassImage(rest);
      if HasClassImage(entries) {
        var i, j :| 0 <= i < |entries| && entries[i].node.Dir?
                    && 0 <= j < |entries[i].node.entries|
                    && IsImageNameAnyCase(entries[i].node.entries[j].name);
        if i > 0 {
          assert rest[i - 1] == entries[i];
        }
      }
      if ImageCount(rest) > 0 {
        var i, j :| 0 <= i < |rest| && rest[i].node.Dir?
                    && 0 <= j < |rest[i].node.entries|
                    && IsImageNameAnyCase(rest[i].node.entries[j].name);
        assert entries[i + 1] == rest[i];
      }
    }
  }

  /** A plain file at the top level never changes the count. */
  lemma {:induction false} TopLevelFilesIgnored(entries: seq<Entry>, name: string, blob: Blob)
    ensures ImageCount(entries + [Entry(name, File(blob))]) == ImageCount(entries)
  {
    if |entries| > 0 {
      assert (entries + [Entry(name, File(blob))])[1..] == entries[1..] + [Entry(name, File(blob))];
      TopLevelFilesIgnored(entries[1..], name, blob);
    }
  }

  /** Listing a directory that is a plain file raises. */
  datatype ListingError = NotADirectory

  /** `check_dataset`: `false` for a missing directory; otherwise `true`
      exactly when the count is positive. */
  function CheckDataset(input: Option<Node>): (r: Result<bool, ListingError>)
    ensures input.None? ==> r == Ok(false)
    ensures input.Some? && input.value.File? ==> r == Err(NotADirectory)
    ensures input.Some? && input.value.Dir? ==> r == Ok(HasClassImage(input.value.entries))
  {
    match input
    case None => Ok(false)
    case Some(File(_)) => Err(NotADirectory)
    case Some(Dir(entries)) =>
      CountPositiveIffClassImage(entries);
      Ok(ImageCount(entries) > 0)
  }

  // ---------------------------------------------------------------------
  // Processing

  /** Reading, resizing, enhancing and normalising one image and encoding
      the array as written by `np.save`: `None` when the bytes do not decode
      as an image. The second argument is the target side length. */
  type Preprocessor = (Blob, nat) -> Option<Blob>

  /** `preprocess_image`: `None` exactly when `cv2.imread` yields nothing,
      which is also the case for a directory. */
  function PreprocessImage(n: Node, preprocess: Preprocessor, size: nat): (r: Option<Blob>)
    ensures r.None? <==> n.Dir? || preprocess(n.blob, size).None?
    ensures r.Some? ==> n.File? && r == preprocess(n.blob, size)
  {
    if n.File? then preprocess(n.blob, size) else None
  }

  /** The output name: the file name without its last extension (the
      part from the last dot, which holds no other dot), then `.npy`. */
  function NpyName(name: string): (r: string)
    ensures r == SplitExt(name).0 + ".npy"
    ensures |r| >= 4 && EndsWith(r, ".npy")
    ensures exists ext :: name == r[..|r| - 4] + ext
              && (ext == "" || (ext[0] == '.' && forall j :: 0 < j < |ext| ==> ext[j] != '.'))
  {
    var r := StemOf(name) + ".npy";
    var ext := SplitExt(name).1;
    assert r[..|r| - 4] == StemOf(name);
    assert name == r[..|r| - 4] + ext;
    assert r[|r| - 4..] == ".npy";
    r
  }

  /** Two image names of a class are saved under the same `.npy` name
      exactly when they share a stem, whatever their extensions. */
  lemma NpyNamesCollideIffSameStem(a: string, b: string)
    ensures NpyName(a) == NpyName(b) <==> StemOf(a) == StemOf(b)
  {
    var sa, sb := StemOf(a), StemOf(b);
    if NpyName(a) == NpyName(b) {
      assert (sa + ".npy")[..|sa|] == sa;
      assert (sb + ".npy")[..|sb|] == sb;
      assert |sa| == |sb|;
    }
  }

  /** An array saved as `<output>/<cls>/<name>`. */
  datatype Saved = Saved(cls: string, name: string, content: Blob)

  function FileSaves(cls: string, e: Entry, preprocess: Preprocessor): seq<Saved>
  {
    if !IsImageNameAnyCase(e.name) then []
    else match PreprocessImage(e.node, preprocess, TargetSize)
      case None => []
      case Some(arr) => [Saved(cls, NpyName(e.name), arr)]
  }

  function ClassSaves(cls: string, files: seq<Entry>, preprocess: Preprocessor): (r: seq<Saved>)
    ensures |r| <= ImageNamesIn(files)
  {
    if |files| == 0 then []
    else FileSaves(cls, files[0], preprocess) + ClassSaves(cls, files[1..], preprocess)
  }

  function DatasetSaves(entries: seq<Entry>, preprocess: Preprocessor): (r: seq<Saved>)
    ensures |r| <= ImageCount(entries)
  {
    if |entries| == 0 then []
    else
      (if entries[0].node.Dir? then ClassSaves(entries[0].name, entries[0].node.entries, preprocess) else [])
      + DatasetSaves(entries[1..], preprocess)
  }

  /** `process_dataset(input_dir, output_dir)`: the saves in order; listing
      a missing input or a plain file raises. */
  datatype ProcessError = InputNotFound | InputNotADirectory

  function ProcessDataset(input: Option<Node>, preprocess: Preprocessor): (r: Result<seq<Saved>, ProcessError>)
    ensures input.None? <==> r == Err(InputNotFound)
    ensures input.Some? && input.value.File? <==> r == Err(InputNotADirectory)
    ensures r.Ok? ==> |r.value| <= ImageCount(input.value.entries)
  {
    match input
    case None => Err(InputNotFound)
    case Some(File(_)) => Err(InputNotADirectory)
    case Some(Dir(entries)) => Ok(DatasetSaves(entries, preprocess))
  }

  // ---------------------------------------------------------------------
  // Properties of the processing

  /** The provenance of a save: an image-named, readable entry of a class
      directory, saved under that class with the `.npy` name. */
  predicate SavedFrom(s: Saved, cls: string, e: Entry, preprocess: Preprocessor)
  {
    && s.cls == cls
    && IsImageNameAnyCase(e.name)
    && s.name == NpyName(e.name)
    && PreprocessImage(e.node, preprocess, TargetSize) == Some(s.content)
  }

  lemma {:induction false} ClassSavesProvenance(cls: string, files: seq<Entry>, preprocess: Preprocessor, s: Saved)
    requires s in ClassSaves(cls, files, preprocess)
    ensures exists j :: 0 <= j < |files| && SavedFrom(s, cls, files[j], preprocess)
  {
    if s in FileSaves(cls, files[0], preprocess) {
      assert SavedFrom(s, cls, files[0], preprocess);
    } else {
      ClassSavesProvenance(cls, files[1..], preprocess, s);
      var j :| 0 <= j < |files[1..]| && SavedFrom(s, cls, files[1..][j], preprocess);
      assert files[j + 1] == files[1..][j];
    }
  }

  /** Nothing is saved for a non-image name, an unreadable image or a
      top-level file: every save comes from a readable image in a class
      directory. */
  lemma {:induction false} SavesProvenance(entries: seq<Entry>, preprocess: Preprocessor, s: Saved)
    requires s in DatasetSaves(entries, preprocess)
    ensures exists i, j :: 0 <= i < |entries| && entries[i].node.Dir?
              && 0 <= j < |entries[i].node.entries|
              && SavedFrom(s, entries[i].name, entries[i].node.entries[j], preprocess)
  {
    var e := entries[0];
    if e.node.Dir? && s in ClassSaves(e.name, e.node.entries, preprocess) {
      ClassSavesProvenance(e.name, e.node.entries, preprocess, s);
    } else {
      SavesProvenance(entries[1..], preprocess, s);
      var i, j :| 0 <= i < |entries[1..]| && entries[1..][i].node.Dir?
                  && 0 <= j < |entries[1..][i].node.entries|
                  && SavedFrom(s, entries[1..][i].name, entries[1..][i].node.entries[j], preprocess);
      assert entries[i + 1] == entries[1..][i];
    }
  }

  lemma {:induction false} ReadableImageSavedInClass(cls: string, files: seq<Entry>, preprocess: Preprocessor, j: nat)
    requires j < |files| && IsImageNameAnyCase(files[j].name)
    requires PreprocessImage(files[j].node, preprocess, TargetSize).Some?
    ensures Saved(cls, NpyName(files[j].name), PreprocessImage(files[j].node, preprocess, TargetSize).value)
              in ClassSaves(cls, files, preprocess)
  {
    if j > 0 {
      assert files[1..][j - 1] == files[j];
      ReadableImageSavedInClass(cls, files[1..], preprocess, j - 1);
    } else {
      assert FileSaves(cls, files[0], preprocess)[0]
             == Saved(cls, NpyName(files[0].name), PreprocessImage(files[0].node, preprocess, TargetSize).value);
    }
  }

  /** Every readable image-named entry of a class directory is saved. */
  lemma {:induction false} ReadableImageSaved(entries: seq<Entry>, preprocess: Preprocessor, i: nat, j: nat)
    requires i < |entries| && entries[i].node.Dir?
    requires j < |entries[i].node.entries| && IsImageNameAnyCase(entries[i].node.entries[j].name)
    requires PreprocessImage(entries[i].node.entries[j].node, preprocess, TargetSize).Some?
    ensures Saved(entries[i].name, NpyName(entries[i].node.entries[j].name),
                  PreprocessImage(entries[i].node.entries[j].node, preprocess, TargetSize).value)
              in DatasetSaves(entries, preprocess)
  {
    if i > 0 {
      assert entries[1..][i - 1] == entries[i];
      ReadableImageSaved(entries[1..], preprocess, i - 1, j);
    } else {
      ReadableImageSavedInClass(entries[0].name, entries[0].node.entries, preprocess, j);
    }
  }

  /** Two images whose names differ only in the extension are saved under
      the same name, so the later one overwrites the earlier. */
  lemma ExtensionsCollide()
    ensures NpyName("leaf.jpg") == NpyName("leaf.png") == "leaf.npy"
  {
    var a, b := "leaf.jpg", "leaf.png";
    assert a[4] == '.' && a[5] != '.' && a[6] != '.' && a[7] != '.';
    assert b[4] == '.' && b[5] != '.' && b[6] != '.' && b[7] != '.';
    assert LastIndexOf(a, '.') == 4 && LastIndexOf(b, '.') == 4;
    assert a[0] != '.' && b[0] != '.';
    assert a[..4] == "leaf" && b[..4] == "leaf";
  }
}

=== FILE: tomato_cnn.dfy ===
/** The training-configuration rules of the two-phase trainer: the
    train/validation class check, the classifier head, the phase-2 freezing
    of all but the last 20 backbone layers, and the calibration images fed
    to the quantizing converter. */
module TomatoCnn {
  import opened Common
  import opened FileTree

  // ---------------------------------------------------------------------
  // Class check

  datatype ClassError = ClassMismatch(train: seq<string>, valid: seq<string>)

  /** `prepare_dataset`: fails when the training and validation class-name
      collections differ as sets; otherwise the training names are the
      class names. */
  function CheckClasses(train: seq<string>, valid: seq<string>): (r: Result<seq<string>, ClassError>)
    ensures r.Ok? <==> forall c :: c in train <==> c in valid
    ensures r.Ok? ==> r.value == train
    ensures r.Err? ==> r.error == ClassMismatch(train, valid)
  {
    var s, t := set c | c in train, set c | c in valid;
    assert s == t <==> forall c :: c in train <==> c in valid by {
      if s == t {
        forall c ensures c in train <==> c in valid {
          assert c in train <==> c in s;
        }
      } else if s - t != {} {
        var c :| c in s - t;
      } else {
        assert t - s != {};
        var c :| c in t - s;
      }
    }
    if s == t then Ok(train) else Err(ClassMismatch(train, valid))
  }

  /** Listing the same classes in another order, or with repeats, never
      raises. */
  lemma OrderDoesNotMatter(train: seq<string>, valid: seq<string>)
    requires multiset(train) == multiset(valid)
    ensures CheckClasses(train, valid).Ok?
  {
    forall c | c in train ensures c in valid {
      assert c in multiset(train);
    }
    forall c | c in valid ensures c in train {
      assert c in multiset(valid);
    }
  }

  /** A class present on one side only always raises. */
  lemma MissingClassRaises(train: seq<string>, valid: seq<string>, c: string)
    requires c in train && c !in valid
    ensures CheckClasses(train, valid) == Err(ClassMismatch(train, valid))
  {
  }

  // ---------------------------------------------------------------------
  // The classifier

  datatype Activation = Relu | Softmax

  /** The layers stacked on the backbone; rates are exact fractions. */
  datatype Layer =
    | Backbone(alpha: real, inputShape: seq<nat>)
    | GlobalAveragePooling
    | Dense(units: nat, activation: Activation)
    | Dropout(rate: real)

  /** `create_model(num_classes)`. */
  function CreateModel(numClasses: nat): seq<Layer>
  {
    [Backbone(0.35, [96, 96, 3]), GlobalAveragePooling, Dense(16, Relu), Dropout(0.3), Dense(numClasses, Softmax)]
  }

  /** The number of outputs of a layer stack: the units of its last dense
      layer. */
  function OutputWidth(layers: seq<Layer>): (r: Option<nat>)
    ensures r.Some? <==> exists i :: 0 <= i < |layers| && layers[i].Dense?
  {
    if |layers| == 0 then None
    else if layers[|layers| - 1].Dense? then Some(layers[|layers| - 1].units)
    else
      var p := layers[..|layers| - 1];
      var r := OutputWidth(p);
      assert (exists i :: 0 <= i < |layers| && layers[i].Dense?)
             <==> exists i :: 0 <= i < |p| && p[i].Dense? by {
        if exists i :: 0 <= i < |layers| && layers[i].Dense? {
          var i :| 0 <= i < |layers| && layers[i].Dense?;
          assert p[i] == layers[i];
        }
        if exists i :: 0 <= i < |p| && p[i].Dense? {
          var i :| 0 <= i < |p| && p[i].Dense?;
          assert p[i] == layers[i];
        }
      }
      r
  }

  /** The model has one softmax output per class of the training set. */
  lemma HeadWidthIsClassCount(classNames: seq<string>)
    ensures OutputWidth(CreateModel(|classNames|)) == Some(|classNames|)
    ensures CreateModel(|classNames|)[|CreateModel(|classNames|)| - 1].activation == Softmax
  {
  }

  // ---------------------------------------------------------------------
  // Phase-2 freezing

  /** Where Python's slice `[:stop]` of a list of length `n` ends, with a
      negative `stop` counted from the end and clamped at 0. */
  function SliceEnd(n: nat, stop: int): (r: nat)
    ensures r <= n
    ensures stop >= 0 ==> r == if stop < n then stop else n
    ensures stop < 0 ==> r + (if -stop < n then -stop else n) == n
  {
    if stop >= 0 then (if stop < n then stop else n)
    else if n + stop > 0 then n + stop
    else 0
  }

  /** The number of backbone layers left trainable in phase 2. */
  const UnfrozenTail: nat := 20

  /** Phase 2: the whole backbone is made trainable, then every layer of
      `layers[:-20]` is frozen again. The result holds one trainable flag
      per layer. */
  method Phase2Trainable(n: nat) returns (trainable: seq<bool>)
    ensures |trainable| == n
    ensures forall i :: 0 <= i < n ==> (trainable[i] <==> i >= n - UnfrozenTail)
  {
    trainable := seq(n, _ => true);
    var end := SliceEnd(n, -(UnfrozenTail as int));
    var i := 0;
    while i < end
      invariant 0 <= i <= end
      invariant |trainable| == n
      invariant forall j :: 0 <= j < n ==> (trainable[j] <==> j >= i)
    {
      trainable := trainable[i := false];
      i := i + 1;
    }
  }

  /** The number of frozen layers. */
  function FrozenCount(trainable: seq<bool>): nat
  {
    if |trainable| == 0 then 0
    else (if trainable[|trainable| - 1] then 0 else 1) + FrozenCount(trainable[..|trainable| - 1])
  }

  /** Flags that are off exactly below index `m` count `m` frozen layers. */
  lemma {:induction false} FrozenBelow(trainable: seq<bool>, m: nat)
    requires m <= |trainable|
    requires forall i :: 0 <= i < |trainable| ==> (trainable[i] <==> i >= m)
    ensures FrozenCount(trainable) == m
  {
    if |trainable| > 0 {
      var p := trainable[..|trainable| - 1];
      FrozenBelow(p, if |trainable| > m then m else m - 1);
    }
  }

  /** Phase 2 freezes `len - 20` layers, and none when the backbone has 20
      layers or fewer: the length of `layers[:-20]`. */
  lemma Phase2FrozenCount(n: nat, trainable: seq<bool>)
    requires |trainable| == n
    requires forall i :: 0 <= i < n ==> (trainable[i] <==> i >= n - UnfrozenTail)
    ensures FrozenCount(trainable) == SliceEnd(n, -(UnfrozenTail as int))
    ensures FrozenCount(trainable) == if n > UnfrozenTail then n - UnfrozenTail else 0
  {
    FrozenBelow(trainable, if n > UnfrozenTail then n - UnfrozenTail else 0);
  }

  // ---------------------------------------------------------------------
  // Calibration images

  /** The images read per class directory for calibration. */
  const CalibrationPerClass: nat := 20

  datatype CalibrationError = TrainMissing | NotADirectory(name: string) | Unloadable(cls: string, file: string)

  /** `load_img` on a file; a directory never loads. */
  function LoadImg<A>(n: Node, load: Blob -> Option<A>): Option<A>
  {
    if n.File? then load(n.blob) else None
  }

  /** The first 20 entries of one class, in listing order, whatever their
      names, stopping at the first that does not load. */
  function ClassCalibration<A>(cls: string, files: seq<Entry>, load: Blob -> Option<A>): (r: Result<seq<A>, CalibrationError>)
    ensures r.Ok? ==> |r.value| == if |files| < CalibrationPerClass then |files| else CalibrationPerClass
    ensures r.Ok? ==> forall k :: 0 <= k < |r.value| ==> LoadImg(files[k].node, load) == Some(r.value[k])
    ensures r.Err? ==> exists k :: 0 <= k < |files| && k < CalibrationPerClass
                                   && r.error == Unloadable(cls, files[k].name) && LoadImg(files[k].node, load).None?
  {
    var head := if |files| < CalibrationPerClass then files else files[..CalibrationPerClass];
    LoadAll(cls, head, load)
  }

  function LoadAll<A>(cls: string, files: seq<Entry>, load: Blob -> Option<A>): (r: Result<seq<A>, CalibrationError>)
    ensures r.Ok? ==> |r.value| == |files|
                      && forall k :: 0 <= k < |files| ==> LoadImg(files[k].node, load) == Some(r.value[k])
    ensures r.Err? ==> exists k :: 0 <= k < |files| && r.error == Unloadable(cls, files[k].name)
                                   && LoadImg(files[k].node, load).None?
  {
    if |files| == 0 then Ok([])
    else match LoadImg(files[0].node, load)
      case None => Err(Unloadable(cls, files[0].name))
      case Some(img) =>
        var rest := LoadAll(cls, files[1..], load);
        if rest.Err? then
          assert exists k :: 1 <= k < |files| && rest.error == Unloadable(cls, files[k].name)
                             && LoadImg(files[k].node, load).None? by {
            var k :| 0 <= k < |files[1..]| && rest.error == Unloadable(cls, files[1..][k].name)
                     && LoadImg(files[1..][k].node, load).None?;
            assert files[k + 1] == files[1..][k];
          }
          Err(rest.error)
        else Ok([img] + rest.value)
  }

  /** Every top-level entry of `train/` is listed as a class directory; a
      plain file there raises. */
  function AllCalibration<A>(classes: seq<Entry>, load: Blob -> Option<A>): (r: Result<seq<A>, CalibrationError>)
    ensures r.Ok? ==> |r.value| <= CalibrationPerClass * |classes|
    ensures r.Ok? ==> forall k :: 0 <= k < |classes| ==> classes[k].node.Dir?
  {
    if |classes| == 0 then Ok([])
    else
      var c := classes[0];
      if c.node.File? then Err(NotADirectory(c.name))
      else match ClassCalibration(c.name, c.node.entries, load)
        case Err(e) => Err(e)
        case Ok(imgs) =>
          match AllCalibration(classes[1..], load)
          case Err(e) => Err(e)
          case Ok(rest) => Ok(imgs + rest)
  }

  /** `representative_dataset_gen`: the images yielded from `<data>/train`. */
  function RepresentativeDataset<A>(train: Option<Node>, load: Blob -> Option<A>): (r: Result<seq<A>, CalibrationError>)
    ensures train.None? ==> r == Err(TrainMissing)
    ensures train.Some? && train.value.File? ==> r == Err(TrainMissing)
    ensures r.Ok? ==> |r.value| <= CalibrationPerClass * |train.value.entries|
  {
    match train
    case None => Err(TrainMissing)
    case Some(File(_)) => Err(TrainMissing)
    case Some(Dir(classes)) => AllCalibration(classes, load)
  }

  /** The total yielded: each class contributes its first 20 entries, or
      all of them when it has fewer. */
  function CalibrationCount(classes: seq<Entry>): nat
  {
    if |classes| == 0 then 0
    else
      var n := if classes[0].node.Dir? then |classes[0].node.entries| else 0;
      (if n < CalibrationPerClass then n else CalibrationPerClass) + CalibrationCount(classes[1..])
  }

  lemma {:induction false} CalibrationCountExact<A>(classes: seq<Entry>, load: Blob -> Option<A>)
    requires AllCalibration(classes, load).Ok?
    ensures |AllCalibration(classes, load).value| == CalibrationCount(classes)
  {
    if |classes| > 0 {
      CalibrationCountExact(classes[1..], load);
    }
  }
}

=== FILE: workflow.dfy ===
/** The workflow runner: command-line flags select pipeline steps, each
    step becomes one shell command, and the commands run in order until
    one exits with a non-zero status. Running a command is an oracle that
    maps the command text to its exit status. */
module Workflow {
  import opened Common

  datatype Flags = Flags(
    preprocess: bool,
    augment: bool,
    prepare: bool,
    train: bool,
    all: bool,
    samples: int,
    rawDir: Option<string>,
    processedDir: Option<string>,
    augmentedDir: Option<string>,
    dataDir: Option<string>)

  /** The `--samples` default. */
  const DefaultSamples: int := 3

  /** Python truthiness of an optional string argument: an absent option
      and an empty string both count as not given. */
  predicate Given(o: Option<string>)
  {
    o.Some? && o.value != ""
  }

  datatype Step = PreprocessStep | AugmentStep | PrepareStep | TrainStep

  /** Position of a step in the fixed pipeline order. */
  function Rank(s: Step): nat
  {
    match s
    case PreprocessStep => 0
    case AugmentStep => 1
    case PrepareStep => 2
    case TrainStep => 3
  }

  const Pipeline: seq<Step> := [PreprocessStep, AugmentStep, PrepareStep, TrainStep]

  /** A step runs when its own flag or `--all` is set. */
  predicate Requested(f: Flags, s: Step)
  {
    match s
    case PreprocessStep => f.preprocess || f.all
    case AugmentStep => f.augment || f.all
    case PrepareStep => f.prepare || f.all
    case TrainStep => f.train || f.all
  }

  predicate AnyStep(f: Flags)
  {
    f.preprocess || f.augment || f.prepare || f.train || f.all
  }

  function StepIf(f: Flags, s: Step): (r: seq<Step>)
    ensures r == [] || r == [s]
  {
    if Requested(f, s) then [s] else []
  }

  /** The requested steps, as a subsequence of the pipeline order. */
  function SelectedSteps(f: Flags): (steps: seq<Step>)
    ensures forall s :: s in steps <==> Requested(f, s)
    ensures forall i, j :: 0 <= i < j < |steps| ==> Rank(steps[i]) < Rank(steps[j])
    ensures AnyStep(f) <==> |steps| > 0
  {
    StepIf(f, PreprocessStep) + StepIf(f, AugmentStep) + StepIf(f, PrepareStep) + StepIf(f, TrainStep)
  }

  /** The augmentation command: the sample count always, then
      `--input_dir` and `--output_dir` only for the options given. */
  function AugmentCommand(python: string, f: Flags): string
  {
    var cmd := python + " augment_dataset.py --augment --samples " + IntToDecimal(f.samples);
    var cmd := if Given(f.rawDir) then cmd + " --input_dir " + f.rawDir.value else cmd;
    if Given(f.augmentedDir) then cmd + " --output_dir " + f.augmentedDir.value else cmd
  }

  function CommandFor(python: string, f: Flags, s: Step): string
  {
    match s
    case PreprocessStep => python + " preprocess.py"
    case AugmentStep => AugmentCommand(python, f)
    case PrepareStep => python + " prepare_dataset.py"
    case TrainStep => python + " train_model.py"
  }

  /** The commands of a list of steps, in the same order. */
  function CommandsFor(python: string, f: Flags, steps: seq<Step>): (r: seq<string>)
    ensures |r| == |steps|
    ensures forall i :: 0 <= i < |steps| ==> r[i] == CommandFor(python, f, steps[i])
  {
    seq(|steps|, i requires 0 <= i < |steps| => CommandFor(python, f, steps[i]))
  }

  lemma CommandsForAppend(python: string, f: Flags, a: seq<Step>, b: seq<Step>)
    ensures CommandsFor(python, f, a + b) == CommandsFor(python, f, a) + CommandsFor(python, f, b)
  {
  }

  /** The command list, built by the four conditional appends of the
      runner. */
  function Plan(python: string, f: Flags): seq<string>
  {
    var c := [];
    var c := if f.preprocess || f.all then c + [python + " preprocess.py"] else c;
    var c := if f.augment || f.all then c + [AugmentCommand(python, f)] else c;
    var c := if f.prepare || f.all then c + [python + " prepare_dataset.py"] else c;
    if f.train || f.all then c + [python + " train_model.py"] else c
  }

  /** One conditional append adds the command of a step exactly when the
      step is requested. */
  lemma AppendIfRequested(python: string, f: Flags, c: seq<string>, s: Step)
    ensures (if Requested(f, s) then c + [CommandFor(python, f, s)] else c)
            == c + CommandsFor(python, f, StepIf(f, s))
  {
  }

  lemma PlanIsConcatenation(python: string, f: Flags)
    ensures Plan(python, f) == CommandsFor(python, f, StepIf(f, PreprocessStep))
                               + CommandsFor(python, f, StepIf(f, AugmentStep))
                               + CommandsFor(python, f, StepIf(f, PrepareStep))
                               + CommandsFor(python, f, StepIf(f, TrainStep))
  {
    var c0: seq<string> := [];
    AppendIfRequested(python, f, c0, PreprocessStep);
    var c1 := c0 + CommandsFor(python, f, StepIf(f, PreprocessStep));
    AppendIfRequested(python, f, c1, AugmentStep);
    var c2 := c1 + CommandsFor(python, f, StepIf(f, AugmentStep));
    AppendIfRequested(python, f, c2, PrepareStep);
    var c3 := c2 + CommandsFor(python, f, StepIf(f, PrepareStep));
    AppendIfRequested(python, f, c3, TrainStep);
    assert c0 + CommandsFor(python, f, StepIf(f, PreprocessStep))
           == CommandsFor(python, f, StepIf(f, PreprocessStep));
  }

  /** The plan is the selected steps' commands in pipeline order. */
  lemma PlanFollowsSelection(python: string, f: Flags)
    ensures Plan(python, f) == CommandsFor(python, f, SelectedSteps(f))
  {
    var p := StepIf(f, PreprocessStep);
    var a := StepIf(f, AugmentStep);
    var r := StepIf(f, PrepareStep);
    var t := StepIf(f, TrainStep);
    PlanIsConcatenation(python, f);
    CommandsForAppend(python, f, p, a);
    CommandsForAppend(python, f, p + a, r);
    CommandsForAppend(python, f, p + a + r, t);
  }

  lemma AllSelectsEveryStep(python: string, f: Flags)
    requires f.all
    ensures SelectedSteps(f) == Pipeline
    ensures Plan(python, f) == CommandsFor(python, f, Pipeline)
  {
    assert SelectedSteps(f) == [PreprocessStep] + [AugmentStep] + [PrepareStep] + [TrainStep];
    PlanFollowsSelection(python, f);
  }

  /** The four steps' commands are pairwise different, so no command
      appears twice in a plan: they already differ in length, since the
      augmentation command carries at least a one-digit sample count after
      its 40-character script and flags. */
  lemma CommandsDistinct(python: string, f: Flags, s: Step, t: Step)
    requires s != t
    ensures CommandFor(python, f, s) != CommandFor(python, f, t)
  {
    AugmentCommandShape(python, f);
    assert |AugmentCommand(python, f)| >= |python| + 41;
  }

  lemma PlanHasNoDuplicates(python: string, f: Flags)
    ensures forall i, j :: 0 <= i < j < |Plan(python, f)| ==> Plan(python, f)[i] != Plan(python, f)[j]
  {
    PlanFollowsSelection(python, f);
    var steps := SelectedSteps(f);
    forall i, j | 0 <= i < j < |Plan(python, f)|
      ensures Plan(python, f)[i] != Plan(python, f)[j]
    {
      assert Rank(steps[i]) < Rank(steps[j]);
      CommandsDistinct(python, f, steps[i], steps[j]);
    }
  }

  /** The augmentation command always carries `--augment --samples <n>`;
      each directory suffix is present exactly when its option is given. */
  lemma AugmentCommandShape(python: string, f: Flags)
    ensures var head := python + " augment_dataset.py --augment --samples " + IntToDecimal(f.samples);
            var input := if Given(f.rawDir) then " --input_dir " + f.rawDir.value else "";
            var output := if Given(f.augmentedDir) then " --output_dir " + f.augmentedDir.value else "";
            AugmentCommand(python, f) == head + input + output
    ensures !Given(f.rawDir) && !Given(f.augmentedDir) ==>
              AugmentCommand(python, f) == python + " augment_dataset.py --augment --samples " + IntToDecimal(f.samples)
  {
  }

  /** The sample count can be read back from the command's `--samples` token. */
  lemma AugmentSamplesRecoverable(python: string, f: Flags)
    requires !Given(f.rawDir) && !Given(f.augmentedDir)
    ensures var head := python + " augment_dataset.py --augment --samples ";
            var cmd := AugmentCommand(python, f);
            |head| <= |cmd| && cmd[..|head|] == head && ParseInt(cmd[|head|..]) == Some(f.samples)
  {
    var head := python + " augment_dataset.py --augment --samples ";
    var cmd := AugmentCommand(python, f);
    assert cmd == head + IntToDecimal(f.samples);
    assert cmd[|head|..] == IntToDecimal(f.samples);
    IntDecimalRoundTrip(f.samples);
  }

  /** Directory options are not passed to the preprocess, prepare and train
      scripts: changing them changes no command but the augmentation one. */
  lemma DirectoryOptionsIgnored(python: string, f: Flags, g: Flags)
    requires f.(rawDir := g.rawDir, processedDir := g.processedDir,
                augmentedDir := g.augmentedDir, dataDir := g.dataDir) == g
    ensures SelectedSteps(f) == SelectedSteps(g)
    ensures forall s :: s != AugmentStep ==> CommandFor(python, f, s) == CommandFor(python, g, s)
    ensures Given(f.augmentedDir) == Given(g.augmentedDir) && Given(f.rawDir) == Given(g.rawDir)
            && (Given(f.rawDir) ==> f.rawDir == g.rawDir)
            && (Given(f.augmentedDir) ==> f.augmentedDir == g.augmentedDir)
            ==> Plan(python, f) == Plan(python, g)
  {
    assert forall s :: Requested(f, s) == Requested(g, s);
    PlanFollowsSelection(python, f);
    PlanFollowsSelection(python, g);
  }

  // ---------------------------------------------------------------------
  // Sequential execution with early exit

  /** Index of the first command whose exit status is non-zero. */
  function FirstFailure(cmds: seq<string>, exitCode: string -> int): (r: Option<nat>)
    ensures r.Some? ==> r.value < |cmds| && exitCode(cmds[r.value]) != 0
    ensures r.Some? ==> forall j :: 0 <= j < r.value ==> exitCode(cmds[j]) == 0
    ensures r.None? <==> forall j :: 0 <= j < |cmds| ==> exitCode(cmds[j]) == 0
  {
    if |cmds| == 0 then None
    else if exitCode(cmds[0]) != 0 then Some(0)
    else match FirstFailure(cmds[1..], exitCode)
      case None => None
      case Some(k) => Some(k + 1)
  }

  /** Runs the commands in order and stops at the first failure, returning
      its exit status; `executed` lists the commands actually started. */
  method RunCommands(cmds: seq<string>, exitCode: string -> int) returns (code: int, executed: seq<string>)
    ensures FirstFailure(cmds, exitCode).None? ==> code == 0 && executed == cmds
    ensures FirstFailure(cmds, exitCode).Some? ==>
              var k := FirstFailure(cmds, exitCode).value;
              code == exitCode(cmds[k]) && code != 0 && executed == cmds[..k + 1]
  {
    executed := [];
    var i := 0;
    while i < |cmds|
      invariant 0 <= i <= |cmds|
      invariant executed == cmds[..i]
      invariant forall j :: 0 <= j < i ==> exitCode(cmds[j]) == 0
    {
      var status := exitCode(cmds[i]);
      executed := executed + [cmds[i]];
      if status != 0 {
        FirstFailureIsIndex(cmds, exitCode, i);
        return status, executed;
      }
      i := i + 1;
    }
    return 0, executed;
  }

  lemma {:induction false} FirstFailureIsIndex(cmds: seq<string>, exitCode: string -> int, i: nat)
    requires i < |cmds| && exitCode(cmds[i]) != 0
    requires forall j :: 0 <= j < i ==> exitCode(cmds[j]) == 0
    ensures FirstFailure(cmds, exitCode) == Some(i)
    decreases i
  {
    if i > 0 {
      FirstFailureIsIndex(cmds[1..], exitCode, i - 1);
    }
  }

  lemma {:induction false} NoFailureMeansAllSucceed(cmds: seq<string>, exitCode: string -> int)
    ensures FirstFailure(cmds, exitCode).None? <==> forall c :: c in cmds ==> exitCode(c) == 0
  {
    if FirstFailure(cmds, exitCode).None? {
      forall c | c in cmds ensures exitCode(c) == 0 {
        var j :| 0 <= j < |cmds| && cmds[j] == c;
      }
    }
  }

  /** The runner's `main`: with no step flag it prints help and returns 1
      without running anything; otherwise it runs the plan. */
  method RunWorkflow(python: string, f: Flags, exitCode: string -> int) returns (code: int, executed: seq<string>)
    ensures !AnyStep(f) ==> code == 1 && executed == []
    ensures AnyStep(f) ==> |executed| > 0 && executed <= Plan(python, f)
    ensures AnyStep(f) ==> (code == 0 <==> forall c :: c in Plan(python, f) ==> exitCode(c) == 0)
    ensures AnyStep(f) && code == 0 ==> executed == Plan(python, f)
    ensures AnyStep(f) && code != 0 ==>
              code == exitCode(executed[|executed| - 1])
              && forall j :: 0 <= j < |executed| - 1 ==> exitCode(executed[j]) == 0
  {
    if !AnyStep(f) {
      return 1, [];
    }
    var cmds := Plan(python, f);
    code, executed := RunCommands(cmds, exitCode);
    NoFailureMeansAllSucceed(cmds, exitCode);
  }
}
